=== FILE: README.md ===
# Macro dashboard core in Dafny

This project models the decision logic behind a Python dashboard of US economic indicators. The dashboard fetches series from FRED and Yahoo Finance, caches them, classifies each indicator as Bullish, Bearish or Neutral, and estimates when each is next published. The model covers four parts:

- **Two-tier cache** (`src/core/caching/cache_manager.py`): entries expire lazily by time-to-live.
  - The memory tier is bounded, and its LRU access order drives eviction.
  - The disk tier is a keyed store. A file that cannot be read is `Corrupt`.
  - The manager reads memory first and copies disk hits into memory. It writes to both tiers. It also builds the pre-hash cache key.
- **Indicator service** (`src/services/indicator_service.py`): read-through caching per indicator, fetcher dispatch, and the batch that fetches every dashboard indicator.
  - Also the performance monitor (`src/services/performance_monitor.py`): snapshot log, per-operation timing histories, hit/miss counters and reports.
- **Signal classification**:
  - run detection and outlier capping (`data/processing.py`);
  - the warning, status and trend helpers and the status decision of each indicator card (`visualization/warning_signals.py`);
  - the indicator configuration table and its lookups (`src/config/indicator_registry.py`).
- **Release dates**: the fallback estimate of the next publication date and its human-readable line (`data/release_schedule.py`), and the standalone PCE fix (`data/pce_fix.py`). Python's `date`/`datetime` arithmetic is the `Calendar` module. The ordinal and weekday follow `date.toordinal()` and `date.weekday()`.

Modelling conventions:

- Everything is immutable datatypes and pure functions. Cache and monitor states are threaded through operations as values.
- The clock (`time.time()`, `datetime.now()`) is an explicit parameter. So are psutil readings. Cache times are real seconds, fractions included, as `time.time()` returns them; a time-to-live is whole seconds.
- Fetchers and custom status functions are function parameters.
- Python's `None` is `Option.None`. Raised exceptions are `Result.Err` carrying the message.

One module per source component:

| Module | File | Models |
|---|---|---|
| `Wrappers` | wrappers.dfy | `Option` and `Result` |
| `Text` | text.dfy | string helpers |
| `CacheEntries` | cache_entry.dfy | `CacheEntry` |
| `MemoryTier` | memory_cache.dfy | `MemoryCache` |
| `DiskTier` | disk_cache.dfy | `DiskCache` |
| `CacheKeys` | cache_key.dfy | `_generate_key` |
| `TwoTierCache` | cache_manager.dfy | `CacheManager` |
| `IndicatorService` | indicator_service.dfy | `IndicatorService` |
| `PerformanceMonitor` | performance_monitor.dfy | `PerformanceMonitor` |
| `Processing` | processing.dfy | `data/processing.py` |
| `IndicatorRegistry` | indicator_registry.dfy | the indicator table and its lookups |
| `WarningSignals` | warning_signals.dfy | `visualization/warning_signals.py` |
| `Calendar` | calendar.dfy | proleptic Gregorian dates |
| `ReleaseSchedule` | release_schedule.dfy | `data/release_schedule.py` |
| `PceFix` | pce_fix.dfy | `data/pce_fix.py` |

## Model

| member | source | states |
|---|---|---|
| CacheEntries.CacheEntry.Access | src/core/caching/cache_manager.py:32-35 | A read raises the access count by one and records the read time. Data, timestamp, ttl and expiry are unchanged. |
| CacheEntries.ExpiryBoundary | src/core/caching/cache_manager.py:28-30 | Expiry is strict: an entry is live at exactly `timestamp + ttl` and expired at any later moment, however soon. It is expired iff now > timestamp + ttl, and once expired it stays expired. |
| CacheEntries.ExpiresWithinASecond | src/core/caching/cache_manager.py:28-30 | Sub-second times count: with ttl 0, an entry written at 10.3 s is live at 10.3 s and expired at 10.7 s. |
| MemoryTier.RemoveFirst | src/core/caching/cache_manager.py:54-55 | `list.remove` drops one occurrence: an absent key leaves the list unchanged, a present key shortens it by one, and other keys are kept. On a duplicate-free list the key is gone afterwards. |
| MemoryTier.Get | src/core/caching/cache_manager.py:46-64 | A missing key is a miss that changes nothing. An expired entry is a miss: it is removed from the map, and its first occurrence is removed from the access order, with the other keys in the same order. A live hit returns the data. It stores exactly the entry with the access recorded (count +1, read time set, timestamp and ttl kept) and moves the key to the most-recently-used end, with the other keys in the same order. Other entries are unchanged. The invariant is preserved. |
| MemoryTier.EvictLru | src/core/caching/cache_manager.py:78-85 | An empty order changes nothing. Otherwise the head of the access order is removed from both structures, and a valid tier shrinks by one. |
| MemoryTier.Set | src/core/caching/cache_manager.py:66-76 | The key maps to a fresh entry and other entries are untouched. When the key exists or there is room, the key set gains exactly the key. |
| MemoryTier.SetEvictsHead | src/core/caching/cache_manager.py:69-70 | A new key entering a full tier evicts exactly the head of the access order, and the new key becomes most recently used. |
| MemoryTier.SetExistingKeepsOrder | src/core/caching/cache_manager.py:69-76 | Re-setting a cached key neither evicts nor moves it in the access order. |
| MemoryTier.SetPreservesInvariant | src/core/caching/cache_manager.py:66-85 | `set` keeps the access order duplicate-free and equal to the key set. With `max_size >= 1` it never exceeds the bound. A new key ends up last. |
| MemoryTier.Clear | src/core/caching/cache_manager.py:87-90 | Both the map and the order are emptied, and the invariant holds. |
| MemoryTier.Remove | src/core/caching/cache_manager.py:243-247 | The memory half of `invalidate`: the key leaves the map and the order, the other keys keep their order, and the invariant is preserved. |
| MemoryTier.Stats | src/core/caching/cache_manager.py:92-103 | `total_entries` is the entry count, and expired plus active equals total. `utilization` is total/max_size, or 0 when max_size is 0 or less. |
| MemoryTier.SetThenGet | src/core/caching/cache_manager.py:66-76 | A written value reads back until its ttl has elapsed. |
| DiskTier.Get | src/core/caching/cache_manager.py:119-139 | A missing file is a miss. An expired or unreadable file is deleted and is a miss. A readable live file yields its data and is kept. Any hit comes from a readable live file. |
| DiskTier.Set | src/core/caching/cache_manager.py:141-149 | The key maps to the new entry, and other files are unchanged. |
| DiskTier.SetWith | src/core/caching/cache_manager.py:141-149 | A good write stores the entry. If `open` fails, nothing changes. If the dump fails after the truncating open, the file is unreadable. Other files are unchanged in every case. |
| DiskTier.FailedDumpReadsAsMiss | src/core/caching/cache_manager.py:119-149 | After a failed dump, the next read of that key is a miss and deletes the file. |
| DiskTier.FailedOpenKeepsOldFile | src/core/caching/cache_manager.py:141-149 | After a failed open, a read of that key gives what it gave before the write. |
| DiskTier.Clear | src/core/caching/cache_manager.py:151-154 | No files remain. |
| DiskTier.CleanupExpired | src/core/caching/cache_manager.py:156-174 | Exactly the readable live files survive, unchanged. The removed count is the number of stale files, and removed plus kept equals the old file count. |
| DiskTier.CleanupLeavesOnlyReadable | src/core/caching/cache_manager.py:156-174 | After a cleanup, reading a surviving key at the same time returns its data and deletes nothing. |
| CacheKeys.SortedNames | src/core/caching/cache_manager.py:201 | Keyword names come out in strictly increasing string order, each exactly once. |
| CacheKeys.GenerateKey | src/core/caching/cache_manager.py:188-207 | The pre-hash key starts with the function name. |
| CacheKeys.KwargsOfPairs | src/core/caching/cache_manager.py:201 | With distinct names, the keyword dictionary maps each name to exactly the value it was given. |
| CacheKeys.ReorderedKwargsSameKey | src/core/caching/cache_manager.py:200-207 | The same keyword arguments passed in another order give the same key. |
| CacheKeys.DifferentKwargValueDifferentKey | src/core/caching/cache_manager.py:201-207 | Changing one keyword argument's value to one with a different key part changes the key. |
| CacheKeys.DifferentScalarKwargDifferentKey | src/core/caching/cache_manager.py:204-207 | Scalar keyword values with different `str()` renderings give different keys. |
| TwoTierCache.New | src/core/caching/cache_manager.py:109-111 | A new manager has an empty memory tier over the disk files already present, is valid, and carries the configured size and default ttl. |
| TwoTierCache.NewServesExistingDisk | src/core/caching/cache_manager.py:180-186 | A restarted manager serves a readable live file left by an earlier run. The file stays, and the value is promoted into memory with the default ttl. |
| TwoTierCache.Get | src/core/caching/cache_manager.py:210-224 | A memory hit returns the memory data. Memory is then exactly the memory tier after its own read, and disk is untouched. Otherwise disk is exactly the disk tier after its own read. A disk hit returns the disk data, and memory is the memory read followed by a promotion with the default ttl, not the original one. A full miss leaves memory as its own read left it. A value comes back iff a live non-None value is in memory or readable on disk. |
| TwoTierCache.GetFramesOtherKeys | src/core/caching/cache_manager.py:210-224 | A read of one key changes no other key's file or memory entry and adds no file. It drops another key from memory only when a disk hit is promoted into a full tier. |
| TwoTierCache.GetPreservesInvariant | src/core/caching/cache_manager.py:210-224 | Reads, promotions included, keep the memory invariant and the size bound. |
| TwoTierCache.Set | src/core/caching/cache_manager.py:226-235 | The same fresh entry goes to memory and disk, using the given ttl or else the default. Other memory entries are untouched. |
| TwoTierCache.SetPreservesInvariant | src/core/caching/cache_manager.py:226-235 | `set` keeps the memory invariant and the size bound. |
| TwoTierCache.SetThenGet | src/core/caching/cache_manager.py:226-235 | After `set(k, v, ttl)`, `get(k)` returns v while within the ttl. |
| TwoTierCache.SetThenGetAfterExpiry | src/core/caching/cache_manager.py:210-235 | Once the ttl has elapsed, `get(k)` is a miss and removes k from both tiers. |
| TwoTierCache.IsValid | src/core/caching/cache_manager.py:237-239 | Valid iff a live non-None value is in memory or on disk. Its side effects are those of `get`. |
| TwoTierCache.Invalidate | src/core/caching/cache_manager.py:241-255 | The key is removed from both tiers and the invariant is kept. The result is true iff a disk file existed; a memory-only entry reports false. |
| TwoTierCache.InvalidateThenGet | src/core/caching/cache_manager.py:241-255 | After `invalidate(k)`, `get(k)` returns nothing from either tier. |
| TwoTierCache.InvalidatePattern | src/core/caching/cache_manager.py:257-268 | Exactly the memory-resident keys that contain the pattern are removed from both tiers. The count is how many of those had a disk file. |
| TwoTierCache.InvalidateInOrderSpec | src/core/caching/cache_manager.py:263-266 | Invalidating distinct keys one at a time equals removing them all at once, in any order. |
| TwoTierCache.PatternSparesDiskOnlyKeys | src/core/caching/cache_manager.py:263 | A key that is only on disk survives a pattern invalidation unchanged, whatever it contains. |
| TwoTierCache.ClearAll | src/core/caching/cache_manager.py:270-273 | Both tiers are emptied. |
| TwoTierCache.ClearAllThenGet | src/core/caching/cache_manager.py:270-273 | After `clear_all` every read is a miss. |
| TwoTierCache.Cleanup | src/core/caching/cache_manager.py:275-283 | Exactly the readable live disk files survive, each unchanged, and memory is untouched. The removed count plus the survivors equals the old file count. |
| TwoTierCache.GetStats | src/core/caching/cache_manager.py:285-296 | The disk count includes unreadable files. The memory counts partition the entries. |
| IndicatorService.ParamPartsMembers | src/services/indicator_service.py:80-84 | The parameter parts are exactly `param:value` for each relevant parameter given. There are none iff no relevant parameter is given. |
| IndicatorService.CacheKey | src/services/indicator_service.py:76-86 | The key starts with the indicator name. It is the bare name iff none of the four relevant parameters is given. |
| IndicatorService.CacheKeyLayout | src/services/indicator_service.py:76-86 | The whole key: the name, then `periods:v`, `frequency:v`, `start_date:v` and `end_date:v` in that fixed order, each only when given, joined by vertical bars. |
| IndicatorService.CacheKeyWithoutParams | src/services/indicator_service.py:76-86 | With none of periods, frequency, start_date or end_date given, the key is the bare name. |
| IndicatorService.CacheKeyIgnoresOtherKwargs | src/services/indicator_service.py:81-84 | Keyword arguments outside the four relevant ones never change the key. |
| IndicatorService.CacheKeyDistinguishesPeriods | src/services/indicator_service.py:81-86 | Different `periods` values give different keys. |
| IndicatorService.CacheKeyDistinguishesNames | src/services/indicator_service.py:78-86 | Different indicator names with the same parameters give different keys. |
| IndicatorService.RequestFor | src/services/indicator_service.py:119-126 | Dispatch: `usd_liquidity`, `pmi` and `copper_gold_ratio` go to their own fetchers, with periods defaulting to 120, 36 and 365. Names in the service table go to the FRED path. Any other name is "Unknown indicator: name". |
| IndicatorService.FetchResult | src/services/indicator_service.py:195-288 | A raised exception becomes a failure carrying its message. A dedicated fetcher's data always succeeds. The FRED path fails with "No data received" on a missing or empty frame. Success iff there is no error. |
| IndicatorService.CacheTtl | src/services/indicator_service.py:130 | The ttl is the table's `cache_ttl` for a known indicator. Otherwise it is the cache's default ttl, the same setting the manager was built with. |
| IndicatorService.GetIndicator | src/services/indicator_service.py:102-142 | A hit returns success with cached=True and the cached data. A miss writes the cache exactly once, only on success, under the same key and with the indicator's ttl. A failure leaves the cache as the read left it. On a miss the result is exactly the request's error, or the reply turned into a result for that request. Success iff no error. |
| IndicatorService.HitIgnoresFetcher | src/services/indicator_service.py:104-114 | On a hit the result does not depend on the fetcher. |
| IndicatorService.UnknownIndicator | src/services/indicator_service.py:200-202 | An unknown name fails with "Unknown indicator: …" and writes nothing to the cache. |
| IndicatorService.FetchThenHit | src/services/indicator_service.py:128-131 | A successful fetch is served from the cache by the next identical call within the indicator's ttl. |
| IndicatorService.FetchAllInOrder | src/services/indicator_service.py:156-163 | The i-th result is what `get_indicator(names[i])` answers on the cache that the calls for the earlier names left. |
| IndicatorService.FetchAllPreservesInvariant | src/services/indicator_service.py:156-163 | The whole batch keeps the memory-tier invariant, its bound when the tier has a slot, and the cache's settings. |
| IndicatorService.GetIndicatorPreservesInvariant | src/services/indicator_service.py:102-131 | One `get_indicator` call keeps the memory-tier invariant, its bound when the tier has a slot, and the cache's settings. |
| IndicatorService.CombineErrors | src/services/indicator_service.py:166-181 | There is exactly one error line per failed indicator, and each names it. There are no error lines iff every indicator succeeded. |
| IndicatorService.Combine | src/services/indicator_service.py:166-186 | Success iff every indicator succeeded. The error is then absent, and otherwise it is the error lines joined by "; ". The data is the successful indicators' data. |
| IndicatorService.GetAllIndicators | src/services/indicator_service.py:144-186 | The result combines the batch of all nine indicators. It succeeds iff every call succeeded. An indicator is in the data iff its call succeeded, and then with that call's data. A valid cache stays valid. |
| IndicatorService.CombineData | src/services/indicator_service.py:169-176 | With distinct names, the combined data holds exactly the successful indicators, each with its own data. |
| IndicatorService.InvalidateIndicatorCache | src/services/indicator_service.py:290-306 | A non-empty name invalidates the memory keys containing it and returns the number of disk files removed. No name clears both tiers and returns -1. |
| PerformanceMonitor.LastAtMost | src/services/performance_monitor.py:57 | A bounded deque or `[-n:]` slice keeps the last n elements. |
| PerformanceMonitor.Increment | src/services/performance_monitor.py:107-110 | A `defaultdict(int)` increment raises one counter by one and leaves the others alone. |
| PerformanceMonitor.EndOperation | src/services/performance_monitor.py:75-117 | Appends one snapshot with `execution_time = end − start` and bounds the log by `max_snapshots`. Appends the duration and size to the operation's histories, truncated to 100. Increments exactly one of hits or misses. |
| PerformanceMonitor.EndOperationLogsSnapshot | src/services/performance_monitor.py:100-104 | The new snapshot is the newest kept. The oldest is dropped only when the log is full. The duration is the last timing. |
| PerformanceMonitor.EndOperationPreservesInvariant | src/services/performance_monitor.py:101-115 | The log stays within its bound. Every history holds 1 to 100 entries, times and sizes have equal length, and hits+misses are at least the retained count. |
| PerformanceMonitor.EndOperationHistoryLength | src/services/performance_monitor.py:104-115 | The retained timings grow by one per call until 100, then stay at 100. |
| PerformanceMonitor.EndOperationCountsOneEvent | src/services/performance_monitor.py:107-110 | Each call adds exactly one event to the hits+misses total. |
| PerformanceMonitor.HitRate | src/services/performance_monitor.py:139-140 | The rate lies in 0..100. It is 0 without events, 100 iff there are only hits, and 0 iff there are no hits. |
| PerformanceMonitor.OperationBenchmark | src/services/performance_monitor.py:119-159 | None iff the operation has no timings. Otherwise total_calls is the retained count. Min and max are retained timings that bound all timings and the mean. The hit rate comes from the operation's counters. |
| PerformanceMonitor.BenchmarkBound | src/services/performance_monitor.py:113-132 | Every tracked operation has a benchmark, reporting at most 100 calls. |
| PerformanceMonitor.SumCounters | src/services/performance_monitor.py:204 | Computes `sum(counters.values())`. |
| PerformanceMonitor.CachePerformanceReport | src/services/performance_monitor.py:202-230 | An error iff no cache event was recorded. Otherwise the total and overall hit rate, plus one line per operation that ever counted an event, with its hits, misses, total and rate. |
| PerformanceMonitor.Reset | src/services/performance_monitor.py:251-261 | Snapshots, histories and both counter maps are emptied. The baseline is the reading passed in. |
| PerformanceMonitor.ResetForgetsEverything | src/services/performance_monitor.py:251-261 | After a reset no benchmark exists, the cache report has no events, and the summary and memory trend are errors. |
| PerformanceMonitor.MemoryTrend | src/services/performance_monitor.py:263-293 | An error iff there are fewer than 10 snapshots. Otherwise the current reading is the newest snapshot's, the peak is one of the readings, and the trend compares the half-means. |
| PerformanceMonitor.SystemSummaryAsWritten | src/services/performance_monitor.py:172-200 | An error without snapshots. A division by zero with exactly one snapshot. From two snapshots on, a summary whose trend is "improving" iff the newer half of the last 50 durations has a smaller mean than the older half, and "degrading" otherwise. |
| PerformanceMonitor.SystemSummary | src/services/performance_monitor.py:172-200 | An error iff there are no snapshots. Otherwise a summary over the last 50 snapshots. A single snapshot gives a stable trend. From two on, the trend is "improving" iff the newer half's mean duration is below the older half's, and "degrading" otherwise. |
| PerformanceMonitor.OlderHalfEmptyIffSingle | src/services/performance_monitor.py:177-187 | The older half of the last 50 snapshots is empty exactly when there is one snapshot, which is when line 187 divides by zero. |
| PerformanceMonitor.TrendOf | src/services/performance_monitor.py:184-190 | "improving" iff the newer half's mean duration is below the older half's, otherwise "degrading", never stable. |
| PerformanceMonitor.SummaryOf | src/services/performance_monitor.py:177-199 | The summary counts the recent snapshots and sums their durations. Its CPU and memory figures are the means of the readings, the memory increase is the mean memory minus the baseline, and the rate is the count over the time floored at 1 ms. |
| PerformanceMonitor.AverageTimesCount | src/services/performance_monitor.py:179-180 | A mean times the number of values is their sum. |
| PerformanceMonitor.RateTimesTime | src/services/performance_monitor.py:199 | The rate times `max(total, 0.001)` is the operation count. |
| PerformanceMonitor.SingleSnapshotSummary | src/services/performance_monitor.py:184-188 | One `end_operation` on an empty monitor makes the as-written summary divide by zero, while the guarded one reports one operation. |
| PerformanceMonitor.SummaryAgreesFromTwoSnapshots | src/services/performance_monitor.py:177-200 | With two or more snapshots the guarded summary equals the one as written. |
| Processing.AllSteps | data/processing.py:86 | The `all(...)` over an index range holds iff every neighbouring pair in the range is a strict step. |
| Processing.CheckConsecutiveIncrease | data/processing.py:71-88 | False with fewer than count+1 values. Otherwise true iff the last `count` values rise strictly, i.e. count−1 comparisons. |
| Processing.CheckConsecutiveDecrease | data/processing.py:91-108 | The mirror image with strict decreases. |
| Processing.CountConsecutiveChanges | data/processing.py:111-130 | 0 with fewer than 2 values, otherwise at most len−1. |
| Processing.CountIsMaximalRun | data/processing.py:122-130 | The count is the length of the maximal run of strict steps ending at the last value. |
| Processing.CountAtLeast | data/processing.py:122-130 | The count reaches k iff the last k pairs are all steps. |
| Processing.CheckDecreaseIsCount | data/processing.py:102-130 | With len ≥ count+1 and count ≥ 1, the decrease check holds iff the decreasing count is ≥ count−1. |
| Processing.CheckIncreaseIsCount | data/processing.py:82-130 | The same relation for increases. |
| Processing.DecreaseMirrorsIncrease | data/processing.py:82-108 | The decrease check of a series is the increase check of its negation. |
| Processing.EqualNeighboursBreakRuns | data/processing.py:86 | Equal last two values end both kinds of run and make both counts 0. |
| Processing.Clip | data/processing.py:68 | One value is clipped into [lo, hi]; values inside are unchanged. |
| Processing.CapOutliers | data/processing.py:56-68 | Capping preserves length. |
| Processing.CapOutliersRange | data/processing.py:56-68 | Every output lies in [lower, upper]. Values inside are unchanged; values below become lower and values above become upper. |
| Processing.CapOutliersIdempotent | data/processing.py:56-68 | Capping twice is capping once. |
| Processing.CapOutliersSymmetric | data/processing.py:56-68 | The two limits may be given in either order: pandas' `clip` orders them before clipping. |
| IndicatorRegistry.Required | src/config/indicator_registry.py:14-37 | A config built from the required fields has height 360, ttl 3600, and None for every optional field. |
| IndicatorRegistry.ListIndicators | src/config/indicator_registry.py:257-259 | The registry keys, in registry order. |
| IndicatorRegistry.IndexOf | src/config/indicator_registry.py:250-254 | The first position holding the key, or none iff no entry has it. |
| IndicatorRegistry.GetIndicatorConfig | src/config/indicator_registry.py:250-254 | Succeeds iff the key is in the registry, returning that entry. Otherwise the KeyError message. |
| IndicatorRegistry.Filter | src/config/indicator_registry.py:262-274 | A comprehension's result holds exactly the elements that pass, as a subsequence of the input. |
| IndicatorRegistry.FilterKeepsEveryCopy | src/config/indicator_registry.py:262-274 | Every copy of a passing element is kept and no copy of a failing one, so duplicates are not merged. |
| IndicatorRegistry.GetIndicatorsByChartType | src/config/indicator_registry.py:262-264 | Exactly the entries of the given chart type, in registry order. |
| IndicatorRegistry.GetFredIndicators | src/config/indicator_registry.py:267-269 | Exactly the entries with a non-empty FRED series list, in order. |
| IndicatorRegistry.GetYahooIndicators | src/config/indicator_registry.py:272-274 | Exactly the entries with a non-empty Yahoo series list, in order. |
| IndicatorRegistry.RegistryShape | src/config/indicator_registry.py:41-247 | 11 entries. Each entry's `key` field equals its registry key, and the keys are distinct. |
| IndicatorRegistry.RegistryWellFormed | src/config/indicator_registry.py:41-247 | Every threshold entry has a threshold and every custom chart has a builder. All entries keep the height and ttl defaults. |
| IndicatorRegistry.YahooIndicatorsAreCopperGold | src/config/indicator_registry.py:272-274 | Only `copper_gold_yield` has Yahoo series. |
| IndicatorRegistry.FredIndicatorsAreAll | src/config/indicator_registry.py:267-269 | Every entry has FRED series, so the FRED list is the whole table. |
| WarningSignals.CoerceScalar | visualization/warning_signals.py:17-37 | A sequence gives its last element, or None when empty. A scalar is returned as it is. |
| WarningSignals.CoerceBool | visualization/warning_signals.py:47-52 | True only for a present value. |
| WarningSignals.CoerceBoolSequences | visualization/warning_signals.py:40-52 | Empty sequences and missing last elements read as false. A flag array reads as its last flag. |
| WarningSignals.WarningIndicator | visualization/warning_signals.py:55-74 | Grey iff neutral. With higher_is_bad, red iff value > threshold; otherwise red iff value < threshold. Never yellow. |
| WarningSignals.WarningIndicatorAtThreshold | visualization/warning_signals.py:70-74 | A value equal to the threshold is green. |
| WarningSignals.FlagIndicator | visualization/warning_signals.py:55-74 | `create_warning_indicator(flag, 0.5)` is red iff the flag is set, else green. |
| WarningSignals.FirstHit | visualization/warning_signals.py:98-107 | The index of the first threshold hit, or the count when none is hit. |
| WarningSignals.WarningStatus | visualization/warning_signals.py:77-107 | An error iff the label count is not thresholds+1. Otherwise the label of the first threshold hit (value ≤ t when higher is bad, ≥ t otherwise), else the last label; always one of the labels. |
| WarningSignals.WarningStatusSorted | visualization/warning_signals.py:98-107 | With ascending thresholds and higher values bad, the label index is the number of thresholds below the value. Descending thresholds are the mirror. |
| WarningSignals.TrendIndicator | visualization/warning_signals.py:110-139 | "Insufficient data" iff there are fewer values than periods. With enough values, "Increasing" iff every step of the last `periods` values rises strictly. "Decreasing" iff not that and every step falls strictly. Otherwise the label compares the window's last value with its first. The bias and flat labels need a window of at least two. |
| WarningSignals.TrendAgreesWithRunChecks | visualization/warning_signals.py:121-131 | With one value more than the window, "Increasing" iff `check_consecutive_increase`. For windows of two or more, "Decreasing" iff `check_consecutive_decrease`. |
| WarningSignals.TrendOfMixedWindow | visualization/warning_signals.py:132-139 | A window that neither rises nor falls throughout is judged by last against first: upward, downward or flat. |
| WarningSignals.LatestValue | visualization/warning_signals.py:213-237 | An error iff the lookup raises (last row of an empty Series). A coerced lookup other than None is the value. When it is None, any other value is a non-missing entry of the nested frame's value column. |
| WarningSignals.ThresholdStatus | visualization/warning_signals.py:240-260 | A missing value gives Neutral. A number gives Bullish iff below (above) the threshold, else Bearish. A string raises Python's `TypeError`, whose message names `<` for below_threshold and `>` for above_threshold. |
| WarningSignals.TrendStatus | visualization/warning_signals.py:262-290 | Neutral iff neither flag is set. The increasing flag is checked first, and polarity is inverted for hours_worked, new_orders and pscf_price. |
| WarningSignals.ClassifyByConfig | visualization/warning_signals.py:213-294 | The non-custom branches. A failed lookup is an error. A threshold rule with a threshold gives the below or above threshold status, or its error. "decreasing" gives the trend status from the `_increasing` and `_decreasing` flags. Any other rule gives Neutral. The dot always matches the status. |
| WarningSignals.StatusFromText | visualization/warning_signals.py:204-209 | "Bearish" anywhere wins. Otherwise "Bullish" anywhere gives Bullish. Neutral iff the text contains neither word. |
| WarningSignals.GenerateIndicatorWarningAsWritten | visualization/warning_signals.py:172-211 | A non-config raises TypeError. With a custom status function, a message containing "Bearish" is Bearish. |
| WarningSignals.GenerateIndicatorWarning | visualization/warning_signals.py:172-294 | A non-config raises TypeError. The custom status follows the custom function's verdict; other conditions are classified by config. |
| WarningSignals.VersionsAgreeOffCustom | visualization/warning_signals.py:213-294 | The two versions agree on every non-custom config. |
| WarningSignals.ThresholdFromLatestValue | visualization/warning_signals.py:222-249 | With only `latest_value`, a below_threshold indicator is Bullish iff the value is under its threshold. |
| WarningSignals.RegistryClassifiesNumbers | visualization/warning_signals.py:239-294 | Every non-custom registry entry classifies a numeric latest value without error. |
| WarningSignals.FormatWarningMessage | visualization/warning_signals.py:142-169 | The message starts with the dot; details, when present, follow a blank line. |
| WarningSignals.UsdLiquidityReport | visualization/warning_signals.py:380-448 | Bullish when increasing, else Bearish when decreasing, else "No Trend". The dot matches the verdict. |
| WarningSignals.UsdMessageMentionsBearish | visualization/warning_signals.py:417-423 | The USD message always contains "Bearish", from its list of signals to watch. |
| WarningSignals.UsdLiquidityAlwaysBearishAsWritten | visualization/warning_signals.py:204-209 | As written, the USD liquidity card is Bearish whatever the data. |
| WarningSignals.UsdLiquidityStatusFollowsTrend | visualization/warning_signals.py:395-403 | Reading the verdict, the card is Bullish iff increasing, Bearish iff decreasing but not increasing, and Neutral iff neither. |
| WarningSignals.RegimeQuadrantWarning | visualization/warning_signals.py:512-527 | Bullish iff Goldilocks; Bearish iff Stagflation or Deflation; otherwise Neutral. A missing regime reads as "Unknown", and a missing description defaults. |
| WarningSignals.RegimeDotMatchesStatus | visualization/warning_signals.py:523-527 | The dot is green iff Bullish, red iff Bearish, and yellow iff Neutral. |
| Calendar.LastBusinessDayOfMonth | data/release_schedule.py:154-159 | Stepping back from the last day gives a Monday–Friday in the same month, at most 2 days before the end, with only weekend days after it. |
| Calendar.FirstWeekdayOfMonth | data/release_schedule.py:167-171 | Stepping forward from the 1st gives the first day of the month on weekday w, within the first 7 days. |
| Calendar.BusinessDayOnOrAfter | data/release_schedule.py:176-179 | Stepping forward from day n gives a Monday–Friday in the same month, 0 to 2 days after n, with only weekend days in between. |
| ReleaseSchedule.PlusDays | data/release_schedule.py:135-137 | `timedelta(days=n)` moves the ordinal by n and keeps the time of day. |
| ReleaseSchedule.SchedulesWellFormed | data/release_schedule.py:95-127 | Six scheduled indicators, each with a schedule the estimate can follow. |
| ReleaseSchedule.FirstOfNextMonth | data/release_schedule.py:92 | `(replace(day=1) + 32 days).replace(day=1)` is the first of the following month. |
| ReleaseSchedule.TargetMonth | data/release_schedule.py:148-152 | The first of the month one ahead, or two ahead when offset > 0. |
| ReleaseSchedule.NextReleaseDate | data/release_schedule.py:42-180 | Without a FRED client: any estimate is a valid datetime. |
| ReleaseSchedule.EstimateExistsIffScheduled | data/release_schedule.py:129-131 | An estimate exists iff the indicator has a fallback schedule. |
| ReleaseSchedule.PceOverride | data/release_schedule.py:58-60 | For PCE on 2025-04-29 the result is 2025-04-30 at midnight, the next day. |
| ReleaseSchedule.TargetMonthIsLater | data/release_schedule.py:148-152 | The target month begins after today. |
| ReleaseSchedule.WeeklyRelease | data/release_schedule.py:133-138 | A weekly release falls on its weekday, 1 to 7 days after today. |
| ReleaseSchedule.WeeklyOnTheDay | data/release_schedule.py:135-137 | On the release weekday itself the estimate is exactly a week later. |
| ReleaseSchedule.WeeklyLaterInWeek | data/release_schedule.py:135-137 | On another weekday the estimate is the coming day with that weekday. |
| ReleaseSchedule.ClaimsNextThursday | data/release_schedule.py:96-100 | Claims: a Thursday 1 to 7 days after today, at today's time of day. |
| ReleaseSchedule.PceLastBusinessDay | data/release_schedule.py:154-165 | PCE, off the override day: the last Monday–Friday of the month two ahead; the PCE special case returns the same date. |
| ReleaseSchedule.HoursFirstFriday | data/release_schedule.py:167-172 | Hours: the first Friday of the month two ahead. |
| ReleaseSchedule.FixedDayRelease | data/release_schedule.py:174-180 | A fixed day n of the target month, moved forward past a weekend: a business day 0 to 2 days after n. |
| ReleaseSchedule.FixedDayIndicators | data/release_schedule.py:106-127 | Core CPI (12th) and new orders (25th) use offset 1; PMI (1st) uses offset 0. |
| ReleaseSchedule.EstimateIsAfterToday | data/release_schedule.py:133-180 | Every scheduled estimate lies strictly after today's date. |
| ReleaseSchedule.LongDate | data/release_schedule.py:214 | `strftime('%B %d, %Y')`: the month's full name, a space, the day's tens and units digits, ", ", then the year in decimal. The line never starts with 'T'. |
| ReleaseSchedule.FormatReleaseDate | data/release_schedule.py:182-214 | "not available" iff no date or a past date; "Today" iff 0 days; "Tomorrow" iff 1 day or the PCE override day. Otherwise the result is the written-out line for that date and that day count. |
| ReleaseSchedule.WrittenOut | data/release_schedule.py:214 | The line is "Next release: ", the long date, then " (", the day count in decimal and " days)". It differs from the three fixed lines. |
| ReleaseSchedule.ScheduledLineLooksAhead | data/release_schedule.py:182-214 | For a scheduled indicator's own estimate the line is never "not available" or "Today". |
| PceFix.MonthLengthIsCalendar | data/pce_fix.py:27-37 | The spelled-out month lengths equal the Gregorian ones: leap February iff (y%4==0 and y%100≠0) or y%400==0. |
| PceFix.CorrectedReleaseDate | data/pce_fix.py:6-45 | A valid date at midnight. |
| PceFix.CorrectedIsLastBusinessDayOfNextMonth | data/pce_fix.py:19-45 | Off the override day: the last Monday–Friday of next month (December rolls to January), at least the last day minus 2. |
| PceFix.CorrectedIsWeeksAhead | data/pce_fix.py:19-45 | Off the override day the corrected date is at least 26 days ahead. |
| PceFix.IsReleaseTomorrow | data/pce_fix.py:47-61 | True iff the corrected date is exactly one calendar day after today's date. |
| PceFix.ReleaseTomorrowOnlyOnOverrideDay | data/pce_fix.py:15-61 | "Tomorrow" holds on 2025-04-29 and on no other day. |
| PceFix.EstimatesDisagreeOffOverride | data/pce_fix.py:19-24 | The fix and the schedule agree on the override day. Elsewhere their months differ: the fix uses next month, the schedule two months ahead. |

## Left out

- `time.time()`, `datetime.now()` and psutil readings are parameters. CPU and memory readings are arbitrary reals.
- Durations, rates and means are exact reals, so floating-point rounding (`round(x, 2)`) is not modelled.
- MD5 hashing of cache keys and file names is left out; the key is the pre-hash string.
- In `CacheManager.set` the disk entry and the memory entry each read `time.time()`, a moment apart. The model stamps both with the same `now`.
- Pickle, the cache directory and file deletion are left out. The disk tier is a map from key to an intact or corrupt file.
- `TwoTierCache.Set` assumes the disk write succeeds. `DiskTier.SetWith` models both failures of `DiskCache.set`, which are logged and swallowed: `open` raising, which leaves the old file, and `pickle.dump` raising after the truncating open, which leaves a `Corrupt` file that the next `get` treats as a miss and deletes.
- `asyncio.gather` in `get_all_indicators` is a sequential fold that threads the cache through the calls (`FetchAll`). The outer `except` (lines 187-193) cannot fire in the model.
- The FRED, Yahoo and derived-indicator fetchers are one opaque function from request to reply. `FredClient` construction is not modelled.
- `get_cache_stats`, `cleanup_cache` and `get_all_benchmarks` are not modelled separately: they forward to `GetStats`, `Cleanup` and `OperationBenchmark`.
- The `execution_time` of `IndicatorResult` is not modelled, because it measures wall-clock time.
- `export_performance_data` is left out, because it builds a pandas DataFrame.
- `get_performance_monitor` and `reset_performance_monitor` are left out: they are a process-global singleton.
- In `get_operation_benchmark`, the padding of the data-size history (lines 127-129) is not modelled separately. Under the monitor invariant both histories have equal length, so padding never happens.
- Keyword arguments and key parts are their `str()` renderings. pandas objects are described by opaque shape and column strings.
- In `_generate_key`, Python rejects repeated keyword names at call time; the model requires distinct names instead.
- `calculate_pct_change` and `convert_dates` in data/processing.py are left out: they are pandas and float transforms.
- `CapOutliers` works on a list of reals. NaN handling of `Series.clip` is not modelled.
- Float formatting of detail strings is a parameter `render` (e.g. "12.3% of GDP").
- HTML and number formatting of the other `generate_indicator_warning` detail lines (lines 296-371) are left out. Statuses and dots are modelled exactly.
- WarningSignals.UsdDetails: the USD details block is modelled up to the end of its "Key Signals to Watch" list. The "Key Framework" and "Formula" sections after it are left out. They only add further "Bullish"/"Bearish" words, which does not change the status the heuristic computes.
- `generate_pmi_warning` is left out: it is markdown text around a single `latest_pmi < 50` choice of dot.
- The custom status function is called through a function parameter. `importlib` resolution of the dotted path is not modelled.
- `_coerce_scalar` on numpy `ndarray`s of two or more dimensions is left out: they are flattened with `ravel()`. A NaN stands for every value `pd.isna` treats as missing.
- The FRED-client branch of `get_next_release_date` (data/release_schedule.py:63-88) is left out: it consults the network. The model is the fallback with no client.
- Years past 9999, where Python's `datetime` raises `OverflowError`, are not modelled.
- ReleaseSchedule.LongDate: the year is written in decimal without zero padding, as glibc writes `%Y` for years before 1000. Platforms that pad `%Y` to four digits are not modelled.
- The `daily` schedule branch is modelled as `DailyEstimate` but never reached: no schedule in the table uses it.
- The `offset` field of the weekly claims schedule is ignored. The source ignores it too.
- The PCE edge case at data/release_schedule.py:161-163 returns the same date as the line after it. It is modelled as a no-op, so `PceLastBusinessDay` covers both.
- Calendar.DaysInMonth: the contract states only the 28..31 range. Exact lengths are stated through `PceFix.MonthLengthIsCalendar`.
- `test_*` scripts and settings modules are left out; only constants used by the core are kept (default ttl 3600, FRED ttl 86400, memory size 512).

## Findings

| source | as written | input that shows it | evidently intended | confidence | as-written member | corrected member |
|---|---|---|---|---|---|---|
| src/services/performance_monitor.py:184-188 | With exactly one snapshot, `older_half` is empty and `sum(...) / len(older_half)` divides by zero. The summary raises `ZeroDivisionError` instead of reporting. | a fresh monitor, one `end_operation`, then `get_system_performance_summary()` | Report the single operation with no trend, as `get_memory_usage_trend` does for short logs ("stable"). | high, not executed | PerformanceMonitor.SystemSummaryAsWritten (shown by PerformanceMonitor.SingleSnapshotSummary) | PerformanceMonitor.SystemSummary (agreement from two snapshots: PerformanceMonitor.SummaryAgreesFromTwoSnapshots) |
| visualization/warning_signals.py:204-209 | The custom branch reads the status from the whole message, checking "Bearish" first. The USD liquidity message always lists "(Bearish)" among its signals (lines 420-421), so the card is Bearish whatever the data. | `usd_liquidity` with `liquidity_increasing=True` | Status follows the generator's own verdict: Bullish when increasing, Bearish when decreasing, else Neutral. | high, not executed | WarningSignals.UsdLiquidityAlwaysBearishAsWritten (on WarningSignals.GenerateIndicatorWarningAsWritten) | WarningSignals.UsdLiquidityStatusFollowsTrend (on WarningSignals.GenerateIndicatorWarning) |

=== FILE: cache_entry.dfy ===
/** A cached value with its write time, time-to-live and access statistics
    (`CacheEntry` in src/core/caching/cache_manager.py). Times are seconds, with
    fractions, on a clock the caller passes in; a time-to-live is whole seconds. */
module CacheEntries {
  import opened Wrappers

  /** A reading of the wall clock, `time.time()`, in seconds. */
  type Time = real

  /** `data` is the stored Python value; `None` is a storable value that every
      reader treats as "nothing cached". */
  datatype CacheEntry<V> = CacheEntry(
    data: Option<V>,
    timestamp: Time,
    ttl: int,
    accessCount: nat,
    lastAccessed: Option<Time>)
  {
    /** Lazy expiry: strictly more than `ttl` seconds since the write. */
    predicate IsExpired(now: Time) {
      now - timestamp > ttl as real
    }

    /** Records one read at time `now`. */
    function Access(now: Time): (e: CacheEntry<V>)
      ensures e.accessCount == accessCount + 1
      ensures e.lastAccessed == Some(now)
      ensures e.data == data && e.timestamp == timestamp && e.ttl == ttl
      ensures forall t :: e.IsExpired(t) <==> IsExpired(t)
    {
      this.(accessCount := accessCount + 1, lastAccessed := Some(now))
    }
  }

  /** A freshly written entry: never read yet. */
  function NewEntry<V>(data: Option<V>, now: Time, ttl: int): (e: CacheEntry<V>)
    ensures e.data == data && e.timestamp == now && e.ttl == ttl
    ensures e.accessCount == 0 && e.lastAccessed == None
  {
    CacheEntry(data, now, ttl, 0, None)
  }

  /** The expiry boundary is exact: an entry is still live at `timestamp + ttl`,
      expired at any moment after it, however soon, and it stays expired as
      time advances. */
  lemma ExpiryBoundary<V>(e: CacheEntry<V>, now: Time, later: Time)
    ensures !e.IsExpired(e.timestamp + e.ttl as real)
    ensures e.IsExpired(now) <==> now > e.timestamp + e.ttl as real
    ensures e.IsExpired(now) && now <= later ==> e.IsExpired(later)
  {
  }

  /** Sub-second reads count: an entry with no time-to-live written at 10.3 s
      has expired when read at 10.7 s. */
  lemma ExpiresWithinASecond<V>(data: Option<V>)
    ensures NewEntry(data, 10.3, 0).IsExpired(10.7)
    ensures !NewEntry(data, 10.3, 0).IsExpired(10.3)
  {
  }
}

=== FILE: cache_key.dfy ===
/** The deterministic cache key of `CacheManager._generate_key`
    (src/core/caching/cache_manager.py), before hashing: the function name, each
    positional argument and each keyword argument in name order, joined by `|`.
    The MD5 digest the source applies to this string is left out, so the key here
    is the pre-hash string itself. */
module CacheKeys {
  import opened Wrappers
  import opened Text

  /** An argument as the key sees it: its `str()` rendering, or a pandas frame or
      series described by its shape and, for a frame, its column list. */
  datatype Arg = Scalar(repr: string) | Frame(shape: string, columns: Option<string>)

  /** The key part of a positional argument. */
  function ArgPart(a: Arg): string {
    match a
    case Scalar(repr) => repr
    case Frame(shape, columns) => "df:" + shape + ":" + columns.GetOr("index")
  }

  /** The key part of a keyword argument; a frame contributes only its shape. */
  function KwargPart(name: string, a: Arg): string {
    match a
    case Scalar(repr) => name + ":" + repr
    case Frame(shape, _) => name + ":df:" + shape
  }

  /** `s` lists its strings in strictly increasing order. */
  predicate StrictlySorted(s: seq<string>) {
    forall i, j :: 0 <= i < j < |s| ==> Less(s[i], s[j])
  }

  /** `m` is the least element of `ks` in string order. */
  predicate IsLeast(m: string, ks: set<string>) {
    m in ks && forall x | x in ks :: m == x || Less(m, x)
  }

  lemma {:induction false} LeastExists(ks: set<string>)
    requires ks != {}
    ensures exists m :: IsLeast(m, ks)
    decreases |ks|
  {
    var x :| x in ks;
    if ks == {x} {
      assert IsLeast(x, ks);
    } else {
      LeastExists(ks - {x});
      var m :| IsLeast(m, ks - {x});
      if Less(x, m) {
        forall y | y in ks ensures x == y || Less(x, y) {
          if y != x {
            assert m == y || Less(m, y);
            if m != y {
              LessTransitive(x, m, y);
            }
          }
        }
        assert IsLeast(x, ks);
      } else {
        LessTotal(x, m);
        assert IsLeast(m, ks);
      }
    }
  }

  lemma LeastUnique(ks: set<string>)
    ensures forall m, m' :: IsLeast(m, ks) && IsLeast(m', ks) ==> m == m'
  {
    forall m, m' | IsLeast(m, ks) && IsLeast(m', ks) ensures m == m' {
      if m != m' {
        LessAsymmetric(m, m');
      }
    }
  }

  /** The names of `ks` in Python's `sorted` order. */
  function SortedNames(ks: set<string>): (s: seq<string>)
    ensures |s| == |ks|
    ensures forall x :: x in s <==> x in ks
    ensures StrictlySorted(s)
    decreases |ks|
  {
    if ks == {} then []
    else
      LeastExists(ks);
      LeastUnique(ks);
      var m :| IsLeast(m, ks);
      var rest := SortedNames(ks - {m});
      assert forall i :: 0 <= i < |rest| ==> Less(m, rest[i]) by {
        forall i | 0 <= i < |rest| ensures Less(m, rest[i]) {
          assert rest[i] in ks - {m};
        }
      }
      [m] + rest
  }

  function KwargParts(names: seq<string>, kwargs: map<string, Arg>): (parts: seq<string>)
    requires forall n :: n in names ==> n in kwargs
    ensures |parts| == |names|
    ensures forall i :: 0 <= i < |names| ==> parts[i] == KwargPart(names[i], kwargs[names[i]])
  {
    if |names| == 0 then [] else [KwargPart(names[0], kwargs[names[0]])] + KwargParts(names[1..], kwargs)
  }

  function ArgParts(args: seq<Arg>): (parts: seq<string>)
    ensures |parts| == |args|
    ensures forall i :: 0 <= i < |args| ==> parts[i] == ArgPart(args[i])
  {
    if |args| == 0 then [] else [ArgPart(args[0])] + ArgParts(args[1..])
  }

  /** The parts `_generate_key` joins: the function name, the positional arguments
      in order, then the keyword arguments sorted by name. */
  function KeyParts(funcName: string, args: seq<Arg>, kwargs: map<string, Arg>): (parts: seq<string>)
    ensures |parts| == 1 + |args| + |kwargs|
    ensures parts[0] == funcName
  {
    [funcName] + ArgParts(args) + KwargParts(SortedNames(kwargs.Keys), kwargs)
  }

  /** `_generate_key` up to the hash. */
  function GenerateKey(funcName: string, args: seq<Arg>, kwargs: map<string, Arg>): (key: string)
    ensures IsPrefix(funcName, key)
  {
    var parts := KeyParts(funcName, args, kwargs);
    JoinStartsWithFirst(parts, "|");
    Join(parts, "|")
  }

  lemma JoinStartsWithFirst(parts: seq<string>, sep: string)
    requires |parts| >= 1
    ensures IsPrefix(parts[0], Join(parts, sep))
  {
    if |parts| > 1 {
      assert Join(parts, sep) == parts[0] + (sep + Join(parts[1..], sep));
    }
  }

  /** Python's `dict(pairs)` for keyword arguments given in call order. */
  function KwargsOf(pairs: seq<(string, Arg)>): (m: map<string, Arg>)
    ensures forall n :: n in m <==> exists i :: 0 <= i < |pairs| && pairs[i].0 == n
  {
    if |pairs| == 0 then map[]
    else
      var m := KwargsOf(pairs[..|pairs| - 1]);
      assert forall i :: 0 <= i < |pairs| - 1 ==> pairs[..|pairs| - 1][i] == pairs[i];
      m[pairs[|pairs| - 1].0 := pairs[|pairs| - 1].1]
  }

  /** No keyword is given twice (Python rejects such a call). */
  predicate DistinctNames(pairs: seq<(string, Arg)>) {
    forall i, j :: 0 <= i < j < |pairs| ==> pairs[i].0 != pairs[j].0
  }

  /** With distinct names, the dictionary maps each name to exactly the value it was
      passed with. */
  lemma {:induction false} KwargsOfPairs(pairs: seq<(string, Arg)>)
    requires DistinctNames(pairs)
    ensures forall p :: p in pairs <==> p.0 in KwargsOf(pairs) && KwargsOf(pairs)[p.0] == p.1
    decreases |pairs|
  {
    if |pairs| > 0 {
      var init := pairs[..|pairs| - 1];
      var last := pairs[|pairs| - 1];
      assert pairs == init + [last];
      assert DistinctNames(init) by {
        forall i, j | 0 <= i < j < |init| ensures init[i].0 != init[j].0 {
          assert init[i] == pairs[i] && init[j] == pairs[j];
        }
      }
      KwargsOfPairs(init);
      forall p | p in init ensures p.0 != last.0 {
        var i :| 0 <= i < |init| && init[i] == p;
        assert pairs[i] == p;
      }
    }
  }

  /** Passing the same keyword arguments in another order gives the same key. */
  lemma ReorderedKwargsSameKey(funcName: string, args: seq<Arg>, p1: seq<(string, Arg)>, p2: seq<(string, Arg)>)
    requires DistinctNames(p1) && DistinctNames(p2)
    requires multiset(p1) == multiset(p2)
    ensures GenerateKey(funcName, args, KwargsOf(p1)) == GenerateKey(funcName, args, KwargsOf(p2))
  {
    ReorderedKwargsSameMap(p1, p2);
  }

  /** The same distinct pairs in any order make the same dictionary. */
  lemma ReorderedKwargsSameMap(p1: seq<(string, Arg)>, p2: seq<(string, Arg)>)
    requires DistinctNames(p1) && DistinctNames(p2)
    requires multiset(p1) == multiset(p2)
    ensures KwargsOf(p1) == KwargsOf(p2)
  {
    KwargsIncluded(p1, p2);
    KwargsIncluded(p2, p1);
  }

  lemma KwargsIncluded(p1: seq<(string, Arg)>, p2: seq<(string, Arg)>)
    requires DistinctNames(p1) && DistinctNames(p2)
    requires multiset(p1) == multiset(p2)
    ensures forall n | n in KwargsOf(p1) :: n in KwargsOf(p2) && KwargsOf(p2)[n] == KwargsOf(p1)[n]
  {
    KwargsOfPairs(p1);
    KwargsOfPairs(p2);
    var m1 := KwargsOf(p1);
    forall n | n in m1 ensures n in KwargsOf(p2) && KwargsOf(p2)[n] == m1[n] {
      assert (n, m1[n]) in p1;
      assert (n, m1[n]) in multiset(p2);
    }
  }

  /** Changing the value of one keyword argument changes the key, provided the two
      values render differently. */
  lemma DifferentKwargValueDifferentKey(funcName: string, args: seq<Arg>, kwargs: map<string, Arg>, name: string, v: Arg)
    requires name in kwargs
    requires KwargPart(name, v) != KwargPart(name, kwargs[name])
    ensures GenerateKey(funcName, args, kwargs[name := v]) != GenerateKey(funcName, args, kwargs)
  {
    var names := SortedNames(kwargs.Keys);
    assert name in names;
    var j :| 0 <= j < |names| && names[j] == name;
    var pre := [funcName] + ArgParts(args);
    var kb := KwargParts(names, kwargs);
    KeyPartsUpdate(funcName, args, kwargs, j, v);
    assert kb[j] == KwargPart(name, kwargs[name]);
    JoinUpdateDiffers(pre, kb, j, KwargPart(name, v), "|");
  }

  /** Updating the `j`-th keyword (in sorted order) replaces just its part. */
  lemma KeyPartsUpdate(funcName: string, args: seq<Arg>, kwargs: map<string, Arg>, j: nat, v: Arg)
    requires j < |SortedNames(kwargs.Keys)|
    ensures var names := SortedNames(kwargs.Keys);
            KeyParts(funcName, args, kwargs[names[j] := v]) ==
              [funcName] + ArgParts(args) + KwargParts(names, kwargs)[j := KwargPart(names[j], v)]
  {
    var names := SortedNames(kwargs.Keys);
    var kw2 := kwargs[names[j] := v];
    assert SortedNames(kw2.Keys) == names by {
      assert kw2.Keys == kwargs.Keys;
    }
    KwargPartsUpdate(names, kwargs, j, v);
  }

  /** Replacing one part by a different string changes the joined text. */
  lemma JoinUpdateDiffers(pre: seq<string>, s: seq<string>, j: nat, x: string, sep: string)
    requires j < |s| && x != s[j]
    ensures Join(pre + s[j := x], sep) != Join(pre + s, sep)
  {
    OnlyOnePartDiffers(pre, s, j, x);
    JoinDiffersAt(pre + s[j := x], pre + s, sep, |pre| + j);
  }

  lemma OnlyOnePartDiffers(pre: seq<string>, s: seq<string>, j: nat, x: string)
    requires j < |s|
    ensures |pre + s[j := x]| == |pre + s|
    ensures (pre + s[j := x])[|pre| + j] == x && (pre + s)[|pre| + j] == s[j]
    ensures forall t :: 0 <= t < |pre| + |s| && t != |pre| + j ==> (pre + s[j := x])[t] == (pre + s)[t]
  {
  }

  /** Updating the value of the `j`-th name changes only the `j`-th part. */
  lemma KwargPartsUpdate(names: seq<string>, kwargs: map<string, Arg>, j: nat, v: Arg)
    requires StrictlySorted(names) && j < |names|
    requires forall n :: n in names ==> n in kwargs
    ensures KwargParts(names, kwargs[names[j] := v]) == KwargParts(names, kwargs)[j := KwargPart(names[j], v)]
  {
    var kw2 := kwargs[names[j] := v];
    var a := KwargParts(names, kw2);
    var b := KwargParts(names, kwargs)[j := KwargPart(names[j], v)];
    forall u | 0 <= u < |names| ensures a[u] == b[u] {
      if u != j {
        SortedDistinct(names, u, j);
        UpdateElsewhere(kwargs, names[j], v, names[u]);
      }
    }
  }

  lemma UpdateElsewhere(m: map<string, Arg>, k: string, v: Arg, n: string)
    requires n in m && n != k
    ensures m[k := v][n] == m[n]
  {
  }

  lemma SortedDistinct(s: seq<string>, u: nat, j: nat)
    requires StrictlySorted(s) && u < |s| && j < |s| && u != j
    ensures s[u] != s[j]
  {
    if u < j {
      if s[u] == s[j] { LessIrreflexive(s[u]); }
    } else {
      if s[u] == s[j] { LessIrreflexive(s[u]); }
    }
  }

  /** Scalar keyword values with different renderings give different keys, as with
      `periods=30` and `periods=60`. */
  lemma DifferentScalarKwargDifferentKey(funcName: string, args: seq<Arg>, kwargs: map<string, Arg>, name: string, r1: string, r2: string)
    requires r1 != r2
    ensures GenerateKey(funcName, args, kwargs[name := Scalar(r1)]) != GenerateKey(funcName, args, kwargs[name := Scalar(r2)])
  {
    var k1 := kwargs[name := Scalar(r1)];
    assert k1[name := Scalar(r2)] == kwargs[name := Scalar(r2)];
    if KwargPart(name, Scalar(r1)) == KwargPart(name, Scalar(r2)) {
      PrefixCancel(name + ":", r1, r2);
    }
    DifferentKwargValueDifferentKey(funcName, args, k1, name, Scalar(r2));
  }
}

=== FILE: cache_manager.dfy ===
/** The two-tier cache (`CacheManager` in src/core/caching/cache_manager.py): reads
    go to memory first, then to disk, and a disk hit is copied into memory; writes
    go to both tiers. */
module TwoTierCache {
  import opened Wrappers
  import opened Text
  import opened CacheEntries
  import MemoryTier
  import DiskTier

  type Key = string

  /** Defaults of the cache configuration. */
  const DEFAULT_TTL: int := 3600
  const MAX_MEMORY_SIZE: int := 512

  datatype CacheManager<V> = CacheManager(
    memory: MemoryTier.MemoryCache<V>,
    disk: DiskTier.DiskCache<V>,
    defaultTtl: int)

  datatype Read<V> = Read(manager: CacheManager<V>, value: Option<V>)

  datatype Invalidation<V> = Invalidation(manager: CacheManager<V>, removed: bool)

  datatype Check<V> = Check(manager: CacheManager<V>, valid: bool)

  datatype CleanupReport<V> = CleanupReport(
    manager: CacheManager<V>,
    expiredDiskEntriesRemoved: nat,
    memoryStats: MemoryTier.MemoryStats)

  datatype Stats = Stats(memory: MemoryTier.MemoryStats, diskCacheFiles: nat)

  /** `CacheManager.__init__`: an empty memory tier over the cache directory as it
      is found, so files written by an earlier run are served again. */
  function New<V>(maxMemorySize: int, defaultTtl: int, disk: DiskTier.DiskCache<V>): (c: CacheManager<V>)
    ensures Valid(c)
    ensures |c.memory.entries| == 0 && c.disk == disk
    ensures c.memory.maxSize == maxMemorySize && c.defaultTtl == defaultTtl
  {
    CacheManager(MemoryTier.Empty(maxMemorySize), disk, defaultTtl)
  }

  /** A restarted manager serves a readable live file left by an earlier run,
      keeps the file, and promotes its value into memory with the default
      time-to-live. */
  lemma NewServesExistingDisk<V>(maxMemorySize: int, defaultTtl: int, disk: DiskTier.DiskCache<V>,
                                 key: Key, now: Time)
    requires key in disk && DiskTier.Readable(disk[key], now) && disk[key].entry.data.Some?
    ensures var r := Get(New(maxMemorySize, defaultTtl, disk), key, now);
            && r.value == disk[key].entry.data
            && r.manager.disk == disk
            && key in r.manager.memory.entries
            && r.manager.memory.entries[key] == NewEntry(r.value, now, defaultTtl)
  {
    var c := New(maxMemorySize, defaultTtl, disk);
    assert !InMemory(c, key, now);
    assert OnDisk(c, key, now);
  }

  predicate Valid<V>(c: CacheManager<V>) {
    MemoryTier.Valid(c.memory)
  }

  /** The memory tier holds a live, non-`None` value for `key`. */
  predicate InMemory<V>(c: CacheManager<V>, key: Key, now: Time) {
    key in c.memory.entries && !c.memory.entries[key].IsExpired(now) && c.memory.entries[key].data.Some?
  }

  /** The disk tier holds a readable, live, non-`None` value for `key`. */
  predicate OnDisk<V>(c: CacheManager<V>, key: Key, now: Time) {
    key in c.disk && DiskTier.Readable(c.disk[key], now) && c.disk[key].entry.data.Some?
  }

  /** `get`: memory first, then disk; a disk hit is promoted into memory with the
      default time-to-live, not the one it was written with. A stored `None`
      reads as a miss. */
  function Get<V>(c: CacheManager<V>, key: Key, now: Time): (r: Read<V>)
    ensures InMemory(c, key, now) ==>
              && r.value == c.memory.entries[key].data
              && r.manager.memory == MemoryTier.Get(c.memory, key, now).cache
              && r.manager.disk == c.disk
    ensures !InMemory(c, key, now) ==> r.manager.disk == DiskTier.Get(c.disk, key, now).disk
    ensures !InMemory(c, key, now) && OnDisk(c, key, now) ==>
              && r.value == c.disk[key].entry.data
              && key in r.manager.memory.entries
              && r.manager.memory.entries[key] == NewEntry(r.value, now, c.defaultTtl)
              && r.manager.memory == MemoryTier.Set(MemoryTier.Get(c.memory, key, now).cache, key, r.value, c.defaultTtl, now)
    ensures !InMemory(c, key, now) && !OnDisk(c, key, now) ==>
              r.manager.memory == MemoryTier.Get(c.memory, key, now).cache
    ensures r.value.Some? <==> InMemory(c, key, now) || OnDisk(c, key, now)
    ensures r.manager.defaultTtl == c.defaultTtl
    ensures r.manager.memory.maxSize == c.memory.maxSize
  {
    var fromMemory := MemoryTier.Get(c.memory, key, now);
    if fromMemory.value.Some? then
      Read(c.(memory := fromMemory.cache), fromMemory.value)
    else
      var fromDisk := DiskTier.Get(c.disk, key, now);
      if fromDisk.value.Some? then
        var promoted := MemoryTier.Set(fromMemory.cache, key, fromDisk.value, c.defaultTtl, now);
        Read(c.(memory := promoted, disk := fromDisk.disk), fromDisk.value)
      else
        Read(c.(memory := fromMemory.cache, disk := fromDisk.disk), None)
  }

  /** A read of `key` touches no other key's file, changes no other key's memory
      entry, and drops another key from memory only to make room when it promotes
      a disk hit. */
  lemma GetFramesOtherKeys<V>(c: CacheManager<V>, key: Key, now: Time)
    ensures var r := Get(c, key, now);
            && (forall k :: k in c.disk && k != key ==> k in r.manager.disk && r.manager.disk[k] == c.disk[k])
            && (forall k :: k in r.manager.disk ==> k in c.disk)
            && (forall k :: k in r.manager.memory.entries && k != key ==>
                  k in c.memory.entries && r.manager.memory.entries[k] == c.memory.entries[k])
            && (!OnDisk(c, key, now) || InMemory(c, key, now) ==>
                  forall k :: k in c.memory.entries && k != key ==> k in r.manager.memory.entries)
  {
    var r := Get(c, key, now);
    var fromMemory := MemoryTier.Get(c.memory, key, now);
    if !InMemory(c, key, now) {
      var fromDisk := DiskTier.Get(c.disk, key, now);
      assert r.manager.disk == fromDisk.disk;
      if OnDisk(c, key, now) {
        assert r.manager.memory == MemoryTier.Set(fromMemory.cache, key, r.value, c.defaultTtl, now);
      }
    }
  }

  /** Reads keep the memory tier's invariant and, with at least one slot, its bound. */
  lemma GetPreservesInvariant<V>(c: CacheManager<V>, key: Key, now: Time)
    requires Valid(c)
    ensures Valid(Get(c, key, now).manager)
    ensures c.memory.maxSize >= 1 && MemoryTier.Bounded(c.memory) ==>
              MemoryTier.Bounded(Get(c, key, now).manager.memory)
  {
    var fromMemory := MemoryTier.Get(c.memory, key, now);
    if fromMemory.value.None? {
      var fromDisk := DiskTier.Get(c.disk, key, now);
      if fromDisk.value.Some? {
        MemoryTier.SetPreservesInvariant(fromMemory.cache, key, fromDisk.value, c.defaultTtl, now);
      }
    }
  }

  /** The time-to-live a write uses: the given one, else the default. */
  function EffectiveTtl<V>(c: CacheManager<V>, ttl: Option<int>): int {
    ttl.GetOr(c.defaultTtl)
  }

  /** `set`: the same fresh entry goes to both tiers. */
  function Set<V>(c: CacheManager<V>, key: Key, value: Option<V>, ttl: Option<int>, now: Time): (r: CacheManager<V>)
    ensures key in r.memory.entries && r.memory.entries[key] == NewEntry(value, now, EffectiveTtl(c, ttl))
    ensures r.disk == c.disk[key := DiskTier.Intact(NewEntry(value, now, EffectiveTtl(c, ttl)))]
    ensures ttl.None? ==> r.memory.entries[key].ttl == c.defaultTtl
    ensures forall k :: k in r.memory.entries && k != key ==> k in c.memory.entries && r.memory.entries[k] == c.memory.entries[k]
    ensures r.defaultTtl == c.defaultTtl && r.memory.maxSize == c.memory.maxSize
  {
    var t := EffectiveTtl(c, ttl);
    var entry := NewEntry(value, now, t);
    c.(memory := MemoryTier.Set(c.memory, key, value, t, now), disk := DiskTier.Set(c.disk, key, entry))
  }

  lemma SetPreservesInvariant<V>(c: CacheManager<V>, key: Key, value: Option<V>, ttl: Option<int>, now: Time)
    requires Valid(c)
    ensures Valid(Set(c, key, value, ttl, now))
    ensures c.memory.maxSize >= 1 && MemoryTier.Bounded(c.memory) ==>
              MemoryTier.Bounded(Set(c, key, value, ttl, now).memory)
  {
    MemoryTier.SetPreservesInvariant(c.memory, key, value, EffectiveTtl(c, ttl), now);
  }

  /** A value written with `set` reads back until its time-to-live lapses. */
  lemma SetThenGet<V>(c: CacheManager<V>, key: Key, v: V, ttl: Option<int>, now: Time, later: Time)
    requires later - now <= EffectiveTtl(c, ttl) as real
    ensures Get(Set(c, key, Some(v), ttl, now), key, later).value == Some(v)
  {
    var s := Set(c, key, Some(v), ttl, now);
    assert InMemory(s, key, later);
  }

  /** Once the time-to-live has lapsed in both tiers, a read is a miss and removes
      the entry from both tiers. */
  lemma SetThenGetAfterExpiry<V>(c: CacheManager<V>, key: Key, v: V, ttl: Option<int>, now: Time, later: Time)
    requires later - now > EffectiveTtl(c, ttl) as real
    ensures Get(Set(c, key, Some(v), ttl, now), key, later).value == None
    ensures key !in Get(Set(c, key, Some(v), ttl, now), key, later).manager.memory.entries
    ensures key !in Get(Set(c, key, Some(v), ttl, now), key, later).manager.disk
  {
  }

  /** `is_valid`: a full read whose answer is whether a value came back. */
  function IsValid<V>(c: CacheManager<V>, key: Key, now: Time): (r: Check<V>)
    ensures r.valid <==> InMemory(c, key, now) || OnDisk(c, key, now)
    ensures r.manager == Get(c, key, now).manager
  {
    var read := Get(c, key, now);
    Check(read.manager, read.value.Some?)
  }

  /** `invalidate`: removes `key` from both tiers; reports whether a disk file
      existed (a memory-only entry reports `false`). */
  function Invalidate<V>(c: CacheManager<V>, key: Key): (r: Invalidation<V>)
    ensures r.manager.memory.entries == c.memory.entries - {key}
    ensures r.manager.disk == c.disk - {key}
    ensures r.removed <==> key in c.disk
    ensures Valid(c) ==> Valid(r.manager) && r.manager.memory.accessOrder == MemoryTier.Without(c.memory.accessOrder, {key})
    ensures r.manager.defaultTtl == c.defaultTtl && r.manager.memory.maxSize == c.memory.maxSize
  {
    var memory := MemoryTier.Remove(c.memory, key);
    if key in c.disk then Invalidation(c.(memory := memory, disk := c.disk - {key}), true)
    else Invalidation(c.(memory := memory), false)
  }

  /** After `invalidate(k)` nothing is read back for `k`, from either tier. */
  lemma InvalidateThenGet<V>(c: CacheManager<V>, key: Key, now: Time)
    ensures Get(Invalidate(c, key).manager, key, now).value == None
    ensures !InMemory(Invalidate(c, key).manager, key, now) && !OnDisk(Invalidate(c, key).manager, key, now)
  {
  }

  /** The memory-resident keys containing `pattern` as a substring. */
  function Matching<V>(c: CacheManager<V>, pattern: string): set<Key> {
    set k | k in c.memory.entries && Contains(k, pattern)
  }

  /** `invalidate_pattern`: invalidates every memory-resident key that contains
      `pattern` and counts those whose disk file existed. Keys only on disk are
      not touched, even when they match. */
  method InvalidatePattern<V>(c: CacheManager<V>, pattern: string) returns (r: CacheManager<V>, count: nat)
    ensures r.memory.entries == c.memory.entries - Matching(c, pattern)
    ensures r.disk == c.disk - Matching(c, pattern)
    ensures count == |Matching(c, pattern) * c.disk.Keys|
    ensures Valid(c) ==> Valid(r) && r.memory.accessOrder == MemoryTier.Without(c.memory.accessOrder, Matching(c, pattern))
    ensures r.defaultTtl == c.defaultTtl && r.memory.maxSize == c.memory.maxSize
  {
    r, count := InvalidateKeys(c, Matching(c, pattern));
  }

  /** Invalidates each key of `keys` in turn, counting the disk files removed. */
  method InvalidateKeys<V>(c: CacheManager<V>, keys: set<Key>) returns (r: CacheManager<V>, count: nat)
    ensures InvalidatedSoFar(c, keys, r, count)
  {
    var remaining := keys;
    ghost var visited: seq<Key> := [];
    r := c;
    count := 0;
    while remaining != {}
      invariant remaining <= keys
      invariant forall k :: k in visited <==> k in keys && k !in remaining
      invariant MemoryTier.NoDuplicates(visited)
      invariant (r, count) == InvalidateInOrder(c, visited)
      decreases remaining
    {
      var k :| k in remaining;
      var step := Invalidate(r, k);
      assert (visited + [k])[..|visited|] == visited;
      r := step.manager;
      count := if step.removed then count + 1 else count;
      visited := visited + [k];
      remaining := remaining - {k};
    }
    InvalidateInOrderSpec(c, visited, keys);
  }

  /** Invalidating the keys of `ks` one after the other, first to last: the
      resulting cache and how many invalidations removed a disk file. */
  function InvalidateInOrder<V>(c: CacheManager<V>, ks: seq<Key>): (CacheManager<V>, nat)
    decreases |ks|
  {
    if |ks| == 0 then (c, 0)
    else
      var before := InvalidateInOrder(c, ks[..|ks| - 1]);
      var step := Invalidate(before.0, ks[|ks| - 1]);
      (step.manager, if step.removed then before.1 + 1 else before.1)
  }

  /** Invalidating distinct keys one at a time has the same effect as removing
      them all at once, whatever the order. */
  lemma {:induction false} InvalidateInOrderSpec<V>(c: CacheManager<V>, ks: seq<Key>, done: set<Key>)
    requires MemoryTier.NoDuplicates(ks)
    requires forall k :: k in ks <==> k in done
    ensures InvalidatedSoFar(c, done, InvalidateInOrder(c, ks).0, InvalidateInOrder(c, ks).1)
    decreases |ks|
  {
    if |ks| == 0 {
      assert done == {};
      InvalidatedNone(c);
    } else {
      var init := ks[..|ks| - 1];
      var k := ks[|ks| - 1];
      assert ks == init + [k];
      assert k !in init by {
        forall i | 0 <= i < |init| ensures init[i] != k {
          assert init[i] == ks[i];
        }
      }
      var before := done - {k};
      assert MemoryTier.NoDuplicates(init) by {
        forall i, j | 0 <= i < j < |init| ensures init[i] != init[j] {
          assert init[i] == ks[i] && init[j] == ks[j];
        }
      }
      InvalidateInOrderSpec(c, init, before);
      var prev := InvalidateInOrder(c, init);
      InvalidateOneMore(c, before, prev.0, prev.1, k, done);
    }
  }

  /** Keys that live only on disk survive a pattern invalidation, whatever they
      contain. */
  lemma PatternSparesDiskOnlyKeys<V>(c: CacheManager<V>, pattern: string, k: Key)
    requires k in c.disk && k !in c.memory.entries
    ensures k in c.disk - Matching(c, pattern)
    ensures (c.disk - Matching(c, pattern))[k] == c.disk[k]
  {
  }

  /** `r` and `count` are what invalidating exactly the keys of `done`, one at a
      time, makes of `c`. */
  ghost predicate InvalidatedSoFar<V>(c: CacheManager<V>, done: set<Key>, r: CacheManager<V>, count: nat) {
    && r == CacheManager(c.memory.(entries := c.memory.entries - done, accessOrder := r.memory.accessOrder),
                         c.disk - done, c.defaultTtl)
    && count == |done * c.disk.Keys|
    && (Valid(c) ==> Valid(r) && r.memory.accessOrder == MemoryTier.Without(c.memory.accessOrder, done))
  }

  lemma InvalidatedNone<V>(c: CacheManager<V>)
    ensures InvalidatedSoFar(c, {}, c, 0)
  {
    assert c.memory.entries - {} == c.memory.entries;
    assert c.disk - {} == c.disk;
    if Valid(c) {
      MemoryTier.WithoutAbsent(c.memory.accessOrder, {});
    }
  }

  lemma InvalidateOneMore<V>(c: CacheManager<V>, done: set<Key>, r: CacheManager<V>, count: nat, k: Key, done': set<Key>)
    requires InvalidatedSoFar(c, done, r, count)
    requires k !in done && done' == done + {k}
    ensures InvalidatedSoFar(c, done', Invalidate(r, k).manager,
                             if Invalidate(r, k).removed then count + 1 else count)
  {
    var step := Invalidate(r, k);
    SubtractOneMore(c.memory.entries, done, k);
    SubtractOneMore(c.disk, done, k);
    CountOneMore(c.disk.Keys, done, k);
    if Valid(c) {
      MemoryTier.WithoutWithout(c.memory.accessOrder, done, {k});
    }
  }

  lemma SubtractOneMore<X>(m: map<Key, X>, done: set<Key>, k: Key)
    ensures m - done - {k} == m - (done + {k})
  {
  }

  lemma CountOneMore(keys: set<Key>, done: set<Key>, k: Key)
    requires k !in done
    ensures |(done + {k}) * keys| == |done * keys| + (if k in keys then 1 else 0)
  {
    if k in keys {
      assert (done + {k}) * keys == done * keys + {k};
    } else {
      assert (done + {k}) * keys == done * keys;
    }
  }

  /** `clear_all`: both tiers emptied. */
  function ClearAll<V>(c: CacheManager<V>): (r: CacheManager<V>)
    ensures |r.memory.entries| == 0 && |r.memory.accessOrder| == 0 && |r.disk| == 0
    ensures Valid(r)
    ensures r.defaultTtl == c.defaultTtl && r.memory.maxSize == c.memory.maxSize
  {
    c.(memory := MemoryTier.Clear(c.memory), disk := DiskTier.Clear(c.disk))
  }

  /** After `clear_all` every read is a miss. */
  lemma ClearAllThenGet<V>(c: CacheManager<V>, key: Key, now: Time)
    ensures Get(ClearAll(c), key, now).value == None
  {
  }

  /** `cleanup`: prunes the disk tier and reports memory statistics; the memory tier
      is left as it is. */
  function Cleanup<V>(c: CacheManager<V>, now: Time): (r: CleanupReport<V>)
    ensures r.manager.memory == c.memory
    ensures forall k :: k in r.manager.disk <==> k in c.disk && DiskTier.Readable(c.disk[k], now)
    ensures forall k :: k in r.manager.disk ==> r.manager.disk[k] == c.disk[k]
    ensures r.expiredDiskEntriesRemoved + |r.manager.disk| == |c.disk|
    ensures r.memoryStats.totalEntries == |c.memory.entries|
  {
    var pruned := DiskTier.CleanupExpired(c.disk, now);
    CleanupReport(c.(disk := pruned.disk), pruned.removed, MemoryTier.Stats(c.memory, now))
  }

  /** `get_stats`: memory statistics and the number of files in the disk tier,
      unreadable ones included. */
  function GetStats<V>(c: CacheManager<V>, now: Time): (r: Stats)
    ensures r.diskCacheFiles == |c.disk|
    ensures r.memory.totalEntries == |c.memory.entries|
    ensures r.memory.expiredEntries + r.memory.activeEntries == |c.memory.entries|
  {
    Stats(MemoryTier.Stats(c.memory, now), |c.disk|)
  }
}

=== FILE: calendar.dfy ===
/** Proleptic Gregorian dates as Python's `datetime.date` counts them: the
    day ordinal (`toordinal`, day 1 = 0001-01-01), `weekday()` with Monday = 0,
    and day steps (`+ timedelta(days=1)`). */
module Calendar {

  datatype Date = Date(year: int, month: int, day: int)

  /** The Gregorian leap-year rule (`calendar.isleap`). */
  predicate IsLeap(y: int) {
    y % 4 == 0 && (y % 100 != 0 || y % 400 == 0)
  }

  function DaysInMonth(y: int, m: int): (n: int)
    requires 1 <= m <= 12
    ensures 28 <= n <= 31
  {
    if m == 2 then (if IsLeap(y) then 29 else 28)
    else if m == 4 || m == 6 || m == 9 || m == 11 then 30
    else 31
  }

  /** A date `datetime.date` accepts (years below 1 are rejected there). */
  predicate Valid(d: Date) {
    d.year >= 1 && 1 <= d.month <= 12 && 1 <= d.day <= DaysInMonth(d.year, d.month)
  }

  /** Days in the years before `y`. */
  function DaysBeforeYear(y: int): (r: int)
    requires y >= 1
    ensures r >= 0
  {
    var p := y - 1;
    p * 365 + p / 4 - p / 100 + p / 400
  }

  /** Days in the months of year `y` before month `m`. */
  function DaysBeforeMonth(y: int, m: int): int
    requires 1 <= m <= 12
  {
    [0, 31, 59, 90, 120, 151, 181, 212, 243, 273, 304, 334][m - 1] + (if m > 2 && IsLeap(y) then 1 else 0)
  }

  /** `date.toordinal()`. */
  function Ordinal(d: Date): (r: int)
    requires Valid(d)
    ensures r >= d.day
  {
    DaysBeforeYear(d.year) + DaysBeforeMonth(d.year, d.month) + d.day
  }

  /** `date.weekday()`: Monday is 0, Sunday is 6. */
  function Weekday(d: Date): (w: int)
    requires Valid(d)
    ensures 0 <= w < 7
  {
    (Ordinal(d) + 6) % 7
  }

  /** A Monday to Friday. */
  predicate IsBusinessDay(d: Date)
    requires Valid(d)
  {
    Weekday(d) <= 4
  }

  function LastOfMonth(y: int, m: int): (d: Date)
    requires y >= 1 && 1 <= m <= 12
    ensures Valid(d)
  {
    Date(y, m, DaysInMonth(y, m))
  }

  /** The first day of the following month. */
  function FirstOfFollowingMonth(y: int, m: int): (d: Date)
    requires y >= 1 && 1 <= m <= 12
    ensures Valid(d) && d.day == 1
  {
    if m < 12 then Date(y, m + 1, 1) else Date(y + 1, 1, 1)
  }

  /** The next calendar day. */
  function NextDay(d: Date): (r: Date)
    requires Valid(d)
    ensures Valid(r)
  {
    if d.day < DaysInMonth(d.year, d.month) then Date(d.year, d.month, d.day + 1)
    else FirstOfFollowingMonth(d.year, d.month)
  }

  lemma DaysBeforeYearStep(y: int)
    requires y >= 1
    ensures DaysBeforeYear(y + 1) == DaysBeforeYear(y) + (if IsLeap(y) then 366 else 365)
  {
    var p := y - 1;
    assert y / 4 == p / 4 + (if y % 4 == 0 then 1 else 0);
    assert y / 100 == p / 100 + (if y % 100 == 0 then 1 else 0);
    assert y / 400 == p / 400 + (if y % 400 == 0 then 1 else 0);
  }

  lemma DaysBeforeMonthStep(y: int, m: int)
    requires 1 <= m < 12
    ensures DaysBeforeMonth(y, m + 1) == DaysBeforeMonth(y, m) + DaysInMonth(y, m)
  {
  }

  /** The ordinal counts days: the next day's ordinal is one more. */
  lemma NextDayOrdinal(d: Date)
    requires Valid(d)
    ensures Ordinal(NextDay(d)) == Ordinal(d) + 1
  {
    if d.day == DaysInMonth(d.year, d.month) {
      if d.month < 12 {
        DaysBeforeMonthStep(d.year, d.month);
      } else {
        DaysBeforeYearStep(d.year);
      }
    }
  }

  /** Weekdays advance modulo 7 with the ordinal. */
  lemma WeekdayShift(o: int, n: int)
    ensures (o + n + 6) % 7 == ((o + 6) % 7 + n) % 7
  {
  }

  lemma NextDayWeekday(d: Date)
    requires Valid(d)
    ensures Weekday(NextDay(d)) == (Weekday(d) + 1) % 7
  {
    NextDayOrdinal(d);
    WeekdayShift(Ordinal(d), 1);
  }

  /** The previous calendar day. */
  function PrevDay(d: Date): (r: Date)
    requires Valid(d) && Ordinal(d) > 1
    ensures Valid(r) && NextDay(r) == d
  {
    if d.day > 1 then Date(d.year, d.month, d.day - 1)
    else if d.month > 1 then LastOfMonth(d.year, d.month - 1)
    else
      assert d.year > 1;
      LastOfMonth(d.year - 1, 12)
  }

  lemma PrevDayOrdinal(d: Date)
    requires Valid(d) && Ordinal(d) > 1
    ensures Ordinal(PrevDay(d)) == Ordinal(d) - 1
    ensures Weekday(PrevDay(d)) == (Weekday(d) + 6) % 7
  {
    var p := PrevDay(d);
    NextDayOrdinal(p);
    WeekdayShift(Ordinal(p), 1);
    assert Weekday(d) == (Weekday(p) + 1) % 7;
  }

  /** `d + timedelta(days=n)`, a month at a time. */
  function AddDays(d: Date, n: nat): (r: Date)
    requires Valid(d)
    ensures Valid(r)
    decreases n
  {
    var dim := DaysInMonth(d.year, d.month);
    if d.day + n <= dim then Date(d.year, d.month, d.day + n)
    else AddDays(FirstOfFollowingMonth(d.year, d.month), n - (dim - d.day + 1))
  }

  /** Adding days adds to the ordinal. */
  lemma {:induction false} AddDaysOrdinal(d: Date, n: nat)
    requires Valid(d)
    ensures Ordinal(AddDays(d, n)) == Ordinal(d) + n
    decreases n
  {
    var dim := DaysInMonth(d.year, d.month);
    if d.day + n <= dim {
      SameMonthOrdinal(d, AddDays(d, n));
    } else {
      var last := LastOfMonth(d.year, d.month);
      SameMonthOrdinal(d, last);
      NextDayOrdinal(last);
      assert NextDay(last) == FirstOfFollowingMonth(d.year, d.month);
      AddDaysOrdinal(FirstOfFollowingMonth(d.year, d.month), n - (dim - d.day + 1));
    }
  }

  lemma AddDaysWeekday(d: Date, n: nat)
    requires Valid(d)
    ensures Weekday(AddDays(d, n)) == (Weekday(d) + n) % 7
  {
    AddDaysOrdinal(d, n);
    WeekdayShift(Ordinal(d), n);
  }

  /** Whole weeks later is the same weekday. */
  lemma WeeksLater(d: Date, n: nat)
    requires Valid(d) && n % 7 == 0
    ensures Ordinal(AddDays(d, n)) == Ordinal(d) + n
    ensures Weekday(AddDays(d, n)) == Weekday(d)
  {
    AddDaysOrdinal(d, n);
    AddDaysWeekday(d, n);
    WholeWeeks(Weekday(d), n);
  }

  lemma WholeWeeks(a: int, n: int)
    requires 0 <= a < 7 && n >= 0 && n % 7 == 0
    ensures (a + n) % 7 == a
  {
    assert a + n == a + 7 * (n / 7);
  }

  /** One day later is the next day. */
  lemma NextDayIsOneLater(d: Date)
    requires Valid(d)
    ensures NextDay(d) == AddDays(d, 1)
  {
  }

  /** Python's `(d.replace(day=1) + timedelta(days=32)).replace(day=1)` lands on
      the first of the following month. */
  lemma ThirtyTwoDaysLater(y: int, m: int)
    requires y >= 1 && 1 <= m <= 12
    ensures var r := AddDays(Date(y, m, 1), 32);
            Date(r.year, r.month, 1) == FirstOfFollowingMonth(y, m)
            && r.day == 33 - DaysInMonth(y, m)
  {
  }

  /** Within a month the ordinal moves with the day. */
  lemma SameMonthOrdinal(d: Date, e: Date)
    requires Valid(d) && Valid(e) && d.year == e.year && d.month == e.month
    ensures Ordinal(e) - Ordinal(d) == e.day - d.day
  {
  }

  /** A Saturday or Sunday is never the first day of the calendar. */
  lemma WeekendHasPrevDay(d: Date)
    requires Valid(d) && Weekday(d) > 4
    ensures Ordinal(d) > 1
  {
  }

  /** Python's `while d.weekday() > 4: d -= timedelta(days=1)`. */
  function RollBackToBusinessDay(d: Date): (r: Date)
    requires Valid(d)
    ensures Valid(r) && IsBusinessDay(r)
    decreases if Weekday(d) > 4 then Weekday(d) - 4 else 0
  {
    if Weekday(d) > 4 then
      WeekendHasPrevDay(d);
      PrevDayOrdinal(d);
      RollBackToBusinessDay(PrevDay(d))
    else d
  }

  /** One step of the backward roll from a weekend day. */
  lemma RollBackOnce(d: Date)
    requires Valid(d) && Weekday(d) > 4
    ensures Ordinal(d) > 1
    ensures RollBackToBusinessDay(d) == RollBackToBusinessDay(PrevDay(d))
    ensures d.day > 1 ==> PrevDay(d) == Date(d.year, d.month, d.day - 1)
  {
    WeekendHasPrevDay(d);
  }

  /** The day before a Saturday or Sunday is a Friday or Saturday. */
  lemma WeekendPrevDay(d: Date)
    requires Valid(d) && Weekday(d) > 4
    ensures Ordinal(d) > 1
    ensures Weekday(PrevDay(d)) == Weekday(d) - 1 && Ordinal(PrevDay(d)) == Ordinal(d) - 1
  {
    WeekendHasPrevDay(d);
    PrevDayOrdinal(d);
    var w := Weekday(d);
    assert (w + 6) % 7 == w - 1;
  }

  /** Rolling back moves a Saturday back one day and a Sunday two, and leaves
      any other day where it is. */
  lemma RollBackSteps(d: Date)
    requires Valid(d)
    ensures var k := if Weekday(d) == 6 then 2 else if Weekday(d) == 5 then 1 else 0;
            Ordinal(RollBackToBusinessDay(d)) == Ordinal(d) - k
            && (d.day > k ==> RollBackToBusinessDay(d) == Date(d.year, d.month, d.day - k))
  {
    var w := Weekday(d);
    if w == 6 {
      RollBackOnce(d);
      WeekendPrevDay(d);
      var p := PrevDay(d);
      RollBackOnce(p);
      WeekendPrevDay(p);
      var q := PrevDay(p);
      assert RollBackToBusinessDay(q) == q;
    } else if w == 5 {
      RollBackOnce(d);
      WeekendPrevDay(d);
      var p := PrevDay(d);
      assert RollBackToBusinessDay(p) == p;
    }
  }

  /** Python's `while d.weekday() > 4: d += timedelta(days=1)`. */
  function RollForwardToBusinessDay(d: Date): (r: Date)
    requires Valid(d)
    ensures Valid(r) && IsBusinessDay(r)
    decreases if Weekday(d) > 4 then 7 - Weekday(d) else 0
  {
    if Weekday(d) > 4 then
      NextDayWeekday(d);
      RollForwardToBusinessDay(NextDay(d))
    else d
  }

  /** One step of the forward roll from a weekend day. */
  lemma RollForwardOnce(d: Date)
    requires Valid(d) && Weekday(d) > 4
    ensures RollForwardToBusinessDay(d) == RollForwardToBusinessDay(NextDay(d))
    ensures Weekday(NextDay(d)) == (Weekday(d) + 1) % 7
  {
    NextDayWeekday(d);
  }

  /** From a Saturday the forward roll stops on the Monday two days later. */
  lemma RollForwardSaturday(d: Date)
    requires Valid(d) && Weekday(d) == 5
    ensures Ordinal(RollForwardToBusinessDay(d)) == Ordinal(d) + 2
    ensures d.day + 2 <= DaysInMonth(d.year, d.month) ==>
              RollForwardToBusinessDay(d) == Date(d.year, d.month, d.day + 2)
  {
    RollForwardOnce(d);
    NextDayOrdinal(d);
    var n := NextDay(d);
    RollForwardSunday(n);
  }

  /** From a Sunday the forward roll stops on the next day, a Monday. */
  lemma RollForwardSunday(d: Date)
    requires Valid(d) && Weekday(d) == 6
    ensures Ordinal(RollForwardToBusinessDay(d)) == Ordinal(d) + 1
    ensures d.day + 1 <= DaysInMonth(d.year, d.month) ==>
              RollForwardToBusinessDay(d) == Date(d.year, d.month, d.day + 1)
  {
    RollForwardOnce(d);
    NextDayOrdinal(d);
    var n := NextDay(d);
    assert Weekday(n) == 0;
    assert RollForwardToBusinessDay(n) == n;
  }

  /** Rolling forward moves a Saturday on two days and a Sunday one, and leaves
      any other day where it is. */
  lemma RollForwardSteps(d: Date)
    requires Valid(d)
    ensures var k := if Weekday(d) == 5 then 2 else if Weekday(d) == 6 then 1 else 0;
            && Ordinal(RollForwardToBusinessDay(d)) == Ordinal(d) + k
            && (d.day + k <= DaysInMonth(d.year, d.month) ==>
                  RollForwardToBusinessDay(d) == Date(d.year, d.month, d.day + k))
  {
    var w := Weekday(d);
    if w == 5 {
      RollForwardSaturday(d);
    } else if w == 6 {
      RollForwardSunday(d);
    }
  }

  /** The distance, in days, from weekday `a` forward to weekday `w`. */
  function DaysToWeekday(a: int, w: int): (k: int)
    requires 0 <= a < 7 && 0 <= w < 7
    ensures 0 <= k < 7 && (k == 0 <==> a == w)
    ensures k == (w - a + 7) % 7
  {
    if w >= a then w - a else w - a + 7
  }

  /** Python's `while d.weekday() != w: d += timedelta(days=1)`. */
  function FirstWeekdayOnOrAfter(d: Date, w: int): (r: Date)
    requires Valid(d) && 0 <= w < 7
    ensures Valid(r) && Weekday(r) == w
    decreases DaysToWeekday(Weekday(d), w)
  {
    if Weekday(d) != w then
      NextDayWeekday(d);
      assert DaysToWeekday(Weekday(NextDay(d)), w) < DaysToWeekday(Weekday(d), w);
      FirstWeekdayOnOrAfter(NextDay(d), w)
    else d
  }

  lemma DaysToWeekdayArrives(a: int, w: int)
    requires 0 <= a < 7 && 0 <= w < 7
    ensures (a + DaysToWeekday(a, w)) % 7 == w
  {
  }

  /** One step of the weekday search from a day on another weekday. */
  lemma FirstWeekdayOnce(d: Date, w: int)
    requires Valid(d) && 0 <= w < 7 && Weekday(d) != w
    ensures FirstWeekdayOnOrAfter(d, w) == FirstWeekdayOnOrAfter(NextDay(d), w)
    ensures DaysToWeekday(Weekday(NextDay(d)), w) == DaysToWeekday(Weekday(d), w) - 1
    ensures Ordinal(NextDay(d)) == Ordinal(d) + 1
  {
    NextDayWeekday(d);
    NextDayOrdinal(d);
    DaysToWeekdayStep(Weekday(d), w);
  }

  lemma DaysToWeekdayStep(a: int, w: int)
    requires 0 <= a < 7 && 0 <= w < 7 && a != w
    ensures DaysToWeekday((a + 1) % 7, w) == DaysToWeekday(a, w) - 1
  {
  }

  /** The search stops after `(w - weekday) mod 7` days, on the first day with
      that weekday. */
  lemma {:induction false} FirstWeekdaySteps(d: Date, w: int)
    requires Valid(d) && 0 <= w < 7
    ensures Ordinal(FirstWeekdayOnOrAfter(d, w)) == Ordinal(d) + DaysToWeekday(Weekday(d), w)
    decreases DaysToWeekday(Weekday(d), w)
  {
    if Weekday(d) != w {
      FirstWeekdayOnce(d, w);
      FirstWeekdaySteps(NextDay(d), w);
    }
  }

  /** When the search stays inside the month, it only moves the day. */
  lemma {:induction false} FirstWeekdayInMonth(d: Date, w: int)
    requires Valid(d) && 0 <= w < 7
    requires d.day + DaysToWeekday(Weekday(d), w) <= DaysInMonth(d.year, d.month)
    ensures FirstWeekdayOnOrAfter(d, w) == Date(d.year, d.month, d.day + DaysToWeekday(Weekday(d), w))
    decreases DaysToWeekday(Weekday(d), w)
  {
    if Weekday(d) != w {
      FirstWeekdayOnce(d, w);
      FirstWeekdayInMonth(NextDay(d), w);
    }
  }

  /** Inside one month the weekday advances with the day of the month. */
  lemma WeekdayInMonth(y: int, m: int, a: int, b: int)
    requires Valid(Date(y, m, a)) && Valid(Date(y, m, b))
    ensures Weekday(Date(y, m, b)) == (Weekday(Date(y, m, a)) + (b - a)) % 7
  {
    SameMonthOrdinal(Date(y, m, a), Date(y, m, b));
    WeekdayShift(Ordinal(Date(y, m, a)), b - a);
  }

  /** The first of the following month comes after every day of this month. */
  lemma FollowingMonthIsLater(d: Date)
    requires Valid(d)
    ensures Ordinal(FirstOfFollowingMonth(d.year, d.month)) > Ordinal(d)
  {
    var last := LastOfMonth(d.year, d.month);
    SameMonthOrdinal(d, last);
    NextDayOrdinal(last);
    assert NextDay(last) == FirstOfFollowingMonth(d.year, d.month);
  }

  /** Reference definition: the first day of the month `k` months after the
      month of `d`. */
  function MonthsAhead(d: Date, k: nat): (r: Date)
    requires d.year >= 1 && 1 <= d.month <= 12
    ensures Valid(r) && r.day == 1
  {
    Date(d.year + (d.month - 1 + k) / 12, (d.month - 1 + k) % 12 + 1, 1)
  }

  /** One and two months ahead are different months. */
  lemma NextTwoMonthsDiffer(d: Date)
    requires d.year >= 1 && 1 <= d.month <= 12
    ensures MonthsAhead(d, 1).month != MonthsAhead(d, 2).month
  {
  }

  lemma FollowingMonthIsOneAhead(d: Date)
    requires d.year >= 1 && 1 <= d.month <= 12
    ensures FirstOfFollowingMonth(d.year, d.month) == MonthsAhead(d, 1)
    ensures MonthsAhead(FirstOfFollowingMonth(d.year, d.month), 1) == MonthsAhead(d, 2)
  {
  }

  /** Rolling back from the month's last day gives its last business day: a
      Monday to Friday at most two days before the end, with only Saturdays and
      Sundays after it. */
  lemma LastBusinessDayOfMonth(y: int, m: int)
    requires y >= 1 && 1 <= m <= 12
    ensures var r := RollBackToBusinessDay(LastOfMonth(y, m));
            && r.year == y && r.month == m
            && IsBusinessDay(r)
            && r.day >= DaysInMonth(y, m) - 2
            && forall k | r.day < k <= DaysInMonth(y, m) :: Weekday(Date(y, m, k)) > 4
  {
    var last := LastOfMonth(y, m);
    RollBackSteps(last);
    var r := RollBackToBusinessDay(last);
    forall k | r.day < k <= DaysInMonth(y, m)
      ensures Weekday(Date(y, m, k)) > 4
    {
      WeekdayInMonth(y, m, last.day, k);
    }
  }

  /** Searching from the 1st finds the month's first day on weekday `w`: within
      the first week, with no earlier day on that weekday. */
  lemma FirstWeekdayOfMonth(y: int, m: int, w: int)
    requires y >= 1 && 1 <= m <= 12 && 0 <= w < 7
    ensures var r := FirstWeekdayOnOrAfter(Date(y, m, 1), w);
            && r.year == y && r.month == m
            && Weekday(r) == w && r.day <= 7
            && forall k | 1 <= k < r.day :: Weekday(Date(y, m, k)) != w
  {
    var first := Date(y, m, 1);
    FirstWeekdayInMonth(first, w);
    var r := FirstWeekdayOnOrAfter(first, w);
    forall k | 1 <= k < r.day
      ensures Weekday(Date(y, m, k)) != w
    {
      WeekdayInMonth(y, m, 1, k);
    }
  }

  /** Rolling forward from day `n` gives the first business day on or after it,
      at most two days later and in the same month. */
  lemma BusinessDayOnOrAfter(y: int, m: int, n: int)
    requires y >= 1 && 1 <= m <= 12 && 1 <= n <= 26
    ensures var r := RollForwardToBusinessDay(Date(y, m, n));
            && r.year == y && r.month == m
            && IsBusinessDay(r)
            && n <= r.day <= n + 2
            && forall k | n <= k < r.day :: Weekday(Date(y, m, k)) > 4
  {
    var nominal := Date(y, m, n);
    RollForwardSteps(nominal);
    var r := RollForwardToBusinessDay(nominal);
    forall k | n <= k < r.day
      ensures Weekday(Date(y, m, k)) > 4
    {
      WeekdayInMonth(y, m, n, k);
    }
  }
}

=== FILE: disk_cache.dfy ===
/** The durable tier (`DiskCache` in src/core/caching/cache_manager.py) as a keyed
    store. A file that cannot be unpickled is `Corrupt`; readers treat it like an
    expired entry and delete it. */
module DiskTier {
  import opened Wrappers
  import opened CacheEntries

  type Key = string

  datatype DiskFile<V> = Intact(entry: CacheEntry<V>) | Corrupt

  type DiskCache<V> = map<Key, DiskFile<V>>

  datatype DiskRead<V> = DiskRead(disk: DiskCache<V>, value: Option<V>)

  datatype Cleanup<V> = Cleanup(disk: DiskCache<V>, removed: nat)

  /** A file whose entry can be read and has not expired at `now`. */
  predicate Readable<V>(f: DiskFile<V>, now: Time) {
    f.Intact? && !f.entry.IsExpired(now)
  }

  /** `get`: a missing file is a miss; an expired or unreadable file is deleted and
      is a miss; a readable file yields its data and stays as it is. */
  function Get<V>(d: DiskCache<V>, key: Key, now: Time): (r: DiskRead<V>)
    ensures key !in d ==> r == DiskRead(d, None)
    ensures key in d && Readable(d[key], now) ==> r.disk == d && r.value == d[key].entry.data
    ensures key in d && !Readable(d[key], now) ==> r.disk == d - {key} && r.value == None
    ensures r.value.Some? ==> key in d && Readable(d[key], now)
  {
    if key !in d then DiskRead(d, None)
    else match d[key]
      case Corrupt => DiskRead(d - {key}, None)
      case Intact(entry) =>
        if entry.IsExpired(now) then DiskRead(d - {key}, None)
        else DiskRead(d, entry.data)
  }

  function Set<V>(d: DiskCache<V>, key: Key, entry: CacheEntry<V>): (r: DiskCache<V>)
    ensures r.Keys == d.Keys + {key}
    ensures r[key] == Intact(entry)
    ensures forall k :: k in d && k != key ==> r[k] == d[k]
  {
    d[key := Intact(entry)]
  }

  /** Where `set` can fail: `open(cache_file, 'wb')` itself raises (the old file, if
      any, is left as it was), or it truncates the file and `pickle.dump` raises
      (a partial file is left behind). Either way the error is only logged. */
  datatype WriteFault = NoFault | OpenFails | DumpFails

  /** `set` with the write's outcome as a parameter. */
  function SetWith<V>(d: DiskCache<V>, key: Key, entry: CacheEntry<V>, fault: WriteFault): (r: DiskCache<V>)
    ensures fault == NoFault ==> r == Set(d, key, entry)
    ensures fault == OpenFails ==> r == d
    ensures fault == DumpFails ==> r.Keys == d.Keys + {key} && r[key] == Corrupt
    ensures forall k :: k in d && k != key ==> k in r && r[k] == d[k]
  {
    match fault
    case NoFault => Set(d, key, entry)
    case OpenFails => d
    case DumpFails => d[key := Corrupt]
  }

  /** A write that failed inside `pickle.dump` leaves a file the next `get` cannot
      read: that read is a miss and deletes the file, whatever was there before. */
  lemma FailedDumpReadsAsMiss<V>(d: DiskCache<V>, key: Key, entry: CacheEntry<V>, now: Time)
    ensures var r := Get(SetWith(d, key, entry, DumpFails), key, now);
            r.value == None && r.disk == d - {key}
  {
    var w := SetWith(d, key, entry, DumpFails);
    assert w - {key} == d - {key};
  }

  /** A write that failed on `open` leaves the previous file, so a later `get` reads
      exactly what it would have read before the write. */
  lemma FailedOpenKeepsOldFile<V>(d: DiskCache<V>, key: Key, entry: CacheEntry<V>, now: Time)
    ensures Get(SetWith(d, key, entry, OpenFails), key, now) == Get(d, key, now)
  {
  }

  function Clear<V>(d: DiskCache<V>): (r: DiskCache<V>)
    ensures |r| == 0
  {
    map[]
  }

  function StaleKeys<V>(d: DiskCache<V>, now: Time): set<Key> {
    set k | k in d && !Readable(d[k], now)
  }

  /** `cleanup_expired`: deletes every expired or unreadable file and reports how
      many it deleted; readable files are kept untouched. */
  function CleanupExpired<V>(d: DiskCache<V>, now: Time): (r: Cleanup<V>)
    ensures forall k :: k in r.disk <==> k in d && Readable(d[k], now)
    ensures forall k :: k in r.disk ==> r.disk[k] == d[k]
    ensures r.removed == |StaleKeys(d, now)|
    ensures r.removed + |r.disk| == |d|
  {
    var kept := map k | k in d && Readable(d[k], now) :: d[k];
    assert kept.Keys + StaleKeys(d, now) == d.Keys;
    assert kept.Keys * StaleKeys(d, now) == {};
    Cleanup(kept, |StaleKeys(d, now)|)
  }

  /** After a cleanup no later read of a surviving key at the same time deletes it. */
  lemma CleanupLeavesOnlyReadable<V>(d: DiskCache<V>, now: Time, key: Key)
    requires key in CleanupExpired(d, now).disk
    ensures Get(CleanupExpired(d, now).disk, key, now).value == d[key].entry.data
    ensures Get(CleanupExpired(d, now).disk, key, now).disk == CleanupExpired(d, now).disk
  {
  }
}

=== FILE: indicator_registry.dfy ===
/** The declarative indicator table of src/config/indicator_registry.py and its
    lookup and filter helpers. Python's insertion-ordered dict is a sequence of
    (key, config) pairs in declaration order. */
module IndicatorRegistry {
  import opened Wrappers

  /** The PMI proxy's component series and their weights. */
  datatype PmiComponents = PmiComponents(seriesIds: map<string, string>, weights: map<string, real>)

  /** The USD liquidity components: the series summed, the GDP series and the
      history start date. */
  datatype LiquidityComponents = LiquidityComponents(seriesIds: seq<string>, gdpSeries: string, startDate: string)

  /** The `IndicatorConfig` dataclass, with its defaults for the optional fields. */
  datatype IndicatorConfig = IndicatorConfig(
    key: string,
    displayName: string,
    emoji: string,
    fredSeries: seq<string>,
    chartType: string,
    valueColumn: string,
    periods: int,
    frequency: Option<string>,
    bullishCondition: string,
    threshold: Option<real>,
    warningDescription: string,
    chartColor: string,
    cardChartHeight: int := 360,
    fredLink: Option<string> := None,
    customChartFn: Option<string> := None,
    customStatusFn: Option<string> := None,
    cacheTtl: int := 3600,
    yahooSeries: Option<seq<string>> := None,
    pmiComponents: Option<PmiComponents> := None,
    liquidityComponents: Option<LiquidityComponents> := None)

  /** A configuration built from the required fields alone carries the dataclass
      defaults. */
  function Required(key: string, displayName: string, emoji: string, fredSeries: seq<string>,
                    chartType: string, valueColumn: string, periods: int, frequency: Option<string>,
                    bullishCondition: string, threshold: Option<real>, warningDescription: string,
                    chartColor: string): (c: IndicatorConfig)
    ensures c.key == key && c.fredSeries == fredSeries && c.threshold == threshold
    ensures c.cardChartHeight == 360 && c.cacheTtl == 3600
    ensures c.fredLink.None? && c.customChartFn.None? && c.customStatusFn.None?
    ensures c.yahooSeries.None? && c.pmiComponents.None? && c.liquidityComponents.None?
  {
    IndicatorConfig(key, displayName, emoji, fredSeries, chartType, valueColumn, periods, frequency,
                    bullishCondition, threshold, warningDescription, chartColor)
  }

  /** The warning descriptions shown with each indicator. */
  const INITIAL_CLAIMS_DESCRIPTION: string :=
    "This is your early warning system. The key pattern to watch is 3 consecutive weeks of rising claims, which often triggers before major market stress. Playbook for rising claims: Scale back aggressive positions, shift toward defensive sectors, and build cash reserves. 'Small moves early beat big moves late.'\n\n⚠️ **Danger Combination:** Claims rising 3 weeks + PMI below 50 + Hours worked dropping. When these align, protect capital first."
  const PCE_DESCRIPTION: string :=
    "Everyone watches CPI, but PCE guides Fed policy. Framework: PCE dropping + Stable jobs = Add risk. PCE rising + Rising claims = Get defensive. PCE is a window into rate trends, market conditions, and risk appetite."
  const CORE_CPI_DESCRIPTION: string :=
    "Watch for 3 consecutive months of rising MoM core CPI — that's the inflation re-acceleration signal that forces the Fed's hand. Conversely, 3 consecutive months of declining MoM prints open the door to rate cuts and risk-on rotation. When it drops: Growth stocks outperform, bonds rally, and tech leads. When it rises: Value stocks win, real assets dominate, and tech struggles."
  const HOURS_WORKED_DESCRIPTION: string :=
    "Track hours worked for 3 consecutive months. When they drop consistently, big money gets defensive. This pattern tends to precede major market shifts and is a crucial early signal before actual job losses occur.\n\n⚠️ **Danger Combination:** Hours worked dropping + PMI below 50 + Claims rising 3 weeks. When these align, protect capital first."
  const YIELD_CURVE_DESCRIPTION: string :=
    "Yield curve inversion (negative spread) has preceded every recession since 1950. Extended inversion (6+ months) increases recession probability significantly. Watch for re-steepening — it often marks the actual onset of downturn, not recovery."
  const CREDIT_SPREAD_DESCRIPTION: string :=
    "Credit spreads above 5% indicate market stress and potential liquidity concerns. Rapid widening often precedes equity corrections as institutional money prices in elevated default risk. Monitor for sudden jumps that can signal credit market seizure."
  const PSCF_PRICE_DESCRIPTION: string :=
    "Copper prices often lead global economic cycles due to deep industrial demand. Falling copper signals economic slowdown ahead. Rising copper signals expanding manufacturing and construction activity. Often called 'Dr. Copper' for its predictive track record."
  const PMI_PROXY_DESCRIPTION: string :=
    "Think of it as the economy's pulse. Above 50 = Growth, Below 50 = Contraction. Watch trends, not just levels. Danger combination: PMI below 50 + Claims rising 3 weeks + Hours worked dropping. When these align, protect capital first."
  const USD_LIQUIDITY_DESCRIPTION: string :=
    "USD liquidity is a key driver of market direction. Rising liquidity + Stable inflation = Bullish for risk assets. Falling liquidity + Rising inflation = Bearish for risk assets. Watch for 3 consecutive months of directional change for high-confidence signals."
  const NEW_ORDERS_DESCRIPTION: string :=
    "New orders represent future production commitments. Consecutive monthly declines often foreshadow manufacturing weakness and can precede broader economic slowdowns by 2–3 months. A leading signal for ISM Manufacturing direction."
  const COPPER_GOLD_YIELD_DESCRIPTION: string :=
    "Copper/Gold ratio vs Treasury yields helps identify risk-on/risk-off sentiment and inflation expectations. Copper is the economy's barometer — rising ratio signals growth expectations, falling ratio signals contraction. Divergence from yields often resolves with a sharp market re-pricing."

  /** `INDICATOR_REGISTRY` in declaration order. */
  const REGISTRY: seq<(string, IndicatorConfig)> := [
    ("initial_claims", IndicatorConfig(
      key := "initial_claims",
      displayName := "Initial Jobless Claims",
      emoji := "🏢",
      fredSeries := ["ICSA"],
      chartType := "line",
      valueColumn := "Claims",
      periods := 52,
      frequency := Some("W"),
      bullishCondition := "decreasing",
      threshold := None,
      warningDescription := INITIAL_CLAIMS_DESCRIPTION,
      chartColor := "#1a7fe0",
      fredLink := Some("https://fred.stlouisfed.org/series/ICSA"))),
    ("pce", IndicatorConfig(
      key := "pce",
      displayName := "Personal Consumption Expenditures",
      emoji := "💰",
      fredSeries := ["PCE"],
      chartType := "line",
      valueColumn := "PCE_YoY",
      periods := 24,
      frequency := Some("M"),
      bullishCondition := "below_threshold",
      threshold := Some(3.5),
      warningDescription := PCE_DESCRIPTION,
      chartColor := "#00c853",
      fredLink := Some("https://fred.stlouisfed.org/series/PCE"))),
    ("core_cpi", IndicatorConfig(
      key := "core_cpi",
      displayName := "Core Consumer Price Index",
      emoji := "📊",
      fredSeries := ["CPILFESL"],
      chartType := "line",
      valueColumn := "CPI_MoM",
      periods := 24,
      frequency := Some("M"),
      bullishCondition := "decreasing",
      threshold := None,
      warningDescription := CORE_CPI_DESCRIPTION,
      chartColor := "#ff9800",
      fredLink := Some("https://fred.stlouisfed.org/series/CPILFESL"))),
    ("hours_worked", IndicatorConfig(
      key := "hours_worked",
      displayName := "Average Weekly Hours Worked",
      emoji := "⏰",
      fredSeries := ["AWHAETP"],
      chartType := "line",
      valueColumn := "Hours",
      periods := 24,
      frequency := Some("M"),
      bullishCondition := "above_threshold",
      threshold := Some(34.0),
      warningDescription := HOURS_WORKED_DESCRIPTION,
      chartColor := "#78909c",
      fredLink := Some("https://fred.stlouisfed.org/series/AWHAETP"))),
    ("yield_curve", IndicatorConfig(
      key := "yield_curve",
      displayName := "2-10 Year Treasury Spread",
      emoji := "📈",
      fredSeries := ["T10Y2Y"],
      chartType := "line",
      valueColumn := "T10Y2Y",
      periods := 60,
      frequency := Some("M"),
      bullishCondition := "above_threshold",
      threshold := Some(0.0),
      warningDescription := YIELD_CURVE_DESCRIPTION,
      chartColor := "#f44336",
      fredLink := Some("https://fred.stlouisfed.org/series/T10Y2Y"))),
    ("credit_spread", IndicatorConfig(
      key := "credit_spread",
      displayName := "High Yield Credit Spread",
      emoji := "💎",
      fredSeries := ["BAMLH0A0HYM2"],
      chartType := "custom",
      valueColumn := "value",
      periods := 60,
      frequency := Some("M"),
      bullishCondition := "below_threshold",
      threshold := Some(5.0),
      warningDescription := CREDIT_SPREAD_DESCRIPTION,
      chartColor := "#9c27b0",
      customChartFn := Some("visualization.charts.create_credit_spread_chart"),
      fredLink := Some("https://fred.stlouisfed.org/series/BAMLH0A0HYM2"))),
    ("pscf_price", IndicatorConfig(
      key := "pscf_price",
      displayName := "Copper Price (PSCF)",
      emoji := "🔩",
      fredSeries := ["PSCF"],
      chartType := "custom",
      valueColumn := "value",
      periods := 24,
      frequency := Some("M"),
      bullishCondition := "decreasing",
      threshold := None,
      warningDescription := PSCF_PRICE_DESCRIPTION,
      chartColor := "#ff5722",
      customChartFn := Some("visualization.charts.create_pscf_chart"),
      fredLink := Some("https://fred.stlouisfed.org/series/PSCF"))),
    ("pmi_proxy", IndicatorConfig(
      key := "pmi_proxy",
      displayName := "Manufacturing PMI Proxy",
      emoji := "🏭",
      fredSeries := ["AMTMNO", "IPMAN", "MANEMP", "AMDMUS", "MNFCTRIMSA"],
      chartType := "custom",
      valueColumn := "composite_pmi",
      periods := 24,
      frequency := Some("M"),
      bullishCondition := "custom",
      threshold := Some(50.0),
      warningDescription := PMI_PROXY_DESCRIPTION,
      chartColor := "#4caf50",
      customChartFn := Some("visualization.indicators.create_pmi_chart"),
      customStatusFn := Some("visualization.warning_signals.generate_pmi_warning"),
      fredLink := None,
      pmiComponents := Some(PmiComponents(
        map["new_orders" := "AMTMNO", "production" := "IPMAN", "employment" := "MANEMP",
            "supplier_deliveries" := "AMDMUS", "inventories" := "MNFCTRIMSA"],
        map["new_orders" := 0.30, "production" := 0.25, "employment" := 0.20,
            "supplier_deliveries" := 0.15, "inventories" := 0.10])))),
    ("usd_liquidity", IndicatorConfig(
      key := "usd_liquidity",
      displayName := "USD Liquidity Conditions",
      emoji := "💧",
      fredSeries := ["WALCL", "RRPONTTLD", "B235RC1Q027SBEA", "CURRCIR", "GDP"],
      chartType := "custom",
      valueColumn := "total_liquidity_pct_gdp",
      periods := 60,
      frequency := Some("Q"),
      bullishCondition := "custom",
      threshold := None,
      warningDescription := USD_LIQUIDITY_DESCRIPTION,
      chartColor := "#2196f3",
      customChartFn := Some("visualization.indicators.create_usd_liquidity_chart"),
      customStatusFn := Some("visualization.warning_signals.generate_usd_liquidity_warning"),
      fredLink := None,
      liquidityComponents := Some(LiquidityComponents(
        ["WALCL", "RRPONTTLD", "B235RC1Q027SBEA", "CURRCIR"], "GDP", "2000-01-01")))),
    ("new_orders", IndicatorConfig(
      key := "new_orders",
      displayName := "New Orders Index",
      emoji := "📦",
      fredSeries := ["NEWORDER"],
      chartType := "line",
      valueColumn := "NEWORDER_MoM",
      periods := 24,
      frequency := Some("M"),
      bullishCondition := "above_threshold",
      threshold := Some(0.0),
      warningDescription := NEW_ORDERS_DESCRIPTION,
      chartColor := "#607d8b",
      fredLink := Some("https://fred.stlouisfed.org/series/NEWORDER"))),
    ("copper_gold_yield", IndicatorConfig(
      key := "copper_gold_yield",
      displayName := "Copper/Gold vs 10Y Treasury",
      emoji := "🥇",
      fredSeries := ["DGS10"],
      yahooSeries := Some(["HG=F", "GC=F"]),
      chartType := "dual_axis",
      valueColumn := "copper_gold_ratio",
      periods := 252,
      frequency := Some("D"),
      bullishCondition := "custom",
      threshold := None,
      warningDescription := COPPER_GOLD_YIELD_DESCRIPTION,
      chartColor := "#ff6f00",
      customChartFn := Some("visualization.indicators.create_copper_gold_yield_chart"),
      fredLink := Some("https://fred.stlouisfed.org/series/DGS10")))
  ]

  /** The configurations in registry order (`INDICATOR_REGISTRY.values()`). */
  function Configs(): (cs: seq<IndicatorConfig>)
    ensures |cs| == |REGISTRY|
    ensures forall i :: 0 <= i < |cs| ==> cs[i] == REGISTRY[i].1
  {
    seq(|REGISTRY|, i requires 0 <= i < |REGISTRY| => REGISTRY[i].1)
  }

  /** The keys in registry order (`list_indicators`). */
  function ListIndicators(): (ks: seq<string>)
    ensures |ks| == |REGISTRY|
    ensures forall i :: 0 <= i < |ks| ==> ks[i] == REGISTRY[i].0
  {
    seq(|REGISTRY|, i requires 0 <= i < |REGISTRY| => REGISTRY[i].0)
  }

  predicate InRegistry(key: string) {
    exists i :: 0 <= i < |REGISTRY| && REGISTRY[i].0 == key
  }

  /** The position of `key` in a list of (key, value) pairs, searched from the front. */
  function IndexOf(entries: seq<(string, IndicatorConfig)>, key: string): (r: Option<nat>)
    ensures r.Some? ==> r.value < |entries| && entries[r.value].0 == key
    ensures r.Some? ==> forall j :: 0 <= j < r.value ==> entries[j].0 != key
    ensures r.None? <==> forall j :: 0 <= j < |entries| ==> entries[j].0 != key
  {
    if |entries| == 0 then None
    else if entries[0].0 == key then Some(0)
    else match IndexOf(entries[1..], key)
      case None => None
      case Some(i) => Some(i + 1)
  }

  /** `get_indicator_config`: the entry under `key`, or the KeyError it raises. */
  function GetIndicatorConfig(key: string): (r: Result<IndicatorConfig, string>)
    ensures r.Ok? <==> InRegistry(key)
    ensures r.Ok? ==> exists i :: 0 <= i < |REGISTRY| && REGISTRY[i] == (key, r.value)
    ensures r.Err? ==> r.error == "Indicator '" + key + "' not found in registry"
  {
    match IndexOf(REGISTRY, key)
    case Some(i) => Ok(REGISTRY[i].1)
    case None => Err("Indicator '" + key + "' not found in registry")
  }

  /** `xs` keeps some of the elements of `ys`, in the order they have there. */
  predicate SubsequenceOf<T(==)>(xs: seq<T>, ys: seq<T>)
    decreases |ys|
  {
    if |xs| == 0 then true
    else if |ys| == 0 then false
    else if xs[0] == ys[0] then SubsequenceOf(xs[1..], ys[1..])
    else SubsequenceOf(xs, ys[1..])
  }

  /** A list comprehension `[c for c in cs if keep(c)]`. */
  function Filter(cs: seq<IndicatorConfig>, keep: IndicatorConfig -> bool): (r: seq<IndicatorConfig>)
    ensures forall c :: c in r <==> c in cs && keep(c)
    ensures SubsequenceOf(r, cs)
  {
    if |cs| == 0 then []
    else if keep(cs[0]) then [cs[0]] + Filter(cs[1..], keep)
    else Filter(cs[1..], keep)
  }

  /** The filter keeps every copy of a passing element and no copy of a failing
      one, so with its order (`SubsequenceOf`) the result is exactly the passing
      elements. */
  lemma {:induction false} FilterKeepsEveryCopy(cs: seq<IndicatorConfig>, keep: IndicatorConfig -> bool)
    ensures forall c :: multiset(Filter(cs, keep))[c] == if keep(c) then multiset(cs)[c] else 0
  {
    if |cs| > 0 {
      FilterKeepsEveryCopy(cs[1..], keep);
      assert cs == [cs[0]] + cs[1..];
      assert multiset(cs) == multiset{cs[0]} + multiset(cs[1..]);
    }
  }

  /** `get_indicators_by_chart_type`. */
  function GetIndicatorsByChartType(chartType: string): (r: seq<IndicatorConfig>)
    ensures forall c :: c in r <==> c in Configs() && c.chartType == chartType
    ensures SubsequenceOf(r, Configs())
  {
    Filter(Configs(), (c: IndicatorConfig) => c.chartType == chartType)
  }

  /** `get_fred_indicators`: entries whose FRED series list is non-empty. */
  function GetFredIndicators(): (r: seq<IndicatorConfig>)
    ensures forall c :: c in r <==> c in Configs() && |c.fredSeries| > 0
    ensures SubsequenceOf(r, Configs())
  {
    Filter(Configs(), (c: IndicatorConfig) => |c.fredSeries| > 0)
  }

  /** `get_yahoo_indicators`: entries with a non-empty Yahoo series list. */
  function GetYahooIndicators(): (r: seq<IndicatorConfig>)
    ensures forall c :: c in r <==> c in Configs() && c.yahooSeries.Some? && |c.yahooSeries.value| > 0
    ensures SubsequenceOf(r, Configs())
  {
    Filter(Configs(), (c: IndicatorConfig) => c.yahooSeries.Some? && |c.yahooSeries.value| > 0)
  }

  /** The table has eleven entries; each entry's `key` field is the key it is
      stored under, and no key is stored twice. */
  lemma RegistryShape()
    ensures |REGISTRY| == 11
    ensures forall i :: 0 <= i < |REGISTRY| ==> REGISTRY[i].1.key == REGISTRY[i].0
    ensures forall i, j :: 0 <= i < j < |REGISTRY| ==> REGISTRY[i].0 != REGISTRY[j].0
  {
  }

  /** Every threshold-based entry has a threshold, and every entry drawn by a
      custom chart names its chart builder. */
  lemma RegistryWellFormed()
    ensures forall i :: 0 <= i < |REGISTRY| && REGISTRY[i].1.bullishCondition in {"below_threshold", "above_threshold"} ==>
              REGISTRY[i].1.threshold.Some?
    ensures forall i :: 0 <= i < |REGISTRY| && REGISTRY[i].1.chartType == "custom" ==> REGISTRY[i].1.customChartFn.Some?
    ensures forall i :: 0 <= i < |REGISTRY| ==> REGISTRY[i].1.cacheTtl == 3600 && REGISTRY[i].1.cardChartHeight == 360
  {
  }

  /** `copper_gold_yield` is the only entry with Yahoo series. */
  lemma YahooIndicatorsAreCopperGold()
    ensures GetYahooIndicators() == [REGISTRY[10].1]
  {
    var cs := Configs();
    var yahoo := (c: IndicatorConfig) => c.yahooSeries.Some? && |c.yahooSeries.value| > 0;
    assert forall i :: 0 <= i < 10 ==> !yahoo(cs[i]) by {
      OnlyLastHasYahoo();
    }
    FilterSkip(cs, yahoo, 10);
    FilterSingleton(cs[10..], yahoo);
  }

  lemma FilterSingleton(cs: seq<IndicatorConfig>, keep: IndicatorConfig -> bool)
    requires |cs| == 1 && keep(cs[0])
    ensures Filter(cs, keep) == cs
  {
    assert Filter(cs[1..], keep) == [];
  }

  lemma OnlyLastHasYahoo()
    ensures forall i :: 0 <= i < 10 ==> REGISTRY[i].1.yahooSeries.None?
  {
  }

  /** Every entry has FRED series, so the FRED list is the whole table. */
  lemma FredIndicatorsAreAll()
    ensures GetFredIndicators() == Configs()
  {
    var cs := Configs();
    assert forall c :: c in cs ==> |c.fredSeries| > 0 by {
      forall c | c in cs ensures |c.fredSeries| > 0 {
        var i :| 0 <= i < |cs| && cs[i] == c;
        assert |REGISTRY[i].1.fredSeries| > 0;
      }
    }
    FilterAll(cs, (c: IndicatorConfig) => |c.fredSeries| > 0);
  }

  /** Entries the filter rejects at the front of the list are skipped. */
  lemma {:induction false} FilterSkip(cs: seq<IndicatorConfig>, keep: IndicatorConfig -> bool, n: nat)
    requires n <= |cs|
    requires forall i :: 0 <= i < n ==> !keep(cs[i])
    ensures Filter(cs, keep) == Filter(cs[n..], keep)
  {
    if n > 0 {
      assert cs[1..][n - 1..] == cs[n..];
      FilterSkip(cs[1..], keep, n - 1);
    }
  }

  lemma {:induction false} FilterAll(cs: seq<IndicatorConfig>, keep: IndicatorConfig -> bool)
    requires forall c :: c in cs ==> keep(c)
    ensures Filter(cs, keep) == cs
  {
    if |cs| > 0 {
      FilterAll(cs[1..], keep);
    }
  }
}

=== FILE: indicator_service.dfy ===
/** The indicator service (`IndicatorService` in src/services/indicator_service.py):
    read-through caching of indicator data over the two-tier cache, dispatch to the
    data fetchers, and the batch that fetches every dashboard indicator.

    The fetchers (FRED, Yahoo and the derived-indicator calculations) are outside
    the model: they are one function parameter `fetch` from a request to a reply.
    Keyword arguments are their `str()` renderings. */
module IndicatorService {
  import opened Wrappers
  import opened Text
  import opened CacheEntries
  import TwoTierCache
  import MemoryTier

  /** The FRED time-to-live of the cache configuration. */
  const FRED_TTL: int := 86400

  /** One entry of the service's own indicator table. */
  datatype SeriesConfig = SeriesConfig(seriesId: string, frequency: string, cacheTtl: int, defaultPeriods: nat)

  /** The indicators the basic FRED path knows. */
  function IndicatorsConfig(): map<string, SeriesConfig> {
    map[
      "claims" := SeriesConfig("ICSA", "W", FRED_TTL, 52),
      "pce" := SeriesConfig("PCE", "M", FRED_TTL, 24),
      "core_cpi" := SeriesConfig("CPILFESL", "M", FRED_TTL, 24),
      "hours_worked" := SeriesConfig("AWHAETP", "M", FRED_TTL, 24),
      "new_orders" := SeriesConfig("NEWORDER", "M", FRED_TTL, 24),
      "yield_curve" := SeriesConfig("T10Y2Y", "D", FRED_TTL, 36)
    ]
  }

  /** `IndicatorResult` without its wall-clock `execution_time`. */
  datatype IndicatorResult<D> = IndicatorResult(success: bool, data: Option<D>, error: Option<string>, cached: bool)

  function Failure<D>(error: string): (r: IndicatorResult<D>)
    ensures !r.success && r.error == Some(error) && r.data == None && !r.cached
  {
    IndicatorResult(false, None, Some(error), false)
  }

  /** What the service asks a fetcher for. */
  datatype Request =
    | UsdLiquidity(periods: string, useSampleData: string)
    | Pmi(periods: string)
    | CopperGold(periods: string)
    | FredSeries(seriesId: string, periods: string, frequency: string)

  /** What a fetcher answers: data (`None` for a FRED call that returned nothing,
      `empty` for an empty frame), or the text of the exception it raised. */
  datatype Reply<D> = Data(value: Option<D>, empty: bool) | Raised(message: string)

  /** The parameters that take part in the cache key, in key order. */
  const RELEVANT_PARAMS: seq<string> := ["periods", "frequency", "start_date", "end_date"]

  /** The key part of parameter `p`: `p:value` when it is given, else nothing. */
  function ParamPart(p: string, kwargs: map<string, string>): seq<string> {
    if p in kwargs then [p + ":" + kwargs[p]] else []
  }

  /** The parts of the parameters of `params` that are given, in `params` order. */
  function ParamParts(params: seq<string>, kwargs: map<string, string>): (parts: seq<string>)
    ensures |parts| <= |params|
  {
    if |params| == 0 then []
    else
      var rest := ParamParts(params[1..], kwargs);
      if params[0] in kwargs then [params[0] + ":" + kwargs[params[0]]] + rest else rest
  }

  /** The parts are exactly `p:value` for the given parameters of `params`, and
      there are none iff no parameter of `params` is given. */
  lemma {:induction false} ParamPartsMembers(params: seq<string>, kwargs: map<string, string>)
    ensures forall s :: s in ParamParts(params, kwargs) ==> exists p :: p in params && p in kwargs && s == p + ":" + kwargs[p]
    ensures forall p :: p in params && p in kwargs ==> p + ":" + kwargs[p] in ParamParts(params, kwargs)
    ensures |ParamParts(params, kwargs)| == 0 <==> forall p :: p in params ==> p !in kwargs
  {
    if |params| > 0 {
      ParamPartsMembers(params[1..], kwargs);
      forall p | p in params
        ensures p == params[0] || p in params[1..]
      {
        var i :| 0 <= i < |params| && params[i] == p;
        if i > 0 {
          assert params[1..][i - 1] == p;
        }
      }
    }
  }

  /** `_get_cache_key`: the indicator name, then `param:value` for each relevant
      parameter present, joined by `|`. */
  function CacheKey(name: string, kwargs: map<string, string>): (key: string)
    ensures IsPrefix(name, key)
    ensures key == name <==> forall p :: p in RELEVANT_PARAMS ==> p !in kwargs
  {
    ParamPartsMembers(RELEVANT_PARAMS, kwargs);
    var parts := [name] + ParamParts(RELEVANT_PARAMS, kwargs);
    assert Join(parts, "|") == name || Join(parts, "|") == name + ("|" + Join(parts[1..], "|"));
    Join(parts, "|")
  }

  /** The whole key layout: the name, then the parts of `periods`, `frequency`,
      `start_date` and `end_date` in that fixed order, each only when given, all
      joined by `|`. */
  lemma CacheKeyLayout(name: string, kwargs: map<string, string>)
    ensures CacheKey(name, kwargs) ==
              Join([name] + ParamPart("periods", kwargs) + ParamPart("frequency", kwargs)
                          + ParamPart("start_date", kwargs) + ParamPart("end_date", kwargs), "|")
  {
    ParamPartsOfFour("periods", "frequency", "start_date", "end_date", kwargs);
    var tail := ParamPart("periods", kwargs) + ParamPart("frequency", kwargs)
                + ParamPart("start_date", kwargs) + ParamPart("end_date", kwargs);
    assert [name] + tail == [name] + ParamPart("periods", kwargs) + ParamPart("frequency", kwargs)
                            + ParamPart("start_date", kwargs) + ParamPart("end_date", kwargs);
  }

  lemma ParamPartsCons(params: seq<string>, kwargs: map<string, string>)
    requires |params| > 0
    ensures ParamParts(params, kwargs) == ParamPart(params[0], kwargs) + ParamParts(params[1..], kwargs)
  {
  }

  lemma ParamPartsOfFour(a: string, b: string, c: string, d: string, kwargs: map<string, string>)
    ensures ParamParts([a, b, c, d], kwargs) ==
              ParamPart(a, kwargs) + ParamPart(b, kwargs) + ParamPart(c, kwargs) + ParamPart(d, kwargs)
  {
    ParamPartsCons([a, b, c, d], kwargs);
    assert [a, b, c, d][1..] == [b, c, d];
    ParamPartsCons([b, c, d], kwargs);
    assert [b, c, d][1..] == [c, d];
    ParamPartsCons([c, d], kwargs);
    assert [c, d][1..] == [d];
    ParamPartsCons([d], kwargs);
    assert [d][1..] == [];
  }

  /** The key is exactly the name when no relevant parameter is given. */
  lemma CacheKeyWithoutParams(name: string, kwargs: map<string, string>)
    requires forall p :: p in RELEVANT_PARAMS ==> p !in kwargs
    ensures CacheKey(name, kwargs) == name
  {
    assert ParamParts(RELEVANT_PARAMS[3..], kwargs) == [];
    assert ParamParts(RELEVANT_PARAMS[2..], kwargs) == [];
    assert ParamParts(RELEVANT_PARAMS[1..], kwargs) == [];
  }

  /** Keyword arguments outside the relevant parameters never change the key. */
  lemma CacheKeyIgnoresOtherKwargs(name: string, kwargs: map<string, string>, p: string, v: string)
    requires p !in RELEVANT_PARAMS
    ensures CacheKey(name, kwargs[p := v]) == CacheKey(name, kwargs)
  {
    ParamPartsIgnore(RELEVANT_PARAMS, kwargs, p, v);
  }

  lemma {:induction false} ParamPartsIgnore(params: seq<string>, kwargs: map<string, string>, p: string, v: string)
    requires p !in params
    ensures ParamParts(params, kwargs[p := v]) == ParamParts(params, kwargs)
  {
    if |params| > 0 {
      ParamPartsIgnore(params[1..], kwargs, p, v);
    }
  }

  /** The parts of a key whose `periods` is given, as the head of the part list. */
  lemma ParamPartsWithPeriods(kwargs: map<string, string>)
    requires "periods" in kwargs
    ensures ParamParts(RELEVANT_PARAMS, kwargs) ==
              ["periods:" + kwargs["periods"]] + ParamParts(RELEVANT_PARAMS[1..], kwargs)
  {
    assert RELEVANT_PARAMS[0] + ":" == "periods:";
  }

  /** Two requests for the same indicator that differ only in `periods` are cached
      under different keys. */
  lemma CacheKeyDistinguishesPeriods(name: string, kwargs: map<string, string>, p1: string, p2: string)
    requires p1 != p2
    ensures CacheKey(name, kwargs["periods" := p1]) != CacheKey(name, kwargs["periods" := p2])
  {
    var k1, k2 := kwargs["periods" := p1], kwargs["periods" := p2];
    ParamPartsWithPeriods(k1);
    ParamPartsWithPeriods(k2);
    var tail := ParamParts(RELEVANT_PARAMS[1..], kwargs);
    ParamPartsIgnore(RELEVANT_PARAMS[1..], kwargs, "periods", p1);
    ParamPartsIgnore(RELEVANT_PARAMS[1..], kwargs, "periods", p2);
    var a := [name] + (["periods:" + p1] + tail);
    var b := [name] + (["periods:" + p2] + tail);
    if "periods:" + p1 == "periods:" + p2 {
      PrefixCancel("periods:", p1, p2);
    }
    assert forall j :: 0 <= j < |a| && j != 1 ==> a[j] == b[j];
    JoinDiffersAt(a, b, "|", 1);
  }

  /** Two different indicators requested with the same parameters are cached under
      different keys. */
  lemma CacheKeyDistinguishesNames(n1: string, n2: string, kwargs: map<string, string>)
    requires n1 != n2
    ensures CacheKey(n1, kwargs) != CacheKey(n2, kwargs)
  {
    var tail := ParamParts(RELEVANT_PARAMS, kwargs);
    if |tail| > 0 {
      assert Join([n1] + tail, "|") == n1 + ("|" + Join(tail, "|")) by {
        assert ([n1] + tail)[1..] == tail;
      }
      assert Join([n2] + tail, "|") == n2 + ("|" + Join(tail, "|")) by {
        assert ([n2] + tail)[1..] == tail;
      }
    }
  }

  /** `kwargs.get(name, default)`. */
  function KwargOr(kwargs: map<string, string>, name: string, default: string): string {
    if name in kwargs then kwargs[name] else default
  }

  /** The fetch that `get_indicator` performs for `name` on a cache miss, or the
      error it reports without fetching: the dedicated fetchers take `periods`
      (default 120, 36 and 365 respectively); every other name goes to the basic
      FRED path, which knows only the indicators of its table. */
  function RequestFor(name: string, kwargs: map<string, string>): (r: Result<Request, string>)
    ensures name == "usd_liquidity" ==> r == Ok(UsdLiquidity(KwargOr(kwargs, "periods", "120"), KwargOr(kwargs, "use_sample_data", "False")))
    ensures name == "pmi" ==> r == Ok(Pmi(KwargOr(kwargs, "periods", "36")))
    ensures name == "copper_gold_ratio" ==> r == Ok(CopperGold(KwargOr(kwargs, "periods", "365")))
    ensures r.Ok? && r.value.FredSeries? <==> name in IndicatorsConfig()
    ensures r.Err? <==> name !in IndicatorsConfig() && name !in {"usd_liquidity", "pmi", "copper_gold_ratio"}
    ensures r.Err? ==> r.error == "Unknown indicator: " + name
  {
    if name == "usd_liquidity" then
      Ok(UsdLiquidity(KwargOr(kwargs, "periods", "120"), KwargOr(kwargs, "use_sample_data", "False")))
    else if name == "pmi" then
      Ok(Pmi(KwargOr(kwargs, "periods", "36")))
    else if name == "copper_gold_ratio" then
      Ok(CopperGold(KwargOr(kwargs, "periods", "365")))
    else if name !in IndicatorsConfig() then
      Err("Unknown indicator: " + name)
    else
      var config := IndicatorsConfig()[name];
      Ok(FredSeries(config.seriesId,
                    KwargOr(kwargs, "periods", NatToString(config.defaultPeriods)),
                    KwargOr(kwargs, "frequency", config.frequency)))
  }

  /** The result of the fetch on a cache miss: a dedicated fetcher's data is a
      success whatever it is; the basic path fails on a missing or empty frame;
      a raised exception becomes its message. */
  function FetchResult<D>(request: Request, reply: Reply<D>): (r: IndicatorResult<D>)
    ensures reply.Raised? ==> r == Failure(reply.message)
    ensures reply.Data? && !request.FredSeries? ==> r == IndicatorResult(true, reply.value, None, false)
    ensures reply.Data? && request.FredSeries? ==>
              if reply.value.None? || reply.empty then r == Failure("No data received")
              else r == IndicatorResult(true, reply.value, None, false)
    ensures !r.cached && (r.success <==> r.error.None?)
  {
    match reply
    case Raised(message) => Failure(message)
    case Data(value, empty) =>
      if request.FredSeries? && (value.None? || empty) then Failure("No data received")
      else IndicatorResult(true, value, None, false)
  }

  /** The time-to-live `get_indicator` writes with: the indicator's `cache_ttl`
      from the table, else the cache's default, which is the setting the manager
      was built with. */
  function CacheTtl(name: string, defaultTtl: int): (ttl: int)
    ensures name in IndicatorsConfig() ==> ttl == IndicatorsConfig()[name].cacheTtl
    ensures name !in IndicatorsConfig() ==> ttl == defaultTtl
  {
    if name in IndicatorsConfig() then IndicatorsConfig()[name].cacheTtl else defaultTtl
  }

  datatype Outcome<D> = Outcome(cache: TwoTierCache.CacheManager<D>, result: IndicatorResult<D>)

  /** `get_indicator`: a cache hit answers from the cache; a miss fetches, and only
      a successful fetch is written back, under the same key. */
  function GetIndicator<D>(c: TwoTierCache.CacheManager<D>, name: string, kwargs: map<string, string>,
                           fetch: Request -> Reply<D>, now: Time): (o: Outcome<D>)
    ensures var key := CacheKey(name, kwargs);
            var read := TwoTierCache.Get(c, key, now);
            && (read.value.Some? ==> o == Outcome(read.manager, IndicatorResult(true, read.value, None, true)))
            && (read.value.None? && !o.result.success ==> o.cache == read.manager)
            && (read.value.None? && o.result.success ==>
                  o.cache == TwoTierCache.Set(read.manager, key, o.result.data, Some(CacheTtl(name, c.defaultTtl)), now))
            && (read.value.None? ==>
                  o.result == match RequestFor(name, kwargs)
                              case Err(message) => Failure(message)
                              case Ok(request) => FetchResult(request, fetch(request)))
    ensures o.result.success <==> o.result.error.None?
    ensures !o.result.success ==> o.result.data.None?
    ensures o.result.cached ==> o.result.success
  {
    var key := CacheKey(name, kwargs);
    var read := TwoTierCache.Get(c, key, now);
    if read.value.Some? then
      Outcome(read.manager, IndicatorResult(true, read.value, None, true))
    else
      var result := match RequestFor(name, kwargs)
        case Err(message) => Failure(message)
        case Ok(request) => FetchResult(request, fetch(request));
      if result.success then
        Outcome(TwoTierCache.Set(read.manager, key, result.data, Some(CacheTtl(name, c.defaultTtl)), now), result)
      else
        Outcome(read.manager, result)
  }

  /** A cache hit never consults the fetcher. */
  lemma HitIgnoresFetcher<D>(c: TwoTierCache.CacheManager<D>, name: string, kwargs: map<string, string>,
                             f1: Request -> Reply<D>, f2: Request -> Reply<D>, now: Time)
    requires TwoTierCache.Get(c, CacheKey(name, kwargs), now).value.Some?
    ensures GetIndicator(c, name, kwargs, f1, now) == GetIndicator(c, name, kwargs, f2, now)
    ensures GetIndicator(c, name, kwargs, f1, now).result.cached
  {
  }

  /** An unknown indicator is reported without fetching and leaves no cache entry. */
  lemma UnknownIndicator<D>(c: TwoTierCache.CacheManager<D>, name: string, kwargs: map<string, string>,
                            fetch: Request -> Reply<D>, now: Time)
    requires name !in IndicatorsConfig() && name !in {"usd_liquidity", "pmi", "copper_gold_ratio"}
    requires TwoTierCache.Get(c, CacheKey(name, kwargs), now).value.None?
    ensures GetIndicator(c, name, kwargs, fetch, now).result == Failure("Unknown indicator: " + name)
    ensures GetIndicator(c, name, kwargs, fetch, now).cache == TwoTierCache.Get(c, CacheKey(name, kwargs), now).manager
  {
  }

  /** A successful fetch of a value is served from the cache by the next call with
      the same arguments, for as long as the indicator's time-to-live. */
  lemma FetchThenHit<D>(c: TwoTierCache.CacheManager<D>, name: string, kwargs: map<string, string>,
                        fetch: Request -> Reply<D>, now: Time, later: Time)
    requires TwoTierCache.Get(c, CacheKey(name, kwargs), now).value.None?
    requires GetIndicator(c, name, kwargs, fetch, now).result.data.Some?
    requires later - now <= CacheTtl(name, c.defaultTtl) as real
    ensures var first := GetIndicator(c, name, kwargs, fetch, now);
            var second := GetIndicator(first.cache, name, kwargs, fetch, later);
            second.result == IndicatorResult(true, first.result.data, None, true)
  {
    var key := CacheKey(name, kwargs);
    var read := TwoTierCache.Get(c, key, now);
    var first := GetIndicator(c, name, kwargs, fetch, now);
    assert first.cache == TwoTierCache.Set(read.manager, key, first.result.data, Some(CacheTtl(name, c.defaultTtl)), now);
    TwoTierCache.SetThenGet(read.manager, key, first.result.data.value, Some(CacheTtl(name, c.defaultTtl)), now, later);
    assert TwoTierCache.Get(first.cache, key, later).value == first.result.data;
  }

  /** The names `get_all_indicators` fetches, in order. */
  const ALL_INDICATORS: seq<string> :=
    ["claims", "pce", "core_cpi", "hours_worked", "pmi", "usd_liquidity", "new_orders", "yield_curve", "copper_gold_ratio"]

  datatype Batch<D> = Batch(cache: TwoTierCache.CacheManager<D>, results: seq<IndicatorResult<D>>)

  /** `step` applied to each name in turn, each call on the state the previous
      one left: the final state and the calls' results, in order. */
  function Thread<S, R>(s: S, names: seq<string>, step: (S, string) -> (S, R)): (r: (S, seq<R>))
    ensures |r.1| == |names|
    decreases |names|
  {
    if |names| == 0 then (s, [])
    else
      var first := step(s, names[0]);
      var rest := Thread(first.0, names[1..], step);
      (rest.0, [first.1] + rest.1)
  }

  /** Threading one more name at the end adds exactly that call, made on the
      state the earlier calls left. */
  lemma {:induction false} ThreadSnoc<S, R>(s: S, names: seq<string>, n: string, step: (S, string) -> (S, R))
    ensures var t := Thread(s, names, step);
            Thread(s, names + [n], step) == (step(t.0, n).0, t.1 + [step(t.0, n).1])
    decreases |names|
  {
    if |names| == 0 {
      var first := step(s, n);
      assert names + [n] == [n] && [n][1..] == [];
      assert Thread(first.0, [n][1..], step) == (first.0, []);
      assert [first.1] + [] == [first.1];
      var r := Thread(s, [n], step);
      assert r == (r.0, r.1);
      var t := Thread(s, names, step);
      assert t.0 == s && t.1 == [];
      assert t.1 + [first.1] == [first.1];
    } else {
      var first := step(s, names[0]);
      var rest := Thread(first.0, names[1..], step);
      assert (names + [n])[0] == names[0];
      assert (names + [n])[1..] == names[1..] + [n];
      ThreadSnoc(first.0, names[1..], n, step);
      var x := step(rest.0, n).1;
      assert [first.1] + (rest.1 + [x]) == ([first.1] + rest.1) + [x];
      var r := Thread(s, names + [n], step);
      assert r == (r.0, r.1);
    }
  }

  /** The first `k` results are those of threading the first `k` names. */
  lemma {:induction false} ThreadPrefix<S, R>(s: S, names: seq<string>, k: nat, step: (S, string) -> (S, R))
    requires k <= |names|
    ensures Thread(s, names, step).1[..k] == Thread(s, names[..k], step).1
    decreases k
  {
    if k > 0 {
      var first := step(s, names[0]);
      var rest := Thread(first.0, names[1..], step);
      var nk := names[..k];
      assert nk[0] == names[0];
      assert nk[1..] == names[1..][..k - 1];
      ThreadPrefix(first.0, names[1..], k - 1, step);
      assert ([first.1] + rest.1)[..k] == [first.1] + rest.1[..k - 1];
    }
  }

  /** The `i`-th result is `step` on the `i`-th name and the state the calls for
      the names before it left. */
  lemma ThreadAt<S, R>(s: S, names: seq<string>, i: nat, step: (S, string) -> (S, R))
    requires i < |names|
    ensures Thread(s, names, step).1[i] == step(Thread(s, names[..i], step).0, names[i]).1
  {
    var all := Thread(s, names, step).1;
    ThreadPrefix(s, names, i + 1, step);
    assert names[..i + 1] == names[..i] + [names[i]];
    ThreadSnoc(s, names[..i], names[i], step);
    assert all[i] == all[..i + 1][i];
  }

  /** One `get_indicator` call with no keyword arguments, as a step of the batch. */
  function Call<D>(fetch: Request -> Reply<D>, now: Time)
    : (TwoTierCache.CacheManager<D>, string) -> (TwoTierCache.CacheManager<D>, IndicatorResult<D>)
  {
    (c: TwoTierCache.CacheManager<D>, n: string) =>
      var o := GetIndicator(c, n, map[], fetch, now);
      (o.cache, o.result)
  }

  /** The calls of `get_all_indicators`, one per name with no keyword arguments,
      taken one after the other so that each sees the cache the previous left. */
  function FetchAll<D>(c: TwoTierCache.CacheManager<D>, names: seq<string>, fetch: Request -> Reply<D>, now: Time): (b: Batch<D>)
    ensures |b.results| == |names|
  {
    var t := Thread(c, names, Call(fetch, now));
    Batch(t.0, t.1)
  }

  /** The `i`-th result of the batch is what `get_indicator(names[i])` answers on
      the cache that the calls for the names before it left. */
  lemma FetchAllInOrder<D>(c: TwoTierCache.CacheManager<D>, names: seq<string>, fetch: Request -> Reply<D>, now: Time)
    ensures forall i :: 0 <= i < |names| ==>
              FetchAll(c, names, fetch, now).results[i] ==
                GetIndicator(FetchAll(c, names[..i], fetch, now).cache, names[i], map[], fetch, now).result
  {
    forall i | 0 <= i < |names|
      ensures FetchAll(c, names, fetch, now).results[i] ==
                GetIndicator(FetchAll(c, names[..i], fetch, now).cache, names[i], map[], fetch, now).result
    {
      ThreadAt(c, names, i, Call(fetch, now));
    }
  }

  /** One call keeps the memory tier's invariant, its bound when it has a slot,
      and the cache's settings. */
  lemma GetIndicatorPreservesInvariant<D>(c: TwoTierCache.CacheManager<D>, name: string, kwargs: map<string, string>,
                                          fetch: Request -> Reply<D>, now: Time)
    requires TwoTierCache.Valid(c)
    ensures var r := GetIndicator(c, name, kwargs, fetch, now).cache;
            && TwoTierCache.Valid(r)
            && (c.memory.maxSize >= 1 && MemoryTier.Bounded(c.memory) ==> MemoryTier.Bounded(r.memory))
            && r.defaultTtl == c.defaultTtl && r.memory.maxSize == c.memory.maxSize
  {
    var key := CacheKey(name, kwargs);
    var read := TwoTierCache.Get(c, key, now);
    TwoTierCache.GetPreservesInvariant(c, key, now);
    var o := GetIndicator(c, name, kwargs, fetch, now);
    if read.value.None? && o.result.success {
      TwoTierCache.SetPreservesInvariant(read.manager, key, o.result.data, Some(CacheTtl(name, c.defaultTtl)), now);
    }
  }

  /** The whole batch keeps the memory tier's invariant, its bound when it has a
      slot, and the cache's settings. */
  lemma FetchAllPreservesInvariant<D>(c: TwoTierCache.CacheManager<D>, names: seq<string>,
                                      fetch: Request -> Reply<D>, now: Time)
    requires TwoTierCache.Valid(c)
    ensures var r := FetchAll(c, names, fetch, now).cache;
            && TwoTierCache.Valid(r)
            && (c.memory.maxSize >= 1 && MemoryTier.Bounded(c.memory) ==> MemoryTier.Bounded(r.memory))
            && r.defaultTtl == c.defaultTtl && r.memory.maxSize == c.memory.maxSize
  {
    ThreadPreservesInvariant(c, names, fetch, now);
  }

  lemma {:induction false} ThreadPreservesInvariant<D>(c: TwoTierCache.CacheManager<D>, names: seq<string>,
                                                      fetch: Request -> Reply<D>, now: Time)
    requires TwoTierCache.Valid(c)
    ensures var r := Thread(c, names, Call(fetch, now)).0;
            && TwoTierCache.Valid(r)
            && (c.memory.maxSize >= 1 && MemoryTier.Bounded(c.memory) ==> MemoryTier.Bounded(r.memory))
            && r.defaultTtl == c.defaultTtl && r.memory.maxSize == c.memory.maxSize
    decreases |names|
  {
    if |names| > 0 {
      var first := Call(fetch, now)(c, names[0]);
      GetIndicatorPreservesInvariant(c, names[0], map[], fetch, now);
      ThreadPreservesInvariant(first.0, names[1..], fetch, now);
    }
  }

  /** The combined result of the batch. */
  datatype Combined<D> = Combined(success: bool, data: map<string, Option<D>>, error: Option<string>)

  /** The error line of one failed indicator. */
  function ErrorLine<D>(name: string, r: IndicatorResult<D>): string {
    name + ": " + r.error.GetOr("None")
  }

  /** The error lines of the failed indicators, in batch order. */
  function ErrorLines<D>(names: seq<string>, results: seq<IndicatorResult<D>>): (errors: seq<string>)
    requires |names| == |results|
    ensures |errors| <= |names|
  {
    if |names| == 0 then []
    else
      var rest := ErrorLines(names[1..], results[1..]);
      if results[0].success then rest else [ErrorLine(names[0], results[0])] + rest
  }

  /** The data of the successful indicators, by name. */
  function SuccessData<D>(names: seq<string>, results: seq<IndicatorResult<D>>): map<string, Option<D>>
    requires |names| == |results|
  {
    if |names| == 0 then map[]
    else
      var rest := SuccessData(names[1..], results[1..]);
      if results[0].success then rest[names[0] := results[0].data] else rest
  }

  /** The aggregation of `get_all_indicators`: success iff nothing failed, and
      otherwise the error lines joined by `"; "`. */
  function Combine<D>(names: seq<string>, results: seq<IndicatorResult<D>>): (r: Combined<D>)
    requires |names| == |results|
    ensures r.success <==> forall i :: 0 <= i < |results| ==> results[i].success
    ensures r.success ==> r.error == None
    ensures !r.success ==> r.error == Some(Join(ErrorLines(names, results), "; "))
    ensures r.data == SuccessData(names, results)
  {
    CombineErrors(names, results);
    var errors := ErrorLines(names, results);
    Combined(|errors| == 0, SuccessData(names, results), if |errors| == 0 then None else Some(Join(errors, "; ")))
  }

  /** `get_all_indicators`: the batch of every dashboard indicator, combined. */
  function GetAllIndicators<D>(c: TwoTierCache.CacheManager<D>, fetch: Request -> Reply<D>, now: Time)
    : (r: (TwoTierCache.CacheManager<D>, Combined<D>))
    ensures var b := FetchAll(c, ALL_INDICATORS, fetch, now);
            && r.0 == b.cache
            && r.1 == Combine(ALL_INDICATORS, b.results)
            && (r.1.success <==> forall i :: 0 <= i < |ALL_INDICATORS| ==> b.results[i].success)
            && (forall i :: 0 <= i < |ALL_INDICATORS| ==>
                  && (ALL_INDICATORS[i] in r.1.data <==> b.results[i].success)
                  && (b.results[i].success ==> r.1.data[ALL_INDICATORS[i]] == b.results[i].data))
    ensures TwoTierCache.Valid(c) ==> TwoTierCache.Valid(r.0)
  {
    var b := FetchAll(c, ALL_INDICATORS, fetch, now);
    AllIndicatorsDistinct();
    CombineData(ALL_INDICATORS, b.results);
    assert TwoTierCache.Valid(c) ==> TwoTierCache.Valid(b.cache) by {
      if TwoTierCache.Valid(c) {
        FetchAllPreservesInvariant(c, ALL_INDICATORS, fetch, now);
      }
    }
    (b.cache, Combine(ALL_INDICATORS, b.results))
  }

  /** The number of failed results. */
  function Failures<D>(results: seq<IndicatorResult<D>>): nat {
    if |results| == 0 then 0 else (if results[0].success then 0 else 1) + Failures(results[1..])
  }

  /** One error line per failed indicator, each naming it; the batch succeeds iff no
      indicator failed, and the error is absent exactly then. */
  lemma {:induction false} CombineErrors<D>(names: seq<string>, results: seq<IndicatorResult<D>>)
    requires |names| == |results|
    ensures |ErrorLines(names, results)| == Failures(results)
    ensures |ErrorLines(names, results)| == 0 <==> forall i :: 0 <= i < |results| ==> results[i].success
    ensures forall e :: e in ErrorLines(names, results) <==>
              exists i :: 0 <= i < |names| && !results[i].success && e == ErrorLine(names[i], results[i])
  {
    if |names| > 0 {
      CombineErrors(names[1..], results[1..]);
      var rest := ErrorLines(names[1..], results[1..]);
      forall e | e in ErrorLines(names, results)
        ensures exists i :: 0 <= i < |names| && !results[i].success && e == ErrorLine(names[i], results[i])
      {
        if e in rest {
          var i :| 0 <= i < |names| - 1 && !results[1..][i].success && e == ErrorLine(names[1..][i], results[1..][i]);
          assert !results[i + 1].success && e == ErrorLine(names[i + 1], results[i + 1]);
        } else {
          assert !results[0].success && e == ErrorLine(names[0], results[0]);
        }
      }
      forall e | exists i :: 0 <= i < |names| && !results[i].success && e == ErrorLine(names[i], results[i])
        ensures e in ErrorLines(names, results)
      {
        var i :| 0 <= i < |names| && !results[i].success && e == ErrorLine(names[i], results[i]);
        if i > 0 {
          assert names[1..][i - 1] == names[i] && results[1..][i - 1] == results[i];
        }
      }
      if !results[0].success {
        assert |ErrorLines(names, results)| > 0;
      } else if |ErrorLines(names, results)| == 0 {
        forall i | 0 <= i < |results| ensures results[i].success {
          if i > 0 {
            assert results[1..][i - 1] == results[i];
          }
        }
      } else {
        assert |rest| > 0;
        var i :| 0 <= i < |results| - 1 && !results[1..][i].success;
        assert !results[i + 1].success;
      }
    }
  }

  /** With distinct names, `data` holds exactly the successful indicators, each
      with its own data. */
  lemma {:induction false} CombineData<D>(names: seq<string>, results: seq<IndicatorResult<D>>)
    requires |names| == |results|
    requires forall i, j :: 0 <= i < j < |names| ==> names[i] != names[j]
    ensures forall i :: 0 <= i < |names| ==>
              (names[i] in SuccessData(names, results) <==> results[i].success)
    ensures forall i :: 0 <= i < |names| && results[i].success ==> SuccessData(names, results)[names[i]] == results[i].data
    ensures forall n :: n in SuccessData(names, results) ==> n in names
  {
    if |names| > 0 {
      CombineData(names[1..], results[1..]);
      var rest := SuccessData(names[1..], results[1..]);
      assert names[0] !in rest;
      forall i | 0 <= i < |names|
        ensures names[i] in SuccessData(names, results) <==> results[i].success
        ensures results[i].success ==> SuccessData(names, results)[names[i]] == results[i].data
      {
        if i > 0 {
          assert names[1..][i - 1] == names[i] && results[1..][i - 1] == results[i];
          assert names[i] != names[0];
        }
      }
    }
  }

  /** The batch's names are distinct, so its data map has one entry per success. */
  lemma AllIndicatorsDistinct()
    ensures forall i, j :: 0 <= i < j < |ALL_INDICATORS| ==> ALL_INDICATORS[i] != ALL_INDICATORS[j]
  {
  }

  /** `invalidate_indicator_cache`: a non-empty name invalidates every memory key
      containing it and returns the count; no name (or an empty one) clears both
      tiers and returns -1. */
  method InvalidateIndicatorCache<D>(c: TwoTierCache.CacheManager<D>, name: Option<string>)
    returns (r: TwoTierCache.CacheManager<D>, count: int)
    ensures name.Some? && name.value != "" ==>
              && count == |TwoTierCache.Matching(c, name.value) * c.disk.Keys|
              && r.memory.entries == c.memory.entries - TwoTierCache.Matching(c, name.value)
              && r.disk == c.disk - TwoTierCache.Matching(c, name.value)
    ensures name.None? || name.value == "" ==> count == -1 && |r.memory.entries| == 0 && |r.disk| == 0
    ensures count >= -1
  {
    if name.Some? && name.value != "" {
      var n;
      r, n := TwoTierCache.InvalidatePattern(c, name.value);
      count := n;
    } else {
      r := TwoTierCache.ClearAll(c);
      count := -1;
    }
  }
}

=== FILE: memory_cache.dfy ===
/** The bounded in-memory tier (`MemoryCache` in src/core/caching/cache_manager.py):
    a map from key to entry plus `accessOrder`, the keys from least to most
    recently used, which drives eviction. */
module MemoryTier {
  import opened Wrappers
  import opened CacheEntries

  type Key = string

  datatype MemoryCache<V> = MemoryCache(
    maxSize: int,
    entries: map<Key, CacheEntry<V>>,
    accessOrder: seq<Key>)

  /** The result of a read: the tier after the read and the value read. */
  datatype MemRead<V> = MemRead(cache: MemoryCache<V>, value: Option<V>)

  datatype MemoryStats = MemoryStats(
    totalEntries: nat,
    expiredEntries: nat,
    activeEntries: int,
    maxSize: int,
    utilization: real)

  predicate NoDuplicates<T(==)>(s: seq<T>) {
    forall i, j :: 0 <= i < j < |s| ==> s[i] != s[j]
  }

  /** The representation invariant: `accessOrder` lists exactly the cached keys,
      each of them once. */
  predicate Valid<V>(m: MemoryCache<V>) {
    && NoDuplicates(m.accessOrder)
    && (forall k | k in m.accessOrder :: k in m.entries)
    && (forall k | k in m.entries :: k in m.accessOrder)
  }

  /** The size bound the tier promises once it has at least one slot. */
  predicate Bounded<V>(m: MemoryCache<V>) {
    |m.entries| <= m.maxSize
  }

  function Last(s: seq<Key>): Key
    requires |s| > 0
  {
    s[|s| - 1]
  }

  function Empty<V>(maxSize: int): (m: MemoryCache<V>)
    ensures Valid(m) && |m.entries| == 0
    ensures maxSize >= 0 ==> Bounded(m)
  {
    MemoryCache(maxSize, map[], [])
  }

  /** Python's `list.remove(x)` guarded by `x in list`: drops the first occurrence. */
  function RemoveFirst(s: seq<Key>, x: Key): (r: seq<Key>)
    ensures x !in s ==> r == s
    ensures x in s ==> |r| == |s| - 1
    ensures forall y :: y in r ==> y in s
    ensures forall y :: y in s && y != x ==> y in r
    ensures NoDuplicates(s) ==> NoDuplicates(r) && x !in r
  {
    if |s| == 0 then []
    else if s[0] == x then s[1..]
    else
      var rest := RemoveFirst(s[1..], x);
      assert NoDuplicates(s) ==> s[0] !in s[1..] && NoDuplicates(s[1..]);
      ConsNoDuplicates(s[0], rest);
      [s[0]] + rest
  }

  lemma ConsNoDuplicates(h: Key, t: seq<Key>)
    ensures h !in t && NoDuplicates(t) ==> NoDuplicates([h] + t)
  {
  }

  /** `s` with every element of `ks` filtered out, order kept. */
  function Without(s: seq<Key>, ks: set<Key>): (r: seq<Key>)
    ensures forall y :: y in r <==> y in s && y !in ks
    ensures NoDuplicates(s) ==> NoDuplicates(r)
  {
    if |s| == 0 then []
    else (if s[0] in ks then [] else [s[0]]) + Without(s[1..], ks)
  }

  lemma {:induction false} RemoveFirstIsWithout(s: seq<Key>, x: Key)
    requires NoDuplicates(s)
    ensures RemoveFirst(s, x) == Without(s, {x})
  {
    if |s| > 0 {
      if s[0] == x {
        WithoutAbsent(s[1..], {x});
      } else {
        RemoveFirstIsWithout(s[1..], x);
      }
    }
  }

  lemma {:induction false} WithoutAbsent(s: seq<Key>, ks: set<Key>)
    requires forall y :: y in s ==> y !in ks
    ensures Without(s, ks) == s
  {
    if |s| > 0 {
      WithoutAbsent(s[1..], ks);
      assert s == [s[0]] + s[1..];
    }
  }

  lemma {:induction false} WithoutWithout(s: seq<Key>, a: set<Key>, b: set<Key>)
    ensures Without(Without(s, a), b) == Without(s, a + b)
  {
    if |s| > 0 {
      WithoutWithout(s[1..], a, b);
      var head := if s[0] in a then [] else [s[0]];
      WithoutAppend(head, Without(s[1..], a), b);
    }
  }

  lemma {:induction false} WithoutAppend(s: seq<Key>, t: seq<Key>, ks: set<Key>)
    ensures Without(s + t, ks) == Without(s, ks) + Without(t, ks)
  {
    if |s| > 0 {
      assert (s + t)[1..] == s[1..] + t;
      WithoutAppend(s[1..], t, ks);
    } else {
      assert s + t == t;
    }
  }

  /** Read `key` at time `now`: an expired entry is dropped from both the map and
      the access order; a live hit is recorded and moves `key` to the most
      recently used end. */
  function Get<V>(m: MemoryCache<V>, key: Key, now: Time): (r: MemRead<V>)
    ensures key !in m.entries ==> r == MemRead(m, None)
    ensures key in m.entries && m.entries[key].IsExpired(now) ==>
              && r.value == None
              && r.cache.entries == m.entries - {key}
              && r.cache.accessOrder == RemoveFirst(m.accessOrder, key)
              && (Valid(m) ==> key !in r.cache.accessOrder)
              && (Valid(m) ==> r.cache.accessOrder == Without(m.accessOrder, {key}))
    ensures key in m.entries && !m.entries[key].IsExpired(now) ==>
              && r.value == m.entries[key].data
              && r.cache.entries.Keys == m.entries.Keys
              && r.cache.entries[key] == m.entries[key].Access(now)
              && r.cache.entries[key].accessCount == m.entries[key].accessCount + 1
              && r.cache.accessOrder == RemoveFirst(m.accessOrder, key) + [key]
              && |r.cache.accessOrder| > 0
              && r.cache.accessOrder[|r.cache.accessOrder| - 1] == key
              && (Valid(m) ==> Without(r.cache.accessOrder, {key}) == Without(m.accessOrder, {key}))
    ensures r.value.Some? ==> key in m.entries && !m.entries[key].IsExpired(now)
    ensures r.cache.maxSize == m.maxSize
    ensures |r.cache.entries| <= |m.entries|
    ensures forall k :: k in r.cache.entries && k != key ==> k in m.entries && r.cache.entries[k] == m.entries[k]
    ensures forall k :: k in m.entries && k != key ==> k in r.cache.entries
    ensures Valid(m) ==> Valid(r.cache)
  {
    if key !in m.entries then MemRead(m, None)
    else
      var entry := m.entries[key];
      if entry.IsExpired(now) then
        assert Valid(m) ==> RemoveFirst(m.accessOrder, key) == Without(m.accessOrder, {key}) by {
          if Valid(m) { RemoveFirstIsWithout(m.accessOrder, key); }
        }
        MemRead(m.(entries := m.entries - {key}, accessOrder := RemoveFirst(m.accessOrder, key)), None)
      else
        var touched := entry.Access(now);
        var order := RemoveFirst(m.accessOrder, key) + [key];
        LastMovedKeepsOthers(m.accessOrder, key);
        MemRead(m.(entries := m.entries[key := touched], accessOrder := order), touched.data)
  }

  lemma LastMovedKeepsOthers(s: seq<Key>, x: Key)
    ensures NoDuplicates(s) ==> Without(RemoveFirst(s, x) + [x], {x}) == Without(s, {x})
  {
    if NoDuplicates(s) {
      RemoveFirstIsWithout(s, x);
      WithoutAppend(RemoveFirst(s, x), [x], {x});
      WithoutAbsent(RemoveFirst(s, x), {x});
      assert Without([x], {x}) == [] by {
        assert [x][1..] == [];
      }
    }
  }

  /** Drop the least recently used key, the head of the access order. */
  function EvictLru<V>(m: MemoryCache<V>): (r: MemoryCache<V>)
    ensures |m.accessOrder| == 0 ==> r == m
    ensures |m.accessOrder| > 0 ==>
              && r.entries == m.entries - {m.accessOrder[0]}
              && r.accessOrder == m.accessOrder[1..]
    ensures Valid(m) && |m.entries| > 0 ==> |r.entries| == |m.entries| - 1
    ensures r.maxSize == m.maxSize
    ensures Valid(m) ==> Valid(r)
  {
    if |m.accessOrder| == 0 then m
    else
      var lru := m.accessOrder[0];
      m.(entries := m.entries - {lru}, accessOrder := m.accessOrder[1..])
  }

  /** Write `value` under `key`. Only a new key entering a full tier evicts; an
      existing key is overwritten in place and keeps its place in the access order. */
  function Set<V>(m: MemoryCache<V>, key: Key, value: Option<V>, ttl: int, now: Time): (r: MemoryCache<V>)
    ensures key in r.entries && r.entries[key] == NewEntry(value, now, ttl)
    ensures r.maxSize == m.maxSize
    ensures key in m.entries || |m.entries| < m.maxSize ==> r.entries.Keys == m.entries.Keys + {key}
    ensures forall k :: k in r.entries && k != key ==> k in m.entries && r.entries[k] == m.entries[k]
  {
    var evicted := if |m.entries| >= m.maxSize && key !in m.entries then EvictLru(m) else m;
    var stored := evicted.(entries := evicted.entries[key := NewEntry(value, now, ttl)]);
    if key in stored.accessOrder then stored
    else stored.(accessOrder := stored.accessOrder + [key])
  }

  /** Eviction happens only when a new key enters a full tier, and then it is the
      head of the access order that goes; the new key becomes most recently used. */
  lemma SetEvictsHead<V>(m: MemoryCache<V>, key: Key, value: Option<V>, ttl: int, now: Time)
    requires Valid(m) && key !in m.entries && |m.entries| >= m.maxSize && |m.entries| > 0
    ensures Set(m, key, value, ttl, now).entries.Keys == m.entries.Keys - {m.accessOrder[0]} + {key}
    ensures Set(m, key, value, ttl, now).accessOrder == m.accessOrder[1..] + [key]
  {
  }

  /** Re-writing a cached key neither evicts nor moves it in the access order. */
  lemma SetExistingKeepsOrder<V>(m: MemoryCache<V>, key: Key, value: Option<V>, ttl: int, now: Time)
    requires Valid(m) && key in m.entries
    ensures Set(m, key, value, ttl, now).accessOrder == m.accessOrder
    ensures Set(m, key, value, ttl, now).entries.Keys == m.entries.Keys
  {
  }

  /** A write keeps the representation invariant and, with at least one slot,
      the size bound; a new key ends up most recently used. */
  lemma SetPreservesInvariant<V>(m: MemoryCache<V>, key: Key, value: Option<V>, ttl: int, now: Time)
    requires Valid(m)
    ensures Valid(Set(m, key, value, ttl, now))
    ensures m.maxSize >= 1 && Bounded(m) ==> Bounded(Set(m, key, value, ttl, now))
    ensures key !in m.entries ==> Last(Set(m, key, value, ttl, now).accessOrder) == key
  {
    var e := NewEntry(value, now, ttl);
    if key in m.entries {
      assert Set(m, key, value, ttl, now) == m.(entries := m.entries[key := e]);
      assert m.entries[key := e].Keys == m.entries.Keys;
    } else if |m.entries| < m.maxSize {
      assert Set(m, key, value, ttl, now) == AddFresh(m, key, e);
      AddFreshValid(m, key, e);
    } else {
      var evicted := EvictLru(m);
      assert Set(m, key, value, ttl, now) == AddFresh(evicted, key, e);
      AddFreshValid(evicted, key, e);
    }
  }

  /** A key not yet cached, stored and appended to the access order. */
  function AddFresh<V>(m: MemoryCache<V>, key: Key, e: CacheEntry<V>): MemoryCache<V>
  {
    m.(entries := m.entries[key := e], accessOrder := m.accessOrder + [key])
  }

  lemma AddFreshValid<V>(m: MemoryCache<V>, key: Key, e: CacheEntry<V>)
    requires Valid(m) && key !in m.entries
    ensures Valid(AddFresh(m, key, e))
    ensures |AddFresh(m, key, e).entries| == |m.entries| + 1
    ensures Last(AddFresh(m, key, e).accessOrder) == key
  {
    var order := m.accessOrder + [key];
    assert key !in m.accessOrder;
    forall i, j | 0 <= i < j < |order| ensures order[i] != order[j] {
      if j == |order| - 1 {
        assert order[i] == m.accessOrder[i];
      } else {
        assert order[i] == m.accessOrder[i] && order[j] == m.accessOrder[j];
      }
    }
  }

  function Clear<V>(m: MemoryCache<V>): (r: MemoryCache<V>)
    ensures |r.entries| == 0 && |r.accessOrder| == 0
    ensures r.maxSize == m.maxSize
    ensures Valid(r)
  {
    m.(entries := map[], accessOrder := [])
  }

  /** Drops `key` from the map and the access order (the memory half of
      `CacheManager.invalidate`). */
  function Remove<V>(m: MemoryCache<V>, key: Key): (r: MemoryCache<V>)
    ensures key !in r.entries
    ensures r.entries == m.entries - {key}
    ensures Valid(m) ==> key !in r.accessOrder && r.accessOrder == Without(m.accessOrder, {key})
    ensures r.maxSize == m.maxSize
    ensures Valid(m) ==> Valid(r)
  {
    RemoveOrder(m, key);
    if key in m.entries then
      m.(entries := m.entries - {key}, accessOrder := RemoveFirst(m.accessOrder, key))
    else
      m
  }

  lemma RemoveOrder<V>(m: MemoryCache<V>, key: Key)
    ensures Valid(m) && key in m.entries ==> RemoveFirst(m.accessOrder, key) == Without(m.accessOrder, {key})
    ensures Valid(m) && key !in m.entries ==> m.accessOrder == Without(m.accessOrder, {key})
  {
    if Valid(m) {
      if key in m.entries {
        RemoveFirstIsWithout(m.accessOrder, key);
      } else {
        WithoutAbsent(m.accessOrder, {key});
      }
    }
  }

  function ExpiredKeys<V>(m: MemoryCache<V>, now: Time): set<Key> {
    set k | k in m.entries && m.entries[k].IsExpired(now)
  }

  function LiveKeys<V>(m: MemoryCache<V>, now: Time): set<Key> {
    set k | k in m.entries && !m.entries[k].IsExpired(now)
  }

  /** `stats()`: counts of all, expired and still-live entries at time `now`. */
  function Stats<V>(m: MemoryCache<V>, now: Time): (r: MemoryStats)
    ensures r.totalEntries == |m.entries|
    ensures r.expiredEntries == |ExpiredKeys(m, now)|
    ensures r.activeEntries == |LiveKeys(m, now)|
    ensures r.expiredEntries + r.activeEntries == r.totalEntries
    ensures r.maxSize == m.maxSize
    ensures m.maxSize > 0 ==> r.utilization * m.maxSize as real == |m.entries| as real
    ensures m.maxSize <= 0 ==> r.utilization == 0.0
  {
    var expired := |ExpiredKeys(m, now)|;
    LiveExpiredPartition(m, now);
    MemoryStats(
      |m.entries|,
      expired,
      |m.entries| - expired,
      m.maxSize,
      if m.maxSize > 0 then |m.entries| as real / m.maxSize as real else 0.0)
  }

  lemma LiveExpiredPartition<V>(m: MemoryCache<V>, now: Time)
    ensures |LiveKeys(m, now)| + |ExpiredKeys(m, now)| == |m.entries|
  {
    assert LiveKeys(m, now) + ExpiredKeys(m, now) == m.entries.Keys;
    assert LiveKeys(m, now) * ExpiredKeys(m, now) == {};
  }

  /** After a write, the written value reads back until its time-to-live lapses. */
  lemma SetThenGet<V>(m: MemoryCache<V>, key: Key, value: Option<V>, ttl: int, now: Time, later: Time)
    requires later - now <= ttl as real
    ensures Get(Set(m, key, value, ttl, now), key, later).value == value
  {
  }
}

=== FILE: pce_fix.dfy ===
/** The standalone PCE release fix (data/pce_fix.py): the last business day of
    next month, with the 29 April 2025 override, and the "released tomorrow"
    test. The current moment is a parameter. */
module PceFix {
  import opened Wrappers
  import opened Calendar
  import opened ReleaseSchedule

  /** The month lengths as the fix spells them out, December first. */
  function MonthLength(y: int, m: int): (n: int)
    requires 1 <= m <= 12
  {
    if m == 12 then 31
    else if m == 4 || m == 6 || m == 9 || m == 11 then 30
    else if m == 2 then (if (y % 4 == 0 && y % 100 != 0) || y % 400 == 0 then 29 else 28)
    else 31
  }

  /** The spelled-out month lengths are the calendar's. */
  lemma MonthLengthIsCalendar(y: int, m: int)
    requires 1 <= m <= 12
    ensures MonthLength(y, m) == DaysInMonth(y, m)
  {
  }

  /** `get_corrected_pce_release_date`: midnight of the last business day of the
      month after `today`, except on 29 April 2025. */
  function CorrectedReleaseDate(today: DateTime): (r: DateTime)
    requires ValidDateTime(today)
    ensures ValidDateTime(r) && r.micros == 0
  {
    if today.date == PCE_OVERRIDE_DAY then PCE_OVERRIDE_RELEASE
    else
      var first := if today.date.month == 12 then Date(today.date.year + 1, 1, 1)
                   else Date(today.date.year, today.date.month + 1, 1);
      MonthLengthIsCalendar(first.year, first.month);
      var last := Date(first.year, first.month, MonthLength(first.year, first.month));
      DateTime(RollBackToBusinessDay(last), 0)
  }

  /** `is_pce_release_tomorrow`: whether the corrected release date is exactly one
      calendar day after today's date. */
  function IsReleaseTomorrow(today: DateTime): (r: bool)
    requires ValidDateTime(today)
    ensures r <==> DaysUntil(CorrectedReleaseDate(today), today) == 1
  {
    Ordinal(CorrectedReleaseDate(today).date) - Ordinal(today.date) == 1
  }

  /** Outside the override day the corrected date is the last business day of
      next month: a Monday to Friday with only Saturdays and Sundays after it. */
  lemma CorrectedIsLastBusinessDayOfNextMonth(today: DateTime)
    requires ValidDateTime(today) && today.date != PCE_OVERRIDE_DAY
    ensures var r := CorrectedReleaseDate(today).date;
            var next := MonthsAhead(today.date, 1);
            && r.year == next.year && r.month == next.month
            && IsBusinessDay(r)
            && r.day >= DaysInMonth(r.year, r.month) - 2
            && forall k | r.day < k <= DaysInMonth(r.year, r.month) :: Weekday(Date(r.year, r.month, k)) > 4
  {
    var first := FirstOfFollowingMonth(today.date.year, today.date.month);
    FollowingMonthIsOneAhead(today.date);
    MonthLengthIsCalendar(first.year, first.month);
    assert CorrectedReleaseDate(today).date == RollBackToBusinessDay(LastOfMonth(first.year, first.month));
    LastBusinessDayOfMonth(first.year, first.month);
  }

  /** The corrected date lies at least 26 days after today, except on the
      override day, when it is the next day. */
  lemma CorrectedIsWeeksAhead(today: DateTime)
    requires ValidDateTime(today) && today.date != PCE_OVERRIDE_DAY
    ensures DaysUntil(CorrectedReleaseDate(today), today) >= 26
  {
    CorrectedIsLastBusinessDayOfNextMonth(today);
    var r := CorrectedReleaseDate(today).date;
    var first := FirstOfFollowingMonth(today.date.year, today.date.month);
    FollowingMonthIsOneAhead(today.date);
    FollowingMonthIsLater(today.date);
    SameMonthOrdinal(first, r);
  }

  /** So the "released tomorrow" test holds on 29 April 2025 and on no other day. */
  lemma ReleaseTomorrowOnlyOnOverrideDay(today: DateTime)
    requires ValidDateTime(today)
    ensures IsReleaseTomorrow(today) <==> today.date == PCE_OVERRIDE_DAY
  {
    if today.date == PCE_OVERRIDE_DAY {
      NextDayOrdinal(today.date);
    } else {
      CorrectedIsWeeksAhead(today);
    }
  }

  /** The two PCE estimates agree on the override day and nowhere else: the
      schedule's falls two months ahead, the fix's one month ahead. */
  lemma EstimatesDisagreeOffOverride(today: DateTime)
    requires ValidDateTime(today)
    ensures today.date == PCE_OVERRIDE_DAY ==>
              NextReleaseDate("pce", today) == Some(CorrectedReleaseDate(today))
    ensures today.date != PCE_OVERRIDE_DAY ==>
              NextReleaseDate("pce", today).value.date.month != CorrectedReleaseDate(today).date.month
  {
    if today.date != PCE_OVERRIDE_DAY {
      PceLastBusinessDay(today);
      CorrectedIsLastBusinessDayOfNextMonth(today);
      NextTwoMonthsDiffer(today.date);
    }
  }
}

=== FILE: performance_monitor.dfy ===
/** The performance monitor (`PerformanceMonitor` in
    src/services/performance_monitor.py): a bounded log of operation snapshots,
    per-operation timing and size histories capped at 100, and per-operation cache
    hit and miss counters, with the reports computed from them.

    Clock readings, CPU and memory readings are parameters; durations are exact
    reals; `round(x, 2)` on the reported figures is left out. */
module PerformanceMonitor {
  import opened Wrappers

  /** How many timings per operation are kept. */
  const HISTORY: nat := 100
  /** The default bound of the snapshot log. */
  const MAX_SNAPSHOTS: nat := 1000

  datatype Snapshot = Snapshot(
    timestamp: real,
    cpuPercent: real,
    memoryMb: real,
    executionTime: real,
    operationName: string,
    dataSize: int,
    cacheHit: bool)

  datatype Monitor = Monitor(
    maxSnapshots: nat,
    snapshots: seq<Snapshot>,
    operationTimes: map<string, seq<real>>,
    operationDataSizes: map<string, seq<int>>,
    cacheHits: map<string, nat>,
    cacheMisses: map<string, nat>,
    baselineMemory: real)

  function New(maxSnapshots: nat, baselineMemory: real): (m: Monitor)
    ensures Valid(m) && |m.snapshots| == 0
  {
    Monitor(maxSnapshots, [], map[], map[], map[], map[], baselineMemory)
  }

  /** A `defaultdict(int)` read. */
  function Count(counters: map<string, nat>, op: string): nat {
    if op in counters then counters[op] else 0
  }

  /** The last `n` elements of `s`, or all of them when there are fewer: a
      `deque(maxlen=n)` after appends, and Python's `s[-n:]` for `n >= 1`. */
  function LastAtMost<T>(s: seq<T>, n: nat): (r: seq<T>)
    ensures |r| == if |s| <= n then |s| else n
    ensures r == s[|s| - |r|..]
  {
    if |s| <= n then s else s[|s| - n..]
  }

  /** The bookkeeping invariant: the snapshot log respects its bound; every tracked
      operation has as many sizes as timings, between 1 and 100 of them, and at
      least as many counted cache events as retained timings. */
  predicate Valid(m: Monitor) {
    && |m.snapshots| <= m.maxSnapshots
    && m.operationTimes.Keys == m.operationDataSizes.Keys
    && (forall op | op in m.operationTimes ::
          && 1 <= |m.operationTimes[op]| <= HISTORY
          && |m.operationDataSizes[op]| == |m.operationTimes[op]|
          && Count(m.cacheHits, op) + Count(m.cacheMisses, op) >= |m.operationTimes[op]|)
  }

  function Increment(counters: map<string, nat>, op: string): (r: map<string, nat>)
    ensures Count(r, op) == Count(counters, op) + 1
    ensures forall o :: o != op ==> Count(r, o) == Count(counters, o)
    ensures r.Keys == counters.Keys + {op}
  {
    counters[op := Count(counters, op) + 1]
  }

  function History<T>(histories: map<string, seq<T>>, op: string): seq<T> {
    if op in histories then histories[op] else []
  }

  /** `end_operation`: logs one snapshot, appends the duration and the data size to
      the operation's histories (keeping the last 100) and counts one cache hit or
      one cache miss. */
  function EndOperation(m: Monitor, op: string, startTime: real, endTime: real, dataSize: int, cacheHit: bool,
                        cpuPercent: real, memoryMb: real): (r: (Monitor, Snapshot))
    ensures r.1 == Snapshot(endTime, cpuPercent, memoryMb, endTime - startTime, op, dataSize, cacheHit)
    ensures r.0.snapshots == LastAtMost(m.snapshots + [r.1], m.maxSnapshots)
    ensures r.0.operationTimes == m.operationTimes[op := LastAtMost(History(m.operationTimes, op) + [endTime - startTime], HISTORY)]
    ensures |History(m.operationDataSizes, op)| == |History(m.operationTimes, op)| ==>
              r.0.operationDataSizes == m.operationDataSizes[op := LastAtMost(History(m.operationDataSizes, op) + [dataSize], HISTORY)]
    ensures cacheHit ==> r.0.cacheHits == Increment(m.cacheHits, op) && r.0.cacheMisses == m.cacheMisses
    ensures !cacheHit ==> r.0.cacheMisses == Increment(m.cacheMisses, op) && r.0.cacheHits == m.cacheHits
    ensures r.0.maxSnapshots == m.maxSnapshots && r.0.baselineMemory == m.baselineMemory
  {
    var snapshot := Snapshot(endTime, cpuPercent, memoryMb, endTime - startTime, op, dataSize, cacheHit);
    var times := History(m.operationTimes, op) + [endTime - startTime];
    var sizes := History(m.operationDataSizes, op) + [dataSize];
    var m' := m.(
      snapshots := LastAtMost(m.snapshots + [snapshot], m.maxSnapshots),
      operationTimes := m.operationTimes[op := if |times| > HISTORY then times[|times| - HISTORY..] else times],
      operationDataSizes := m.operationDataSizes[op := if |times| > HISTORY then LastAtMost(sizes, HISTORY) else sizes],
      cacheHits := if cacheHit then Increment(m.cacheHits, op) else m.cacheHits,
      cacheMisses := if cacheHit then m.cacheMisses else Increment(m.cacheMisses, op));
    (m', snapshot)
  }

  /** The new snapshot is the newest one kept unless the log has no room at all;
      the oldest snapshot is dropped only when the log is full. */
  lemma EndOperationLogsSnapshot(m: Monitor, op: string, startTime: real, endTime: real, dataSize: int,
                                 cacheHit: bool, cpuPercent: real, memoryMb: real)
    ensures var r := EndOperation(m, op, startTime, endTime, dataSize, cacheHit, cpuPercent, memoryMb);
            && (m.maxSnapshots >= 1 ==> r.0.snapshots[|r.0.snapshots| - 1] == r.1)
            && (|m.snapshots| < m.maxSnapshots ==> r.0.snapshots == m.snapshots + [r.1])
            && (1 <= m.maxSnapshots == |m.snapshots| ==> r.0.snapshots == m.snapshots[1..] + [r.1])
            && r.0.operationTimes[op][|r.0.operationTimes[op]| - 1] == endTime - startTime
  {
    var r := EndOperation(m, op, startTime, endTime, dataSize, cacheHit, cpuPercent, memoryMb);
    LastAtMostAppend(m.snapshots, r.1, m.maxSnapshots);
    LastAtMostAppend(History(m.operationTimes, op), endTime - startTime, HISTORY);
  }

  /** Appending to a bounded window keeps the new element last and drops the
      oldest element only when the window was full. */
  lemma LastAtMostAppend<T>(s: seq<T>, x: T, n: nat)
    ensures n >= 1 ==> |LastAtMost(s + [x], n)| >= 1 && LastAtMost(s + [x], n)[|LastAtMost(s + [x], n)| - 1] == x
    ensures |s| < n ==> LastAtMost(s + [x], n) == s + [x]
    ensures 1 <= n == |s| ==> LastAtMost(s + [x], n) == s[1..] + [x]
  {
  }

  /** `end_operation` keeps the bookkeeping invariant. */
  lemma EndOperationPreservesInvariant(m: Monitor, op: string, startTime: real, endTime: real, dataSize: int,
                                       cacheHit: bool, cpuPercent: real, memoryMb: real)
    requires Valid(m)
    ensures Valid(EndOperation(m, op, startTime, endTime, dataSize, cacheHit, cpuPercent, memoryMb).0)
  {
    var r := EndOperation(m, op, startTime, endTime, dataSize, cacheHit, cpuPercent, memoryMb).0;
    assert |History(m.operationDataSizes, op)| == |History(m.operationTimes, op)|;
    assert r.operationTimes.Keys == r.operationDataSizes.Keys;
    EndOperationOwnEntry(m, op, startTime, endTime, dataSize, cacheHit, cpuPercent, memoryMb);
    forall o | o in r.operationTimes && o != op
      ensures 1 <= |r.operationTimes[o]| <= HISTORY
      ensures |r.operationDataSizes[o]| == |r.operationTimes[o]|
      ensures Count(r.cacheHits, o) + Count(r.cacheMisses, o) >= |r.operationTimes[o]|
    {
      assert Count(r.cacheHits, o) + Count(r.cacheMisses, o) == Count(m.cacheHits, o) + Count(m.cacheMisses, o);
    }
  }

  /** The operation's own histories stay within bounds, equally long, and covered
      by its hit and miss counts. */
  lemma EndOperationOwnEntry(m: Monitor, op: string, startTime: real, endTime: real, dataSize: int,
                             cacheHit: bool, cpuPercent: real, memoryMb: real)
    requires Valid(m)
    ensures var r := EndOperation(m, op, startTime, endTime, dataSize, cacheHit, cpuPercent, memoryMb).0;
            && op in r.operationTimes && op in r.operationDataSizes
            && 1 <= |r.operationTimes[op]| <= HISTORY
            && |r.operationDataSizes[op]| == |r.operationTimes[op]|
            && Count(r.cacheHits, op) + Count(r.cacheMisses, op) >= |r.operationTimes[op]|
  {
    var r := EndOperation(m, op, startTime, endTime, dataSize, cacheHit, cpuPercent, memoryMb).0;
    var before := |History(m.operationTimes, op)|;
    assert |History(m.operationDataSizes, op)| == before;
    assert Count(r.cacheHits, op) + Count(r.cacheMisses, op) == Count(m.cacheHits, op) + Count(m.cacheMisses, op) + 1;
    assert Count(m.cacheHits, op) + Count(m.cacheMisses, op) >= before;
  }

  /** The retained timings of an operation grow by one per call until 100 are
      kept, then stay at 100. */
  lemma EndOperationHistoryLength(m: Monitor, op: string, startTime: real, endTime: real, dataSize: int,
                                  cacheHit: bool, cpuPercent: real, memoryMb: real)
    requires Valid(m)
    ensures var r := EndOperation(m, op, startTime, endTime, dataSize, cacheHit, cpuPercent, memoryMb);
            var before := |History(m.operationTimes, op)|;
            |r.0.operationTimes[op]| == (if before < HISTORY then before + 1 else HISTORY)
  {
  }

  /** Sum of a sequence of reals. */
  function Sum(s: seq<real>): real {
    if |s| == 0 then 0.0 else Sum(s[..|s| - 1]) + s[|s| - 1]
  }

  function SumInts(s: seq<int>): int {
    if |s| == 0 then 0 else SumInts(s[..|s| - 1]) + s[|s| - 1]
  }

  function MinOf(s: seq<real>): (r: real)
    requires |s| > 0
    ensures r in s && forall x :: x in s ==> r <= x
  {
    if |s| == 1 then s[0]
    else
      var rest := MinOf(s[1..]);
      assert forall x :: x in s ==> x == s[0] || x in s[1..];
      if s[0] <= rest then s[0] else rest
  }

  function MaxOf(s: seq<real>): (r: real)
    requires |s| > 0
    ensures r in s && forall x :: x in s ==> x <= r
  {
    if |s| == 1 then s[0]
    else
      var rest := MaxOf(s[1..]);
      assert forall x :: x in s ==> x == s[0] || x in s[1..];
      if s[0] >= rest then s[0] else rest
  }

  /** A sum of values that all lie in `[lo, hi]` lies between `n * lo` and `n * hi`. */
  lemma {:induction false} SumBounds(s: seq<real>, lo: real, hi: real)
    requires forall x :: x in s ==> lo <= x <= hi
    ensures |s| as real * lo <= Sum(s) <= |s| as real * hi
  {
    if |s| > 0 {
      var init := s[..|s| - 1];
      assert forall x :: x in init ==> x in s;
      SumBounds(init, lo, hi);
      assert s[|s| - 1] in s;
      assert Sum(s) == Sum(init) + s[|s| - 1];
      assert |s| as real * lo == |init| as real * lo + lo;
      assert |s| as real * hi == |init| as real * hi + hi;
    }
  }

  /** `hits / (hits + misses) * 100`, or 0 without any cache event. */
  function HitRate(hits: nat, misses: nat): (rate: real)
    ensures 0.0 <= rate <= 100.0
    ensures hits + misses == 0 ==> rate == 0.0
    ensures rate == 100.0 <==> hits > 0 && misses == 0
    ensures rate == 0.0 <==> hits == 0
  {
    if hits + misses > 0 then hits as real / (hits + misses) as real * 100.0 else 0.0
  }

  datatype Benchmark = Benchmark(
    algorithmName: string,
    avgExecutionTime: real,
    minExecutionTime: real,
    maxExecutionTime: real,
    totalCalls: nat,
    totalDataPoints: int,
    cacheHitRate: real,
    memoryEfficiency: real)

  function Average(s: seq<real>): real
    requires |s| > 0
  {
    Sum(s) / |s| as real
  }

  /** The elapsed time floored at a millisecond, as `max(seconds, 0.001)`. */
  function AtLeastAMillisecond(seconds: real): real {
    if seconds > 0.001 then seconds else 0.001
  }

  /** Operations per second over the floored elapsed time. */
  function Rate(count: nat, seconds: real): real {
    count as real / AtLeastAMillisecond(seconds)
  }

  lemma DivideThenMultiply(a: real, b: real)
    requires b > 0.0
    ensures (a / b) * b == a
  {
  }

  /** `get_operation_benchmark`: nothing for an operation never recorded; otherwise
      statistics over the retained timings. Memory efficiency is the mean memory of
      the last (up to) ten snapshots per recorded data point. */
  function OperationBenchmark(m: Monitor, op: string): (r: Option<Benchmark>)
    ensures r.None? <==> op !in m.operationTimes || |m.operationTimes[op]| == 0
    ensures r.Some? ==>
              var times := m.operationTimes[op];
              && r.value.totalCalls == |times|
              && r.value.minExecutionTime in times && r.value.maxExecutionTime in times
              && (forall t :: t in times ==> r.value.minExecutionTime <= t <= r.value.maxExecutionTime)
              && r.value.minExecutionTime <= r.value.avgExecutionTime <= r.value.maxExecutionTime
              && r.value.cacheHitRate == HitRate(Count(m.cacheHits, op), Count(m.cacheMisses, op))
  {
    if op !in m.operationTimes || |m.operationTimes[op]| == 0 then None
    else
      var times := m.operationTimes[op];
      var totalDataPoints := SumInts(History(m.operationDataSizes, op));
      var recent := LastAtMost(m.snapshots, 10);
      var efficiency :=
        if totalDataPoints > 0 && |recent| > 0 then
          Average(MemoryReadings(recent)) / (if totalDataPoints > 1 then totalDataPoints else 1) as real
        else 0.0;
      var stats := TimingStats(times);
      Some(Benchmark(op, stats.0, stats.1, stats.2, |times|, totalDataPoints,
                     HitRate(Count(m.cacheHits, op), Count(m.cacheMisses, op)), efficiency))
  }

  /** Mean, minimum and maximum of a non-empty list of durations. */
  function TimingStats(times: seq<real>): (r: (real, real, real))
    requires |times| > 0
    ensures r.1 in times && r.2 in times
    ensures forall t :: t in times ==> r.1 <= t <= r.2
    ensures r.1 <= r.0 <= r.2
  {
    var lo, hi := MinOf(times), MaxOf(times);
    SumBounds(times, lo, hi);
    MeanBounds(Sum(times), |times| as real, lo, hi);
    (Average(times), lo, hi)
  }

  lemma MeanBounds(total: real, n: real, lo: real, hi: real)
    requires n > 0.0 && n * lo <= total <= n * hi
    ensures lo <= total / n <= hi
  {
    var mean := total / n;
    assert mean * n == total;
  }

  /** Under the bookkeeping invariant a benchmark never reports more than 100 calls,
      and exists exactly for the operations recorded. */
  lemma BenchmarkBound(m: Monitor, op: string)
    requires Valid(m)
    ensures OperationBenchmark(m, op).Some? <==> op in m.operationTimes
    ensures OperationBenchmark(m, op).Some? ==> OperationBenchmark(m, op).value.totalCalls <= HISTORY
  {
  }

  function MemoryReadings(s: seq<Snapshot>): (r: seq<real>)
    ensures |r| == |s| && forall i :: 0 <= i < |s| ==> r[i] == s[i].memoryMb
  {
    if |s| == 0 then [] else MemoryReadings(s[..|s| - 1]) + [s[|s| - 1].memoryMb]
  }

  function CpuReadings(s: seq<Snapshot>): (r: seq<real>)
    ensures |r| == |s| && forall i :: 0 <= i < |s| ==> r[i] == s[i].cpuPercent
  {
    if |s| == 0 then [] else CpuReadings(s[..|s| - 1]) + [s[|s| - 1].cpuPercent]
  }

  function ExecutionTimes(s: seq<Snapshot>): (r: seq<real>)
    ensures |r| == |s| && forall i :: 0 <= i < |s| ==> r[i] == s[i].executionTime
  {
    if |s| == 0 then [] else ExecutionTimes(s[..|s| - 1]) + [s[|s| - 1].executionTime]
  }

  /** Sum of the counters of `keys`, in no particular order. */
  ghost function SumOver(counters: map<string, nat>, keys: set<string>): nat
    requires keys <= counters.Keys
    decreases |keys|
  {
    if keys == {} then 0
    else
      var k :| k in keys;
      counters[k] + SumOver(counters, keys - {k})
  }

  /** The sum does not depend on which key is taken first. */
  lemma {:induction false} SumOverRemove(counters: map<string, nat>, keys: set<string>, x: string)
    requires keys <= counters.Keys && x in keys
    ensures SumOver(counters, keys) == counters[x] + SumOver(counters, keys - {x})
    decreases |keys|
  {
    var k :| k in keys && SumOver(counters, keys) == counters[k] + SumOver(counters, keys - {k});
    if k != x {
      SumOverRemove(counters, keys - {k}, x);
      SumOverRemove(counters, keys - {x}, k);
      assert keys - {k} - {x} == keys - {x} - {k};
    }
  }

  /** The counters of `keys` agree in `a` and `b`, so their sums do. */
  lemma {:induction false} SumOverSame(a: map<string, nat>, b: map<string, nat>, keys: set<string>)
    requires keys <= a.Keys && keys <= b.Keys
    requires forall k :: k in keys ==> a[k] == b[k]
    ensures SumOver(a, keys) == SumOver(b, keys)
    decreases |keys|
  {
    if keys != {} {
      var k :| k in keys && SumOver(a, keys) == a[k] + SumOver(a, keys - {k});
      SumOverRemove(b, keys, k);
      SumOverSame(a, b, keys - {k});
    }
  }

  /** `sum(counters.values())`. */
  ghost function Total(counters: map<string, nat>): nat {
    SumOver(counters, counters.Keys)
  }

  /** Counting one event for `op` raises the total by one. */
  lemma IncrementTotal(counters: map<string, nat>, op: string)
    ensures Total(Increment(counters, op)) == Total(counters) + 1
  {
    var r := Increment(counters, op);
    var rest := counters.Keys - {op};
    assert r.Keys - {op} == rest;
    SumOverRemove(r, r.Keys, op);
    SumOverSame(r, counters, rest);
    if op in counters {
      SumOverRemove(counters, counters.Keys, op);
    } else {
      assert counters.Keys == rest;
    }
  }

  /** Every `end_operation` adds exactly one event to the cache report's total. */
  lemma EndOperationCountsOneEvent(m: Monitor, op: string, startTime: real, endTime: real, dataSize: int,
                                   cacheHit: bool, cpuPercent: real, memoryMb: real)
    ensures var r := EndOperation(m, op, startTime, endTime, dataSize, cacheHit, cpuPercent, memoryMb).0;
            Total(r.cacheHits) + Total(r.cacheMisses) == Total(m.cacheHits) + Total(m.cacheMisses) + 1
  {
    if cacheHit {
      IncrementTotal(m.cacheHits, op);
    } else {
      IncrementTotal(m.cacheMisses, op);
    }
  }

  /** `sum(counters.values())`, computed. */
  method SumCounters(counters: map<string, nat>) returns (total: nat)
    ensures total == Total(counters)
  {
    var remaining := counters.Keys;
    total := 0;
    while remaining != {}
      invariant remaining <= counters.Keys
      invariant total + SumOver(counters, remaining) == Total(counters)
      decreases remaining
    {
      var k :| k in remaining;
      SumOverRemove(counters, remaining, k);
      total := total + counters[k];
      remaining := remaining - {k};
    }
  }

  datatype OperationCacheStats = OperationCacheStats(hits: nat, misses: nat, total: nat, hitRatePercent: real)

  datatype CacheReport = CacheReport(
    overallCacheHitRatePercent: real,
    totalCacheOperations: nat,
    operationCacheStats: map<string, OperationCacheStats>)

  /** `get_cache_performance_report`: an error without any cache event; otherwise
      the overall hit rate and one line per operation that ever counted an event. */
  method CachePerformanceReport(m: Monitor) returns (r: Result<CacheReport, string>)
    ensures Total(m.cacheHits) + Total(m.cacheMisses) == 0 <==> r == Err("No cache operations recorded")
    ensures r.Ok? ==>
              && r.value.totalCacheOperations == Total(m.cacheHits) + Total(m.cacheMisses)
              && r.value.overallCacheHitRatePercent == HitRate(Total(m.cacheHits), Total(m.cacheMisses))
              && r.value.operationCacheStats.Keys == m.cacheHits.Keys + m.cacheMisses.Keys
              && (forall op | op in r.value.operationCacheStats ::
                    r.value.operationCacheStats[op] ==
                      OperationCacheStats(Count(m.cacheHits, op), Count(m.cacheMisses, op),
                                          Count(m.cacheHits, op) + Count(m.cacheMisses, op),
                                          HitRate(Count(m.cacheHits, op), Count(m.cacheMisses, op))))
  {
    var hits := SumCounters(m.cacheHits);
    var misses := SumCounters(m.cacheMisses);
    if hits + misses == 0 {
      return Err("No cache operations recorded");
    }
    var stats := map op | op in m.cacheHits.Keys + m.cacheMisses.Keys ::
      OperationCacheStats(Count(m.cacheHits, op), Count(m.cacheMisses, op),
                          Count(m.cacheHits, op) + Count(m.cacheMisses, op),
                          HitRate(Count(m.cacheHits, op), Count(m.cacheMisses, op)));
    r := Ok(CacheReport(HitRate(hits, misses), hits + misses, stats));
  }

  /** `reset_monitoring`: every log, history and counter emptied; the baseline is
      the memory reading taken now (0 without system monitoring). */
  function Reset(m: Monitor, memoryNow: real): (r: Monitor)
    ensures Valid(r)
    ensures |r.snapshots| == 0 && |r.operationTimes| == 0 && |r.operationDataSizes| == 0
    ensures |r.cacheHits| == 0 && |r.cacheMisses| == 0
    ensures r.maxSnapshots == m.maxSnapshots && r.baselineMemory == memoryNow
  {
    New(m.maxSnapshots, memoryNow)
  }

  /** After a reset no operation has a benchmark and every report is empty. */
  lemma ResetForgetsEverything(m: Monitor, memoryNow: real, op: string)
    ensures OperationBenchmark(Reset(m, memoryNow), op) == None
    ensures Total(Reset(m, memoryNow).cacheHits) + Total(Reset(m, memoryNow).cacheMisses) == 0
    ensures SystemSummary(Reset(m, memoryNow)) == Err("No performance data available")
    ensures MemoryTrend(Reset(m, memoryNow)).Err?
  {
  }

  datatype MemoryTrendReport = MemoryTrendReport(
    currentMemoryMb: real,
    baselineMemoryMb: real,
    peakMemoryMb: real,
    increasing: bool,
    memoryChangeMb: real,
    efficient: bool)

  /** `get_memory_usage_trend`: needs at least ten snapshots; compares the mean
      memory reading of the newer half of the log with the older half (the
      newer half takes the middle snapshot of an odd count). */
  function MemoryTrend(m: Monitor): (r: Result<MemoryTrendReport, string>)
    ensures |m.snapshots| < 10 <==> r == Err("Insufficient data for trend analysis")
    ensures r.Ok? ==>
              var values := MemoryReadings(m.snapshots);
              && r.value.currentMemoryMb == m.snapshots[|m.snapshots| - 1].memoryMb
              && r.value.peakMemoryMb in values
              && (forall v :: v in values ==> v <= r.value.peakMemoryMb)
              && r.value.memoryChangeMb == Average(values[|values| / 2..]) - Average(values[..|values| / 2])
              && (r.value.increasing <==> r.value.memoryChangeMb > 0.0)
              && (r.value.efficient <==> r.value.memoryChangeMb < 50.0)
  {
    if |m.snapshots| < 10 then Err("Insufficient data for trend analysis")
    else
      var values := MemoryReadings(m.snapshots);
      var firstAvg := Average(values[..|values| / 2]);
      var secondAvg := Average(values[|values| / 2..]);
      var change := secondAvg - firstAvg;
      Ok(MemoryTrendReport(values[|values| - 1], m.baselineMemory, MaxOf(values),
                           secondAvg > firstAvg, change, change < 50.0))
  }

  datatype Summary = Summary(
    averageCpuPercent: real,
    averageMemoryMb: real,
    totalExecutionTimeSeconds: real,
    totalOperations: nat,
    performanceTrend: Trend,
    memoryIncreaseMb: real,
    operationsPerSecond: real)

  datatype Trend = Improving | Degrading | Stable

  /** The message a Python division by an empty list's length raises. */
  const DIVISION_BY_ZERO: string := "division by zero"

  /** The durations of the snapshots the summary looks at: the last 50. */
  function RecentTimes(m: Monitor): seq<real> {
    ExecutionTimes(LastAtMost(m.snapshots, 50))
  }

  /** The older half of the recent durations (the smaller one for an odd count). */
  function OlderTimes(m: Monitor): seq<real> {
    RecentTimes(m)[..|RecentTimes(m)| / 2]
  }

  /** The newer half of the recent durations, middle one included for an odd count. */
  function NewerTimes(m: Monitor): seq<real> {
    RecentTimes(m)[|RecentTimes(m)| / 2..]
  }

  /** The older half is empty exactly when there is a single snapshot. */
  lemma OlderHalfEmptyIffSingle(m: Monitor)
    requires |m.snapshots| > 0
    ensures |OlderTimes(m)| == 0 <==> |m.snapshots| == 1
  {
    assert |RecentTimes(m)| == if |m.snapshots| <= 50 then |m.snapshots| else 50;
  }

  /** The summary's trend decision: "improving" iff the newer half ran faster on average. */
  function TrendOf(m: Monitor): (t: Trend)
    requires |OlderTimes(m)| > 0
    ensures |NewerTimes(m)| > 0
    ensures t == Improving <==> Average(NewerTimes(m)) < Average(OlderTimes(m))
    ensures t != Stable
  {
    if Average(NewerTimes(m)) < Average(OlderTimes(m)) then Improving else Degrading
  }

  /** `get_system_performance_summary` as written: over the last 50 snapshots, the
      trend compares the mean duration of the newer half with the older half. With
      a single snapshot the older half is empty and the mean divides by zero,
      which the source does not catch. */
  function SystemSummaryAsWritten(m: Monitor): (r: Result<Summary, string>)
    ensures |m.snapshots| == 0 <==> r == Err("No performance data available")
    ensures |m.snapshots| == 1 ==> r == Err(DIVISION_BY_ZERO)
    ensures |m.snapshots| >= 2 ==> r.Ok?
    ensures |m.snapshots| >= 2 ==>
              && |OlderTimes(m)| > 0 && |NewerTimes(m)| > 0
              && (r.value.performanceTrend == Improving <==> Average(NewerTimes(m)) < Average(OlderTimes(m)))
              && r.value.performanceTrend != Stable
  {
    if |m.snapshots| == 0 then Err("No performance data available")
    else
      OlderHalfEmptyIffSingle(m);
      if |OlderTimes(m)| == 0 then Err(DIVISION_BY_ZERO)
      else Ok(SummaryOf(m, LastAtMost(m.snapshots, 50), TrendOf(m)))
  }

  /** The figures of the summary other than the trend. */
  function SummaryOf(m: Monitor, recent: seq<Snapshot>, trend: Trend): (s: Summary)
    requires |recent| > 0
    ensures s.totalOperations == |recent| && s.performanceTrend == trend
    ensures s.totalExecutionTimeSeconds == Sum(ExecutionTimes(recent))
    ensures s.memoryIncreaseMb == s.averageMemoryMb - m.baselineMemory
    ensures s.averageCpuPercent == Average(CpuReadings(recent))
    ensures s.averageMemoryMb == Average(MemoryReadings(recent))
    ensures s.operationsPerSecond == Rate(|recent|, s.totalExecutionTimeSeconds)
  {
    var total := Sum(ExecutionTimes(recent));
    var avgMemory := Average(MemoryReadings(recent));
    Summary(Average(CpuReadings(recent)), avgMemory, total, |recent|, trend,
            avgMemory - m.baselineMemory, Rate(|recent|, total))
  }

  /** A mean taken once per value adds up to the sum of the values. */
  lemma AverageTimesCount(s: seq<real>)
    requires |s| > 0
    ensures Average(s) * |s| as real == Sum(s)
  {
    DivideThenMultiply(Sum(s), |s| as real);
  }

  /** The rate over the floored time accounts for every operation. */
  lemma RateTimesTime(count: nat, seconds: real)
    ensures Rate(count, seconds) * AtLeastAMillisecond(seconds) == count as real
  {
    DivideThenMultiply(count as real, AtLeastAMillisecond(seconds));
  }

  /** The summary with the trend guarded as `get_memory_usage_trend` guards its own:
      fewer than two snapshots give a stable trend instead of an error. */
  function SystemSummary(m: Monitor): (r: Result<Summary, string>)
    ensures |m.snapshots| == 0 <==> r == Err("No performance data available")
    ensures |m.snapshots| >= 1 ==> r.Ok? && r.value.totalOperations == if |m.snapshots| < 50 then |m.snapshots| else 50
    ensures |m.snapshots| == 1 ==> r.Ok? && r.value.performanceTrend == Stable
    ensures |m.snapshots| >= 2 ==>
              && r.Ok? && |OlderTimes(m)| > 0 && |NewerTimes(m)| > 0
              && (r.value.performanceTrend == Improving <==> Average(NewerTimes(m)) < Average(OlderTimes(m)))
              && r.value.performanceTrend != Stable
  {
    if |m.snapshots| == 0 then Err("No performance data available")
    else
      OlderHalfEmptyIffSingle(m);
      if |OlderTimes(m)| == 0 then Ok(SummaryOf(m, LastAtMost(m.snapshots, 50), Stable))
      else Ok(SummaryOf(m, LastAtMost(m.snapshots, 50), TrendOf(m)))
  }

  /** A monitor that has logged exactly one operation makes the summary as written
      fail, while the guarded summary reports it. */
  lemma SingleSnapshotSummary(m: Monitor, op: string, startTime: real, endTime: real, cpuPercent: real, memoryMb: real)
    requires |m.snapshots| == 0 && m.maxSnapshots >= 1
    ensures var r := EndOperation(m, op, startTime, endTime, 0, false, cpuPercent, memoryMb).0;
            && SystemSummaryAsWritten(r) == Err(DIVISION_BY_ZERO)
            && SystemSummary(r).Ok? && SystemSummary(r).value.totalOperations == 1
  {
  }

  /** With two or more snapshots the guarded summary is the one written. */
  lemma SummaryAgreesFromTwoSnapshots(m: Monitor)
    requires |m.snapshots| >= 2
    ensures SystemSummary(m) == SystemSummaryAsWritten(m)
  {
  }
}

=== FILE: processing.dfy ===
/** Run detection and outlier capping over numeric series (data/processing.py).
    Values are exact reals; pandas' missing values are not represented. */
module Processing {

  /** One step in the chosen direction; equal neighbours are never a step. */
  predicate Step(a: real, b: real, decreasing: bool) {
    if decreasing then a > b else a < b
  }

  /** Reference meaning of a run check: at least `count + 1` values, and a strict
      step between each pair of neighbours among the last `count` values. */
  predicate RunAtEnd(values: seq<real>, count: int, decreasing: bool) {
    && |values| >= count + 1
    && forall i | |values| - count <= i < |values| - 1 :: Step(values[i], values[i + 1], decreasing)
  }

  /** Whether every neighbour pair at positions `lo .. hi` is a step, checked from
      `lo` upwards as Python's `all` does. */
  function AllSteps(values: seq<real>, lo: int, hi: int, decreasing: bool): (r: bool)
    requires 0 <= lo && hi < |values|
    ensures r <==> forall i | lo <= i < hi :: Step(values[i], values[i + 1], decreasing)
    decreases hi - lo
  {
    if lo >= hi then true
    else Step(values[lo], values[lo + 1], decreasing) && AllSteps(values, lo + 1, hi, decreasing)
  }

  /** `check_consecutive_increase`: false with fewer than `count + 1` values;
      otherwise whether the last `count` values rise strictly, which takes
      `count - 1` comparisons, not `count`. */
  function CheckConsecutiveIncrease(values: seq<real>, count: int): (r: bool)
    ensures |values| < count + 1 ==> !r
    ensures r <==> RunAtEnd(values, count, false)
  {
    if |values| < count + 1 then false
    else AllSteps(values, if count >= 0 then |values| - count else |values|, |values| - 1, false)
  }

  /** `check_consecutive_decrease`: the mirror image with strict decreases. */
  function CheckConsecutiveDecrease(values: seq<real>, count: int): (r: bool)
    ensures |values| < count + 1 ==> !r
    ensures r <==> RunAtEnd(values, count, true)
  {
    if |values| < count + 1 then false
    else AllSteps(values, if count >= 0 then |values| - count else |values|, |values| - 1, true)
  }

  /** `count_consecutive_changes`: the number of steps in the chosen direction
      counted backwards from the last value, up to the first pair that is not one. */
  function CountConsecutiveChanges(values: seq<real>, decreasing: bool): (r: nat)
    ensures |values| < 2 ==> r == 0
    ensures |values| >= 2 ==> r <= |values| - 1
  {
    if |values| < 2 then 0
    else if Step(values[|values| - 2], values[|values| - 1], decreasing) then
      1 + CountConsecutiveChanges(values[..|values| - 1], decreasing)
    else 0
  }

  /** The count is the length of the maximal run of steps ending at the last
      value: every one of the last `r` pairs is a step, and the pair before them
      (if any) is not. */
  lemma {:induction false} CountIsMaximalRun(values: seq<real>, decreasing: bool)
    requires |values| >= 1
    ensures var r := CountConsecutiveChanges(values, decreasing);
            && (forall i | |values| - 1 - r <= i < |values| - 1 :: Step(values[i], values[i + 1], decreasing))
            && (r < |values| - 1 ==> !Step(values[|values| - 2 - r], values[|values| - 1 - r], decreasing))
    decreases |values|
  {
    if |values| >= 2 && Step(values[|values| - 2], values[|values| - 1], decreasing) {
      var init := values[..|values| - 1];
      CountIsMaximalRun(init, decreasing);
      var r := CountConsecutiveChanges(values, decreasing);
      forall i | |values| - 1 - r <= i < |values| - 1
        ensures Step(values[i], values[i + 1], decreasing)
      {
        if i < |values| - 2 {
          assert values[i] == init[i] && values[i + 1] == init[i + 1];
        }
      }
      if r < |values| - 1 {
        assert values[|values| - 2 - r] == init[|init| - 2 - (r - 1)];
        assert values[|values| - 1 - r] == init[|init| - 1 - (r - 1)];
      }
    }
  }

  /** The count reaches `k` exactly when the last `k` pairs are all steps. */
  lemma {:induction false} CountAtLeast(values: seq<real>, decreasing: bool, k: nat)
    requires k <= |values| - 1
    ensures CountConsecutiveChanges(values, decreasing) >= k <==>
              forall i | |values| - 1 - k <= i < |values| - 1 :: Step(values[i], values[i + 1], decreasing)
  {
    CountIsMaximalRun(values, decreasing);
    var r := CountConsecutiveChanges(values, decreasing);
    if r < k {
      var i := |values| - 2 - r;
      assert |values| - 1 - k <= i < |values| - 1;
    }
  }

  /** With enough values, a run check of `count >= 1` succeeds exactly when the
      backward count is at least `count - 1`. */
  lemma CheckDecreaseIsCount(values: seq<real>, count: int)
    requires count >= 1 && |values| >= count + 1
    ensures CheckConsecutiveDecrease(values, count) <==> CountConsecutiveChanges(values, true) >= count - 1
  {
    CountAtLeast(values, true, count - 1);
  }

  lemma CheckIncreaseIsCount(values: seq<real>, count: int)
    requires count >= 1 && |values| >= count + 1
    ensures CheckConsecutiveIncrease(values, count) <==> CountConsecutiveChanges(values, false) >= count - 1
  {
    CountAtLeast(values, false, count - 1);
  }

  function Negate(values: seq<real>): (r: seq<real>)
    ensures |r| == |values| && forall i :: 0 <= i < |values| ==> r[i] == -values[i]
  {
    seq(|values|, i requires 0 <= i < |values| => -values[i])
  }

  /** The decrease check is the increase check of the negated series. */
  lemma DecreaseMirrorsIncrease(values: seq<real>, count: int)
    ensures CheckConsecutiveDecrease(values, count) == CheckConsecutiveIncrease(Negate(values), count)
  {
    var n := Negate(values);
    assert forall i | 0 <= i < |values| - 1 :: Step(values[i], values[i + 1], true) == Step(n[i], n[i + 1], false);
  }

  /** Equal last values end both kinds of run. */
  lemma EqualNeighboursBreakRuns(values: seq<real>, count: int)
    requires |values| >= 2 && values[|values| - 2] == values[|values| - 1]
    requires count >= 2
    ensures !CheckConsecutiveIncrease(values, count) && !CheckConsecutiveDecrease(values, count)
    ensures CountConsecutiveChanges(values, true) == 0 && CountConsecutiveChanges(values, false) == 0
  {
    if |values| >= count + 1 {
      assert !Step(values[|values| - 2], values[|values| - 1], false);
      assert !Step(values[|values| - 2], values[|values| - 1], true);
    }
  }

  /** Default limits of `cap_outliers`. */
  const DEFAULT_LOWER: real := -2.0
  const DEFAULT_UPPER: real := 2.0

  /** One value clipped to `[lo, hi]`. */
  function Clip(x: real, lo: real, hi: real): (r: real)
    requires lo <= hi
    ensures lo <= r <= hi
    ensures lo <= x <= hi ==> r == x
    ensures x < lo ==> r == lo
    ensures x > hi ==> r == hi
  {
    if x < lo then lo else if x > hi then hi else x
  }

  /** `cap_outliers` (pandas `Series.clip` with scalar limits, which puts the two
      limits in order before clipping). */
  function CapOutliers(series: seq<real>, lower: real, upper: real): (r: seq<real>)
    ensures |r| == |series|
  {
    var lo := if lower <= upper then lower else upper;
    var hi := if lower <= upper then upper else lower;
    seq(|series|, i requires 0 <= i < |series| => Clip(series[i], lo, hi))
  }

  /** Every capped value lies between the limits, and values already between them
      are untouched. */
  lemma CapOutliersRange(series: seq<real>, lower: real, upper: real)
    requires lower <= upper
    ensures forall i :: 0 <= i < |series| ==> lower <= CapOutliers(series, lower, upper)[i] <= upper
    ensures forall i :: 0 <= i < |series| && lower <= series[i] <= upper ==> CapOutliers(series, lower, upper)[i] == series[i]
    ensures forall i :: 0 <= i < |series| && series[i] < lower ==> CapOutliers(series, lower, upper)[i] == lower
    ensures forall i :: 0 <= i < |series| && series[i] > upper ==> CapOutliers(series, lower, upper)[i] == upper
  {
  }

  /** Capping twice is capping once. */
  lemma CapOutliersIdempotent(series: seq<real>, lower: real, upper: real)
    ensures CapOutliers(CapOutliers(series, lower, upper), lower, upper) == CapOutliers(series, lower, upper)
  {
  }

  /** The limits may be given in either order. */
  lemma CapOutliersSymmetric(series: seq<real>, lower: real, upper: real)
    ensures CapOutliers(series, lower, upper) == CapOutliers(series, upper, lower)
  {
  }
}

=== FILE: release_schedule.dfy ===
/** Estimated release dates of economic indicators (data/release_schedule.py):
    the fallback schedule used when no FRED client is available, and the
    human-readable "Next release" line. The current moment is a parameter. */
module ReleaseSchedule {
  import opened Wrappers
  import opened Calendar
  import Text

  /** Microseconds in a day: the range of a `datetime`'s time of day. */
  const MICROS_PER_DAY: int := 86_400_000_000

  /** A naive `datetime.datetime`: a date and a time of day in microseconds. */
  datatype DateTime = DateTime(date: Date, micros: int)

  predicate ValidDateTime(t: DateTime) {
    Valid(t.date) && 0 <= t.micros < MICROS_PER_DAY
  }

  /** `t + timedelta(days=n)`: the time of day is kept. */
  function PlusDays(t: DateTime, n: nat): (r: DateTime)
    requires ValidDateTime(t)
    ensures ValidDateTime(r) && r.micros == t.micros
    ensures Ordinal(r.date) == Ordinal(t.date) + n
  {
    AddDaysOrdinal(t.date, n);
    DateTime(AddDays(t.date, n), t.micros)
  }

  /** `t.replace(day=day)`. */
  function ReplaceDay(t: DateTime, day: int): (r: DateTime)
    requires ValidDateTime(t) && 1 <= day <= DaysInMonth(t.date.year, t.date.month)
    ensures ValidDateTime(r)
  {
    DateTime(Date(t.date.year, t.date.month, day), t.micros)
  }

  /** Python's `a <= b` on datetimes: date first, then time of day. */
  predicate AtOrBefore(a: DateTime, b: DateTime)
    requires ValidDateTime(a) && ValidDateTime(b)
  {
    Ordinal(a.date) < Ordinal(b.date) || (Ordinal(a.date) == Ordinal(b.date) && a.micros <= b.micros)
  }

  /** The `day` entry of a monthly schedule. */
  datatype DaySpec = LastBusinessDay | DayOfMonth(n: int)

  /** One entry of the fallback schedule table, by its `frequency`. */
  datatype Schedule =
    | Weekly(onWeekday: int)
    | Daily
    | Monthly(day: Option<DaySpec>, weekday: Option<int>, offset: int)

  /** A schedule the estimate can follow without raising or looping: a searched
      weekday lies in 0..6, and a fixed day exists in every month. */
  predicate WellFormed(s: Schedule) {
    match s
    case Weekly(_) => true
    case Daily => true
    case Monthly(day, weekday, _) =>
      if weekday.Some? then 0 <= weekday.value < 7
      else day.Some? && (day.value.DayOfMonth? ==> 1 <= day.value.n <= 28)
  }

  /** The fallback schedules, keyed by indicator type. */
  const SCHEDULES: map<string, Schedule> := map[
    "claims" := Weekly(3),
    "pce" := Monthly(Some(LastBusinessDay), None, 1),
    "core_cpi" := Monthly(Some(DayOfMonth(12)), None, 1),
    "hours" := Monthly(Some(DayOfMonth(1)), Some(4), 1),
    "pmi" := Monthly(Some(DayOfMonth(1)), None, 0),
    "new_orders" := Monthly(Some(DayOfMonth(25)), None, 1)
  ]

  lemma SchedulesWellFormed()
    ensures SCHEDULES.Keys == {"claims", "pce", "core_cpi", "hours", "pmi", "new_orders"}
    ensures forall k | k in SCHEDULES :: WellFormed(SCHEDULES[k])
  {
  }

  /** The day on which the PCE estimate is overridden, and the release it gets. */
  const PCE_OVERRIDE_DAY: Date := Date(2025, 4, 29)
  const PCE_OVERRIDE_RELEASE: DateTime := DateTime(Date(2025, 4, 30), 0)

  /** `(t.replace(day=1) + timedelta(days=32)).replace(day=1)`. */
  function FirstOfNextMonth(t: DateTime): (r: DateTime)
    requires ValidDateTime(t)
    ensures ValidDateTime(r) && r.micros == t.micros
    ensures r.date == FirstOfFollowingMonth(t.date.year, t.date.month)
  {
    ThirtyTwoDaysLater(t.date.year, t.date.month);
    ReplaceDay(PlusDays(ReplaceDay(t, 1), 32), 1)
  }

  /** The first day of the month a monthly schedule releases in: the month after
      `now`, or the one after that when the offset is positive. */
  function TargetMonth(now: DateTime, offset: int): (r: DateTime)
    requires ValidDateTime(now)
    ensures ValidDateTime(r) && r.date.day == 1 && r.micros == now.micros
    ensures r.date == MonthsAhead(now.date, if offset > 0 then 2 else 1)
  {
    var first := FirstOfNextMonth(now);
    FollowingMonthIsOneAhead(now.date);
    if offset > 0 then
      var later := PlusDays(first, 32);
      ThirtyTwoDaysLater(first.date.year, first.date.month);
      FollowingMonthIsOneAhead(first.date);
      ReplaceDay(later, 1)
    else first
  }

  /** A weekly schedule: the next day on weekday `w`, a full week ahead when
      that would be `now` itself. */
  function WeeklyEstimate(w: int, now: DateTime): (r: DateTime)
    requires ValidDateTime(now)
    ensures ValidDateTime(r) && r.micros == now.micros
  {
    var next := PlusDays(now, (w - Weekday(now.date) + 7) % 7);
    if AtOrBefore(next, now) then PlusDays(next, 7) else next
  }

  /** A daily schedule: the next business day after `now`. */
  function DailyEstimate(now: DateTime): (r: DateTime)
    requires ValidDateTime(now)
    ensures ValidDateTime(r) && r.micros == now.micros
  {
    DateTime(RollForwardToBusinessDay(NextDay(now.date)), now.micros)
  }

  /** A monthly schedule: in the target month, the last business day, the first
      day on the searched weekday, or the fixed day moved past a weekend. */
  function MonthlyEstimate(day: Option<DaySpec>, weekday: Option<int>, offset: int, now: DateTime): (r: DateTime)
    requires WellFormed(Monthly(day, weekday, offset)) && ValidDateTime(now)
    ensures ValidDateTime(r) && r.micros == now.micros
  {
    var target := TargetMonth(now, offset);
    var y := target.date.year;
    var m := target.date.month;
    if day == Some(LastBusinessDay) then
      // The PCE special case that follows in the source returns the same value.
      DateTime(RollBackToBusinessDay(LastOfMonth(y, m)), now.micros)
    else if weekday.Some? then
      DateTime(FirstWeekdayOnOrAfter(target.date, weekday.value), now.micros)
    else
      DateTime(RollForwardToBusinessDay(Date(y, m, day.value.n)), now.micros)
  }

  /** The estimate a schedule gives for the moment `now`, by its frequency. */
  function FromSchedule(s: Schedule, now: DateTime): (r: DateTime)
    requires WellFormed(s) && ValidDateTime(now)
    ensures ValidDateTime(r) && r.micros == now.micros
  {
    match s
    case Weekly(w) => WeeklyEstimate(w, now)
    case Daily => DailyEstimate(now)
    case Monthly(day, weekday, offset) => MonthlyEstimate(day, weekday, offset, now)
  }

  /** `get_next_release_date` without a FRED client. */
  function NextReleaseDate(indicator: string, now: DateTime): (r: Option<DateTime>)
    requires ValidDateTime(now)
    ensures r.Some? ==> ValidDateTime(r.value)
  {
    if indicator == "pce" && now.date == PCE_OVERRIDE_DAY then Some(PCE_OVERRIDE_RELEASE)
    else if indicator !in SCHEDULES then None
    else
      SchedulesWellFormed();
      Some(FromSchedule(SCHEDULES[indicator], now))
  }

  /** An estimate exists exactly for the scheduled indicators. */
  lemma EstimateExistsIffScheduled(indicator: string, now: DateTime)
    requires ValidDateTime(now)
    ensures NextReleaseDate(indicator, now).Some? <==> indicator in SCHEDULES
  {
  }

  /** On the override day the PCE release is the next day at midnight. */
  lemma PceOverride(now: DateTime)
    requires ValidDateTime(now) && now.date == PCE_OVERRIDE_DAY
    ensures NextReleaseDate("pce", now) == Some(PCE_OVERRIDE_RELEASE)
    ensures Ordinal(PCE_OVERRIDE_RELEASE.date) == Ordinal(now.date) + 1
  {
    NextDayOrdinal(now.date);
  }

  /** A monthly schedule targets one month ahead, or two with a positive offset. */
  lemma TargetMonthIsLater(now: DateTime, offset: int)
    requires ValidDateTime(now)
    ensures Ordinal(TargetMonth(now, offset).date) > Ordinal(now.date)
  {
    var first := FirstOfNextMonth(now);
    FollowingMonthIsLater(now.date);
    if offset > 0 {
      FollowingMonthIsLater(first.date);
    }
  }

  /** A weekly release falls on its weekday, one to seven days after `now`. */
  lemma WeeklyRelease(w: int, now: DateTime)
    requires ValidDateTime(now) && 0 <= w < 7
    ensures var r := WeeklyEstimate(w, now);
            && Weekday(r.date) == w
            && 1 <= Ordinal(r.date) - Ordinal(now.date) <= 7
  {
    if Weekday(now.date) == w {
      WeeklyOnTheDay(w, now);
    } else {
      WeeklyLaterInWeek(w, now);
    }
  }

  /** On the release weekday itself the estimate is a week later. */
  lemma WeeklyOnTheDay(w: int, now: DateTime)
    requires ValidDateTime(now) && Weekday(now.date) == w
    ensures WeeklyEstimate(w, now) == PlusDays(PlusDays(now, 0), 7)
    ensures Weekday(WeeklyEstimate(w, now).date) == w
    ensures Ordinal(WeeklyEstimate(w, now).date) == Ordinal(now.date) + 7
  {
    var next := PlusDays(now, 0);
    assert next == now;
    WeeksLater(now.date, 7);
  }

  /** On any other weekday the estimate is the coming day on weekday `w`. */
  lemma WeeklyLaterInWeek(w: int, now: DateTime)
    requires ValidDateTime(now) && 0 <= w < 7 && Weekday(now.date) != w
    ensures var k := DaysToWeekday(Weekday(now.date), w);
            && WeeklyEstimate(w, now) == PlusDays(now, k)
            && Weekday(WeeklyEstimate(w, now).date) == w
            && Ordinal(WeeklyEstimate(w, now).date) == Ordinal(now.date) + k
  {
    var wd := Weekday(now.date);
    var k := DaysToWeekday(wd, w);
    DaysToWeekdayArrives(wd, w);
    AddDaysWeekday(now.date, k);
    assert !AtOrBefore(PlusDays(now, k), now);
  }

  /** Initial claims: the next Thursday strictly after today. */
  lemma ClaimsNextThursday(now: DateTime)
    requires ValidDateTime(now)
    ensures var r := NextReleaseDate("claims", now);
            && r.Some?
            && Weekday(r.value.date) == 3
            && 1 <= Ordinal(r.value.date) - Ordinal(now.date) <= 7
            && r.value.micros == now.micros
  {
    WeeklyRelease(3, now);
    assert NextReleaseDate("claims", now) == Some(WeeklyEstimate(3, now));
  }

  /** PCE: the last business day of the month two months ahead; every later day
      of that month is a Saturday or Sunday. */
  lemma PceLastBusinessDay(now: DateTime)
    requires ValidDateTime(now) && now.date != PCE_OVERRIDE_DAY
    ensures var r := NextReleaseDate("pce", now).value.date;
            var target := MonthsAhead(now.date, 2);
            && r.year == target.year && r.month == target.month
            && IsBusinessDay(r)
            && r.day >= DaysInMonth(r.year, r.month) - 2
            && forall k | r.day < k <= DaysInMonth(r.year, r.month) :: Weekday(Date(r.year, r.month, k)) > 4
  {
    var t := TargetMonth(now, 1).date;
    assert NextReleaseDate("pce", now).value.date == RollBackToBusinessDay(LastOfMonth(t.year, t.month));
    LastBusinessDayOfMonth(t.year, t.month);
  }

  /** Average weekly hours: the first Friday of the month two months ahead. */
  lemma HoursFirstFriday(now: DateTime)
    requires ValidDateTime(now)
    ensures var r := NextReleaseDate("hours", now).value.date;
            var target := MonthsAhead(now.date, 2);
            && r.year == target.year && r.month == target.month
            && Weekday(r) == 4 && r.day <= 7
            && forall k | 1 <= k < r.day :: Weekday(Date(r.year, r.month, k)) != 4
  {
    var t := TargetMonth(now, 1).date;
    assert NextReleaseDate("hours", now).value.date == FirstWeekdayOnOrAfter(t, 4);
    FirstWeekdayOfMonth(t.year, t.month, 4);
  }

  /** A fixed-day schedule: the given day of the target month, moved past a
      weekend to the Monday. */
  lemma FixedDayRelease(n: int, offset: int, now: DateTime)
    requires ValidDateTime(now) && 1 <= n <= 26
    ensures var r := MonthlyEstimate(Some(DayOfMonth(n)), None, offset, now).date;
            var target := MonthsAhead(now.date, if offset > 0 then 2 else 1);
            && r.year == target.year && r.month == target.month
            && IsBusinessDay(r)
            && n <= r.day <= n + 2
            && forall k | n <= k < r.day :: Weekday(Date(r.year, r.month, k)) > 4
  {
    var t := TargetMonth(now, offset).date;
    BusinessDayOnOrAfter(t.year, t.month, n);
  }

  /** Core CPI (the 12th), new orders (the 25th) and PMI (the 1st, one month
      ahead) follow the fixed-day rule. */
  lemma FixedDayIndicators(now: DateTime)
    requires ValidDateTime(now)
    ensures NextReleaseDate("core_cpi", now) == Some(MonthlyEstimate(Some(DayOfMonth(12)), None, 1, now))
    ensures NextReleaseDate("new_orders", now) == Some(MonthlyEstimate(Some(DayOfMonth(25)), None, 1, now))
    ensures NextReleaseDate("pmi", now) == Some(MonthlyEstimate(Some(DayOfMonth(1)), None, 0, now))
  {
  }

  /** A date in the target month lies after `now`. */
  lemma InTargetMonthIsLater(now: DateTime, offset: int, r: Date)
    requires ValidDateTime(now) && Valid(r)
    requires var t := MonthsAhead(now.date, if offset > 0 then 2 else 1);
             r.year == t.year && r.month == t.month
    ensures Ordinal(r) > Ordinal(now.date)
  {
    TargetMonthIsLater(now, offset);
    SameMonthOrdinal(TargetMonth(now, offset).date, r);
  }

  /** Every estimate lies after today: the next release is never in the past
      and never today. */
  lemma EstimateIsAfterToday(indicator: string, now: DateTime)
    requires ValidDateTime(now) && indicator in SCHEDULES
    ensures Ordinal(NextReleaseDate(indicator, now).value.date) > Ordinal(now.date)
  {
    var r := NextReleaseDate(indicator, now).value.date;
    if indicator == "pce" && now.date == PCE_OVERRIDE_DAY {
      PceOverride(now);
    } else if indicator == "claims" {
      ClaimsNextThursday(now);
    } else if indicator == "pce" {
      PceLastBusinessDay(now);
      InTargetMonthIsLater(now, 1, r);
    } else if indicator == "hours" {
      HoursFirstFriday(now);
      InTargetMonthIsLater(now, 1, r);
    } else {
      FixedDayIndicators(now);
      if indicator == "pmi" {
        FixedDayRelease(1, 0, now);
        InTargetMonthIsLater(now, 0, r);
      } else if indicator == "core_cpi" {
        FixedDayRelease(12, 1, now);
        InTargetMonthIsLater(now, 1, r);
      } else {
        FixedDayRelease(25, 1, now);
        InTargetMonthIsLater(now, 1, r);
      }
    }
  }

  /** The strings of `format_release_date`. */
  const NOT_AVAILABLE: string := "Next release date not available"
  const TODAY: string := "Next release: Today"
  const TOMORROW: string := "Next release: Tomorrow"
  const NEXT_RELEASE: string := "Next release: "

  const MONTH_NAMES: seq<string> := [
    "January", "February", "March", "April", "May", "June", "July",
    "August", "September", "October", "November", "December"]

  /** `d.strftime('%B %d, %Y')`: the month's full name, a space, the day as two
      digits, a comma and a space, then the year in decimal. No month name starts
      with 'T'. */
  function LongDate(d: Date): (s: string)
    requires Valid(d)
    ensures var name := MONTH_NAMES[d.month - 1];
            && Text.IsPrefix(name + " ", s)
            && |s| > |name| + 5
            && s[|name| + 1] == Text.Digit(d.day / 10) && s[|name| + 2] == Text.Digit(d.day % 10)
            && s[|name| + 3..|name| + 5] == ", "
            && s[|name| + 5..] == Text.NatToString(d.year)
    ensures s[0] != 'T'
  {
    TwoDigitDay(d.day);
    MONTH_NAMES[d.month - 1] + " " + Text.ZeroPad(d.day, 2) + ", " + Text.NatToString(d.year)
  }

  /** `%d` of a day of the month: its tens digit, then its units digit. */
  lemma TwoDigitDay(n: nat)
    requires n < 100
    ensures Text.ZeroPad(n, 2) == [Text.Digit(n / 10), Text.Digit(n % 10)]
  {
    if n < 10 {
      assert Text.Digit(0) == '0';
    } else {
      assert Text.NatToString(n / 10) == [Text.Digit(n / 10)];
    }
  }

  /** Whole days from `today`'s date to `release`'s date, times of day ignored. */
  function DaysUntil(release: DateTime, today: DateTime): int
    requires ValidDateTime(release) && ValidDateTime(today)
  {
    Ordinal(release.date) - Ordinal(today.date)
  }

  /** `format_release_date`, with the current moment passed in as `today`. The
      line says "not available" exactly for a missing or past date (outside the
      PCE override), "Today" exactly for a same-day date, "Tomorrow" exactly for
      the next day or the override; any later date is written out. */
  function FormatReleaseDate(date: Option<DateTime>, indicator: Option<string>, today: DateTime): (r: string)
    requires ValidDateTime(today) && (date.Some? ==> ValidDateTime(date.value))
    ensures var overridden := indicator == Some("pce") && today.date == PCE_OVERRIDE_DAY;
            && (r == NOT_AVAILABLE <==> !overridden && (date.None? || DaysUntil(date.value, today) < 0))
            && (r == TODAY <==> !overridden && date.Some? && DaysUntil(date.value, today) == 0)
            && (r == TOMORROW <==> overridden || (date.Some? && DaysUntil(date.value, today) == 1))
            && (!overridden && date.Some? && DaysUntil(date.value, today) >= 2 ==>
                  Text.IsPrefix(NEXT_RELEASE + LongDate(date.value.date) + " (", r)
                  && r == WrittenOut(date.value.date, DaysUntil(date.value, today)))
  {
    if indicator == Some("pce") && today.date == PCE_OVERRIDE_DAY then TOMORROW
    else if date.None? then NOT_AVAILABLE
    else
      var days := DaysUntil(date.value, today);
      if days < 0 then NOT_AVAILABLE
      else if days == 0 then TODAY
      else if days == 1 then TOMORROW
      else WrittenOut(date.value.date, days)
  }

  /** The line for a release two or more days ahead. */
  function WrittenOut(d: Date, days: nat): (r: string)
    requires Valid(d)
    ensures Text.IsPrefix(NEXT_RELEASE + LongDate(d) + " (", r)
    ensures r == NEXT_RELEASE + LongDate(d) + " (" + Text.NatToString(days) + " days)"
    ensures r != NOT_AVAILABLE && r != TODAY && r != TOMORROW
  {
    var r := NEXT_RELEASE + LongDate(d) + " (" + Text.NatToString(days) + " days)";
    assert r[12] == ':' && r[14] == LongDate(d)[0];
    r
  }

  /** End to end: the line for a scheduled indicator's own estimate never says
      "not available" and never "Today". */
  lemma ScheduledLineLooksAhead(indicator: string, today: DateTime)
    requires ValidDateTime(today) && indicator in SCHEDULES
    ensures var r := FormatReleaseDate(NextReleaseDate(indicator, today), Some(indicator), today);
            r != NOT_AVAILABLE && r != TODAY
  {
    EstimateIsAfterToday(indicator, today);
  }
}

=== FILE: text.dfy ===
/** Python string operations the core relies on: `pat in s`, `sep.join(parts)`,
    string ordering (as used by `sorted`) and `str(n)` for natural numbers. */
module Text {

  /** `p` is a prefix of `s` (Python `s.startswith(p)`). */
  predicate IsPrefix(p: string, s: string) {
    |p| <= |s| && s[..|p|] == p
  }

  /** Python's substring test `pat in s`; the empty pattern occurs in every string. */
  predicate Contains(s: string, pat: string) {
    exists i | 0 <= i <= |s| - |pat| :: OccursAt(s, pat, i)
  }

  /** `pat` occurs in `s` starting at index `i`. */
  predicate OccursAt(s: string, pat: string, i: int) {
    0 <= i <= |s| - |pat| && s[i..i + |pat|] == pat
  }

  lemma ContainsPrefix(p: string, s: string)
    requires IsPrefix(p, s)
    ensures Contains(s, p)
  {
    assert OccursAt(s, p, 0);
  }

  lemma ContainsMiddle(a: string, pat: string, b: string)
    ensures Contains(a + pat + b, pat)
  {
    assert (a + pat + b)[|a|..|a| + |pat|] == pat;
    assert OccursAt(a + pat + b, pat, |a|);
  }

  /** Text put in front of a string keeps every substring it had. */
  lemma ContainsAfterPrefix(a: string, s: string, pat: string)
    ensures Contains(s, pat) ==> Contains(a + s, pat)
  {
    if Contains(s, pat) {
      var i :| 0 <= i <= |s| - |pat| && OccursAt(s, pat, i);
      assert (a + s)[|a| + i..|a| + i + |pat|] == s[i..i + |pat|];
      assert OccursAt(a + s, pat, |a| + i);
    }
  }

  /** Python's `sep.join(parts)`. */
  function Join(parts: seq<string>, sep: string): string
  {
    if |parts| == 0 then ""
    else if |parts| == 1 then parts[0]
    else parts[0] + sep + Join(parts[1..], sep)
  }

  lemma PrefixCancel(p: string, x: string, y: string)
    requires p + x == p + y
    ensures x == y
  {
    assert x == (p + x)[|p|..];
    assert y == (p + y)[|p|..];
  }

  lemma SuffixCancel(x: string, y: string, s: string)
    requires x + s == y + s
    ensures x == y
  {
    assert |x| == |y|;
    assert x == (x + s)[..|x|];
    assert y == (y + s)[..|y|];
  }

  /** Two part lists that differ in exactly one position join to different strings,
      whatever the separator and whatever the parts contain. */
  lemma {:induction false} JoinDiffersAt(a: seq<string>, b: seq<string>, sep: string, i: nat)
    requires |a| == |b| && i < |a|
    requires a[i] != b[i]
    requires forall j :: 0 <= j < |a| && j != i ==> a[j] == b[j]
    ensures Join(a, sep) != Join(b, sep)
    decreases i
  {
    if i == 0 {
      assert a[1..] == b[1..];
      var t := if |a| == 1 then "" else sep + Join(a[1..], sep);
      assert Join(a, sep) == a[0] + t;
      assert Join(b, sep) == b[0] + t;
      if Join(a, sep) == Join(b, sep) {
        SuffixCancel(a[0], b[0], t);
      }
    } else {
      assert a[0] == b[0];
      assert Join(a, sep) == (a[0] + sep) + Join(a[1..], sep);
      assert Join(b, sep) == (a[0] + sep) + Join(b[1..], sep);
      JoinDiffersAt(a[1..], b[1..], sep, i - 1);
      if Join(a, sep) == Join(b, sep) {
        PrefixCancel(a[0] + sep, Join(a[1..], sep), Join(b[1..], sep));
      }
    }
  }

  /** Python's string order `a < b`: code points compared left to right, a proper
      prefix sorting first. */
  predicate Less(a: string, b: string)
  {
    if |a| == 0 then |b| > 0
    else if |b| == 0 then false
    else a[0] < b[0] || (a[0] == b[0] && Less(a[1..], b[1..]))
  }

  lemma {:induction false} LessIrreflexive(a: string)
    ensures !Less(a, a)
  {
    if |a| > 0 {
      LessIrreflexive(a[1..]);
    }
  }

  lemma {:induction false} LessTransitive(a: string, b: string, c: string)
    requires Less(a, b) && Less(b, c)
    ensures Less(a, c)
  {
    if |a| > 0 && |b| > 0 && |c| > 0 && a[0] == b[0] == c[0] {
      LessTransitive(a[1..], b[1..], c[1..]);
    }
  }

  lemma {:induction false} LessTotal(a: string, b: string)
    requires a != b
    ensures Less(a, b) || Less(b, a)
  {
    if |a| > 0 && |b| > 0 && a[0] == b[0] {
      assert a == [a[0]] + a[1..] && b == [b[0]] + b[1..];
      LessTotal(a[1..], b[1..]);
    }
  }

  lemma LessAsymmetric(a: string, b: string)
    requires Less(a, b)
    ensures !Less(b, a)
  {
    if Less(b, a) {
      LessTransitive(a, b, a);
      LessIrreflexive(a);
    }
  }

  /** Python's `str(n)` for a natural number. */
  function NatToString(n: nat): (s: string)
    ensures |s| >= 1
    ensures forall i :: 0 <= i < |s| ==> '0' <= s[i] <= '9'
  {
    if n < 10 then [Digit(n)] else NatToString(n / 10) + [Digit(n % 10)]
  }

  function Digit(d: nat): (c: char)
    requires d < 10
    ensures '0' <= c <= '9'
  {
    "0123456789"[d]
  }

  /** `str(n)` left-padded with zeros to `width` characters (`%02d`-style). */
  function ZeroPad(n: nat, width: nat): (s: string)
    ensures |s| >= width
  {
    var digits := NatToString(n);
    if |digits| >= width then digits else seq(width - |digits|, _ => '0') + digits
  }
}

=== FILE: warning_signals.dfy ===
/** The status decisions of visualization/warning_signals.py: the red/green/grey
    indicator, multi-threshold labels, the trend arrow, value coercion, the
    config-driven status of `generate_indicator_warning`, the USD liquidity
    verdict and the regime quadrant. HTML layout and number formatting are kept
    only where the status depends on them. */
module WarningSignals {
  import opened Wrappers
  import opened Text
  import opened IndicatorRegistry
  import Processing

  /** The coloured dots the functions return. */
  datatype Indicator = Red | Green | Grey | Yellow

  function Emoji(i: Indicator): string {
    match i
    case Red => "\U{1F534}"
    case Green => "\U{1F7E2}"
    case Grey => "\U{26AA}"
    case Yellow => "\U{1F7E1}"
  }

  datatype Status = Bullish | Bearish | Neutral

  function StatusName(s: Status): string {
    match s
    case Bullish => "Bullish"
    case Bearish => "Bearish"
    case Neutral => "Neutral"
  }

  // ---------------------------------------------------------------------------
  // Python values and their coercion
  // ---------------------------------------------------------------------------

  /** A scalar as the status code sees it. `NaN` stands for every value pandas
      calls missing other than `None`. */
  datatype Scalar = NoneValue | NaN | Num(x: real) | Flag(b: bool) | Str(s: string)

  /** A data value: a scalar, a pandas Series, or a one-dimensional list, tuple or
      numpy array. */
  datatype PyValue = Atom(scalar: Scalar) | Series(items: seq<Scalar>) | Array(items: seq<Scalar>)

  /** `_coerce_scalar`: the last element of a sequence, `None` for an empty one,
      a scalar unchanged. */
  function CoerceScalar(v: PyValue): (s: Scalar)
    ensures v.Atom? ==> s == v.scalar
    ensures !v.Atom? && |v.items| == 0 ==> s == NoneValue
    ensures !v.Atom? && |v.items| > 0 ==> s == v.items[|v.items| - 1]
  {
    match v
    case Atom(x) => x
    case Series(items) => if |items| == 0 then NoneValue else items[|items| - 1]
    case Array(items) => if |items| == 0 then NoneValue else items[|items| - 1]
  }

  /** `_is_missing`: `None` or NaN. */
  predicate IsMissing(s: Scalar) {
    s.NoneValue? || s.NaN?
  }

  /** Python's `bool()` of a present scalar. */
  predicate Truthy(s: Scalar) {
    match s
    case Num(x) => x != 0.0
    case Flag(b) => b
    case Str(t) => |t| > 0
    case _ => true
  }

  /** `_coerce_bool`: missing values are false, anything else is its truth value. */
  function CoerceBool(v: PyValue): (b: bool)
    ensures b ==> !IsMissing(CoerceScalar(v))
  {
    var s := CoerceScalar(v);
    !IsMissing(s) && Truthy(s)
  }

  /** An empty sequence or a missing last element never reads as true, and a
      sequence of flags reads as its last flag. */
  lemma CoerceBoolSequences(items: seq<Scalar>, flags: seq<bool>)
    ensures !CoerceBool(Series([])) && !CoerceBool(Array([]))
    ensures |items| > 0 && IsMissing(items[|items| - 1]) ==> !CoerceBool(Series(items)) && !CoerceBool(Array(items))
    ensures |flags| > 0 ==> CoerceBool(Array(seq(|flags|, i requires 0 <= i < |flags| => Flag(flags[i])))) == flags[|flags| - 1]
  {
  }

  // ---------------------------------------------------------------------------
  // Single indicator, multi-threshold status, trend
  // ---------------------------------------------------------------------------

  /** `create_warning_indicator`. */
  function WarningIndicator(value: real, threshold: real, higherIsBad: bool, neutral: bool): (r: Indicator)
    ensures neutral <==> r == Grey
    ensures r != Yellow
    ensures !neutral && higherIsBad ==> (r == Red <==> value > threshold)
    ensures !neutral && !higherIsBad ==> (r == Red <==> value < threshold)
  {
    if neutral then Grey
    else if higherIsBad then (if value > threshold then Red else Green)
    else if value < threshold then Red else Green
  }

  /** A value equal to the threshold is never a warning. */
  lemma WarningIndicatorAtThreshold(t: real, higherIsBad: bool)
    ensures WarningIndicator(t, t, higherIsBad, false) == Green
  {
  }

  /** The call `create_warning_indicator(flag, 0.5)` the generators use: red
      exactly when the flag is true. */
  function FlagIndicator(bad: bool): (r: Indicator)
    ensures r == Red <==> bad
    ensures r == Green <==> !bad
  {
    WarningIndicator(if bad then 1.0 else 0.0, 0.5, true, false)
  }

  const DEFAULT_LABELS: seq<string> := ["Normal", "Warning", "Alert", "Critical"]
  const LABEL_COUNT_ERROR: string := "Number of labels should be one more than number of thresholds"

  /** `value` falls at or before `threshold` in the scan of `create_warning_status`. */
  predicate Hit(value: real, threshold: real, higherIsBad: bool) {
    if higherIsBad then value <= threshold else value >= threshold
  }

  /** Index of the first threshold the value hits, or `|thresholds|` if none. */
  function FirstHit(value: real, thresholds: seq<real>, higherIsBad: bool): (i: nat)
    ensures i <= |thresholds|
    ensures forall j :: 0 <= j < i ==> !Hit(value, thresholds[j], higherIsBad)
    ensures i < |thresholds| ==> Hit(value, thresholds[i], higherIsBad)
  {
    if |thresholds| == 0 then 0
    else if Hit(value, thresholds[0], higherIsBad) then 0
    else 1 + FirstHit(value, thresholds[1..], higherIsBad)
  }

  /** `create_warning_status`: the label of the first threshold the value hits,
      else the last label; a ValueError when the label count is wrong. */
  function WarningStatus(value: real, thresholds: seq<real>, labels: Option<seq<string>>, higherIsBad: bool): (r: Result<string, string>)
    ensures var ls := labels.GetOr(DEFAULT_LABELS);
            && (r.Err? <==> |ls| != |thresholds| + 1)
            && (r.Err? ==> r.error == LABEL_COUNT_ERROR)
            && (r.Ok? ==> r.value in ls)
            && (r.Ok? ==> exists i :: 0 <= i <= |thresholds| && r.value == ls[i]
                            && (forall j :: 0 <= j < i ==> !Hit(value, thresholds[j], higherIsBad))
                            && (i < |thresholds| ==> Hit(value, thresholds[i], higherIsBad)))
  {
    var ls := labels.GetOr(DEFAULT_LABELS);
    if |ls| != |thresholds| + 1 then Err(LABEL_COUNT_ERROR)
    else Ok(ls[FirstHit(value, thresholds, higherIsBad)])
  }

  /** How many thresholds lie strictly below `value`. */
  function CountBelow(thresholds: seq<real>, value: real): (n: nat)
    ensures n <= |thresholds|
  {
    if |thresholds| == 0 then 0
    else (if thresholds[0] < value then 1 else 0) + CountBelow(thresholds[1..], value)
  }

  /** How many thresholds lie strictly above `value`. */
  function CountAbove(thresholds: seq<real>, value: real): (n: nat)
    ensures n <= |thresholds|
  {
    if |thresholds| == 0 then 0
    else (if thresholds[0] > value then 1 else 0) + CountAbove(thresholds[1..], value)
  }

  predicate Ascending(t: seq<real>) {
    forall i, j :: 0 <= i < j < |t| ==> t[i] <= t[j]
  }

  predicate Descending(t: seq<real>) {
    forall i, j :: 0 <= i < j < |t| ==> t[i] >= t[j]
  }

  /** With ascending thresholds and higher values bad, the label index is the
      number of thresholds the value exceeds. */
  lemma {:induction false} FirstHitAscending(value: real, t: seq<real>)
    requires Ascending(t)
    ensures FirstHit(value, t, true) == CountBelow(t, value)
  {
    if |t| > 0 {
      assert Ascending(t[1..]);
      if value <= t[0] {
        NoneBelow(value, t[1..]);
      } else {
        FirstHitAscending(value, t[1..]);
      }
    }
  }

  lemma {:induction false} NoneBelow(value: real, t: seq<real>)
    requires forall i :: 0 <= i < |t| ==> value <= t[i]
    ensures CountBelow(t, value) == 0
  {
    if |t| > 0 {
      NoneBelow(value, t[1..]);
    }
  }

  /** With descending thresholds and lower values bad, the label index is the
      number of thresholds above the value. */
  lemma {:induction false} FirstHitDescending(value: real, t: seq<real>)
    requires Descending(t)
    ensures FirstHit(value, t, false) == CountAbove(t, value)
  {
    if |t| > 0 {
      assert Descending(t[1..]);
      if value >= t[0] {
        NoneAbove(value, t[1..]);
      } else {
        FirstHitDescending(value, t[1..]);
      }
    }
  }

  lemma {:induction false} NoneAbove(value: real, t: seq<real>)
    requires forall i :: 0 <= i < |t| ==> value >= t[i]
    ensures CountAbove(t, value) == 0
  {
    if |t| > 0 {
      NoneAbove(value, t[1..]);
    }
  }

  /** Sorted thresholds pick the label by counting: ascending ones with higher
      values bad, descending ones with lower values bad. */
  lemma WarningStatusSorted(value: real, thresholds: seq<real>, labels: seq<string>)
    requires |labels| == |thresholds| + 1
    ensures Ascending(thresholds) ==>
              WarningStatus(value, thresholds, Some(labels), true) == Ok(labels[CountBelow(thresholds, value)])
    ensures Descending(thresholds) ==>
              WarningStatus(value, thresholds, Some(labels), false) == Ok(labels[CountAbove(thresholds, value)])
  {
    if Ascending(thresholds) {
      FirstHitAscending(value, thresholds);
    }
    if Descending(thresholds) {
      FirstHitDescending(value, thresholds);
    }
  }

  /** What `create_trend_indicator` reports. */
  datatype Trend = InsufficientData | Increasing | Decreasing | UpwardBias | DownwardBias | Flat

  function TrendLabel(t: Trend): string {
    match t
    case InsufficientData => "\U{26AA} Insufficient data"
    case Increasing => "\U{1F4C8} Increasing"
    case Decreasing => "\U{1F4C9} Decreasing"
    case UpwardBias => "\U{2197}\U{FE0F} Mixed (upward bias)"
    case DownwardBias => "\U{2198}\U{FE0F} Mixed (downward bias)"
    case Flat => "\U{27A1}\U{FE0F} Flat"
  }

  /** Start index of Python's `values[-periods:]`. */
  function SuffixStart(n: nat, periods: int): (s: nat)
    ensures s <= n
    ensures periods >= 1 && n >= periods ==> s == n - periods
  {
    if periods > 0 then (if n >= periods then n - periods else 0)
    else if -periods <= n then -periods else n
  }

  /** The window `values[-periods:]`. */
  function Window(values: seq<real>, periods: int): seq<real> {
    values[SuffixStart(|values|, periods)..]
  }

  /** `create_trend_indicator`. */
  function TrendIndicator(values: seq<real>, periods: int): (r: Trend)
    ensures r == InsufficientData <==> |values| < periods
    ensures r in {UpwardBias, DownwardBias, Flat} ==> |Window(values, periods)| >= 2
    ensures |values| >= periods ==>
              var w := Window(values, periods);
              (r == Increasing <==> forall i :: 0 <= i < |w| - 1 ==> w[i] < w[i + 1])
    ensures |values| >= periods ==>
              var w := Window(values, periods);
              (r == Decreasing <==> && !(forall i :: 0 <= i < |w| - 1 ==> w[i] < w[i + 1])
                                    && (forall i :: 0 <= i < |w| - 1 ==> w[i] > w[i + 1]))
    ensures |values| >= periods && r !in {Increasing, Decreasing} ==>
              var w := Window(values, periods);
              r == (if w[|w| - 1] > w[0] then UpwardBias else if w[|w| - 1] < w[0] then DownwardBias else Flat)
  {
    if |values| < periods then InsufficientData
    else
      var w := Window(values, periods);
      if Processing.AllSteps(w, 0, |w| - 1, false) then Increasing
      else if Processing.AllSteps(w, 0, |w| - 1, true) then Decreasing
      else if w[|w| - 1] > w[0] then UpwardBias
      else if w[|w| - 1] < w[0] then DownwardBias
      else Flat
  }

  /** With one value more than the window, the trend arrow and the run checks of
      data/processing.py agree: "Increasing" exactly when the last `periods`
      values rise, and, for windows of two or more, "Decreasing" exactly when
      they fall. */
  lemma TrendAgreesWithRunChecks(values: seq<real>, periods: int)
    requires periods >= 1 && |values| >= periods + 1
    ensures TrendIndicator(values, periods) == Increasing <==> Processing.CheckConsecutiveIncrease(values, periods)
    ensures periods >= 2 ==>
              (TrendIndicator(values, periods) == Decreasing <==> Processing.CheckConsecutiveDecrease(values, periods))
  {
    var w := Window(values, periods);
    WindowRun(values, periods, false);
    WindowRun(values, periods, true);
    if periods >= 2 {
      assert !(Processing.Step(w[0], w[1], false) && Processing.Step(w[0], w[1], true));
    }
  }

  /** The window rises (falls) throughout exactly when the run check's steps hold. */
  lemma WindowRun(values: seq<real>, periods: int, decreasing: bool)
    requires periods >= 1 && |values| >= periods + 1
    ensures var w := Window(values, periods);
            Processing.AllSteps(w, 0, |w| - 1, decreasing) <==> Processing.RunAtEnd(values, periods, decreasing)
  {
    var n := |values|;
    var w := Window(values, periods);
    assert |w| == periods;
    forall i | n - periods <= i < n - 1
      ensures Processing.Step(values[i], values[i + 1], decreasing) == Processing.Step(w[i - (n - periods)], w[i - (n - periods) + 1], decreasing)
    {
      assert w[i - (n - periods)] == values[i];
      assert w[i - (n - periods) + 1] == values[i + 1];
    }
    if !Processing.RunAtEnd(values, periods, decreasing) {
      var i :| n - periods <= i < n - 1 && !Processing.Step(values[i], values[i + 1], decreasing);
      assert !Processing.Step(w[i - (n - periods)], w[i - (n - periods) + 1], decreasing);
    }
  }

  /** A window that neither rises nor falls throughout is judged by its ends. */
  lemma TrendOfMixedWindow(values: seq<real>, periods: int)
    requires |values| >= periods
    requires var w := Window(values, periods);
             && (exists i :: 0 <= i < |w| - 1 && w[i] >= w[i + 1])
             && (exists i :: 0 <= i < |w| - 1 && w[i] <= w[i + 1])
    ensures var w := Window(values, periods);
            TrendIndicator(values, periods) == (if w[|w| - 1] > w[0] then UpwardBias
                                                else if w[|w| - 1] < w[0] then DownwardBias
                                                else Flat)
  {
  }

  // ---------------------------------------------------------------------------
  // Config-driven status (generate_indicator_warning)
  // ---------------------------------------------------------------------------

  /** The `config` argument: an `IndicatorConfig`, or anything else. */
  datatype ConfigArg = Config(config: IndicatorConfig) | NotAConfig

  /** A pandas DataFrame: its columns by name. */
  datatype Frame = Frame(columns: map<string, seq<Scalar>>)

  /** The `data` dictionary: plain entries, and the DataFrame under `'data'` when
      there is one. */
  datatype WarningData = WarningData(fields: map<string, PyValue>, nested: Option<Frame>)

  /** The returned dictionary: a status with its dot, or the status a custom
      function's message was read as, with that message. */
  datatype Warning = Classified(status: Status, dot: Indicator) | Custom(status: Status, message: string)

  const TYPE_ERROR: string := "config must be an IndicatorConfig object"
  const INDEX_ERROR: string := "single positional indexer is out-of-bounds"
  /** The `TypeError` messages of comparing a string with a float threshold, for
      `latest_value < threshold` and `latest_value > threshold`. */
  const LESS_THAN_ERROR: string := "'<' not supported between instances of 'str' and 'float'"
  const GREATER_THAN_ERROR: string := "'>' not supported between instances of 'str' and 'float'"

  /** `data.get(key, default)`. */
  function Get(data: WarningData, key: string, default: PyValue): PyValue {
    if key in data.fields then data.fields[key] else default
  }

  predicate FrameEmpty(f: Frame) {
    |f.columns| == 0 || forall c | c in f.columns :: |f.columns[c]| == 0
  }

  /** The non-missing values of a column (`dropna`). */
  function DropMissing(col: seq<Scalar>): (r: seq<Scalar>)
    ensures forall s :: s in r <==> s in col && !IsMissing(s)
  {
    if |col| == 0 then []
    else (if IsMissing(col[0]) then [] else [col[0]]) + DropMissing(col[1..])
  }

  /** The first of the four lookups that applies, before coercion; `None` when
      none does. Reading the last row of an empty Series raises IndexError. */
  function RawLatest(data: WarningData, c: IndicatorConfig): Result<PyValue, string> {
    if "current_value" in data.fields then Ok(data.fields["current_value"])
    else if c.valueColumn in data.fields && data.fields[c.valueColumn].Series? then
      var items := data.fields[c.valueColumn].items;
      if |items| == 0 then Err(INDEX_ERROR) else Ok(Atom(items[|items| - 1]))
    else if "latest_value" in data.fields then Ok(data.fields["latest_value"])
    else if "current_" + c.key in data.fields then Ok(data.fields["current_" + c.key])
    else Ok(Atom(NoneValue))
  }

  /** The latest value: the coerced lookup, and when that is `None` (not NaN) the
      last non-missing entry of the nested frame's value column. */
  function LatestValue(data: WarningData, c: IndicatorConfig): (r: Result<Scalar, string>)
    ensures r.Err? <==> RawLatest(data, c).Err?
    ensures r.Ok? && CoerceScalar(RawLatest(data, c).value) != NoneValue ==> r.value == CoerceScalar(RawLatest(data, c).value)
    ensures r.Ok? && r.value != NoneValue && CoerceScalar(RawLatest(data, c).value) == NoneValue ==>
              data.nested.Some? && c.valueColumn in data.nested.value.columns
              && r.value in data.nested.value.columns[c.valueColumn] && !IsMissing(r.value)
  {
    match RawLatest(data, c)
    case Err(e) => Err(e)
    case Ok(raw) =>
      var latest := CoerceScalar(raw);
      if latest != NoneValue then Ok(latest)
      else match data.nested
        case Some(f) =>
          if !FrameEmpty(f) && c.valueColumn in f.columns then
            var vals := DropMissing(f.columns[c.valueColumn]);
            if |vals| > 0 then Ok(vals[|vals| - 1]) else Ok(latest)
          else Ok(latest)
        case None => Ok(latest)
  }

  /** The number Python compares with the threshold; strings cannot be compared. */
  function Numeric(s: Scalar): Option<real> {
    match s
    case Num(x) => Some(x)
    case Flag(b) => Some(if b then 1.0 else 0.0)
    case _ => None
  }

  /** The dot shown with each status. */
  function StatusDot(s: Status): Indicator {
    match s
    case Bullish => FlagIndicator(false)
    case Bearish => FlagIndicator(true)
    case Neutral => WarningIndicator(0.0, 0.5, true, true)
  }

  /** A threshold condition: missing is Neutral; below_threshold is Bullish when
      the value is under the threshold, above_threshold when it is over it;
      otherwise Bearish. */
  function ThresholdStatus(latest: Scalar, threshold: real, below: bool): (r: Result<Status, string>)
    ensures IsMissing(latest) ==> r == Ok(Neutral)
    ensures !IsMissing(latest) && Numeric(latest).None? ==>
              r == Err(if below then LESS_THAN_ERROR else GREATER_THAN_ERROR)
    ensures !IsMissing(latest) && Numeric(latest).Some? ==>
              r.Ok? && (r.value == Bullish <==> (if below then Numeric(latest).value < threshold else Numeric(latest).value > threshold))
              && r.value != Neutral
  {
    if IsMissing(latest) then Ok(Neutral)
    else match Numeric(latest)
      case None => Err(if below then LESS_THAN_ERROR else GREATER_THAN_ERROR)
      case Some(v) => Ok(if (if below then v < threshold else v > threshold) then Bullish else Bearish)
  }

  /** Indicators for which a rise is good news. */
  const INVERTED_KEYS: seq<string> := ["hours_worked", "new_orders", "pscf_price"]

  /** The `decreasing` condition: the increasing flag is looked at first, and the
      polarity is flipped for the inverted indicators. */
  function TrendStatus(key: string, increasing: bool, decreasing: bool): (s: Status)
    ensures s == Neutral <==> !increasing && !decreasing
    ensures increasing ==> (s == Bullish <==> key in INVERTED_KEYS)
    ensures !increasing && decreasing ==> (s == Bullish <==> key !in INVERTED_KEYS)
  {
    if increasing then (if key in INVERTED_KEYS then Bullish else Bearish)
    else if decreasing then (if key in INVERTED_KEYS then Bearish else Bullish)
    else Neutral
  }

  /** The branches of `generate_indicator_warning` after the custom one. */
  function ClassifyByConfig(data: WarningData, c: IndicatorConfig): (r: Result<Warning, string>)
    ensures r.Ok? ==> r.value.Classified? && r.value.dot == StatusDot(r.value.status)
    ensures LatestValue(data, c).Err? ==> r.Err?
    ensures LatestValue(data, c).Ok? && c.bullishCondition == "below_threshold" && c.threshold.Some? ==>
              r == (match ThresholdStatus(LatestValue(data, c).value, c.threshold.value, true)
                    case Err(e) => Err(e)
                    case Ok(s) => Ok(Classified(s, StatusDot(s))))
    ensures LatestValue(data, c).Ok? && c.bullishCondition == "above_threshold" && c.threshold.Some? ==>
              r == (match ThresholdStatus(LatestValue(data, c).value, c.threshold.value, false)
                    case Err(e) => Err(e)
                    case Ok(s) => Ok(Classified(s, StatusDot(s))))
    ensures LatestValue(data, c).Ok? && c.bullishCondition == "decreasing" ==>
              var s := TrendStatus(c.key,
                                   CoerceBool(Get(data, c.key + "_increasing", Atom(Flag(false)))),
                                   CoerceBool(Get(data, c.key + "_decreasing", Atom(Flag(false)))));
              r == Ok(Classified(s, StatusDot(s)))
    ensures LatestValue(data, c).Ok?
            && !(c.bullishCondition in {"below_threshold", "above_threshold"} && c.threshold.Some?)
            && c.bullishCondition != "decreasing" ==>
              r == Ok(Classified(Neutral, StatusDot(Neutral)))
  {
    match LatestValue(data, c)
    case Err(e) => Err(e)
    case Ok(latest) =>
      var status :=
        if c.bullishCondition == "below_threshold" && c.threshold.Some? then
          ThresholdStatus(latest, c.threshold.value, true)
        else if c.bullishCondition == "above_threshold" && c.threshold.Some? then
          ThresholdStatus(latest, c.threshold.value, false)
        else if c.bullishCondition == "decreasing" then
          Ok(TrendStatus(c.key,
                         CoerceBool(Get(data, c.key + "_increasing", Atom(Flag(false)))),
                         CoerceBool(Get(data, c.key + "_decreasing", Atom(Flag(false))))))
        else Ok(Neutral);
      match status
      case Err(e) => Err(e)
      case Ok(s) => Ok(Classified(s, StatusDot(s)))
  }

  /** The config names a custom status function (a non-empty dotted path). */
  predicate UsesCustomStatus(c: IndicatorConfig) {
    c.bullishCondition == "custom" && c.customStatusFn.Some? && |c.customStatusFn.value| > 0
  }

  const DESCRIPTION_OPEN: string := "<div style='margin-bottom: 1rem;'><strong>Signal Description:</strong><br/>"
  const DESCRIPTION_CLOSE: string := "</div>\n\n"

  /** The custom message with the indicator's description put in front, unless it
      is empty or already present. */
  function WithDescription(description: string, message: string): (r: string)
    ensures Contains(message, "Bearish") ==> Contains(r, "Bearish")
  {
    if |description| > 0 && !Contains(message, description) then
      ContainsAfterPrefix(DESCRIPTION_OPEN + description + DESCRIPTION_CLOSE, message, "Bearish");
      DESCRIPTION_OPEN + description + DESCRIPTION_CLOSE + message
    else message
  }

  /** The status heuristic of the custom branch as written: "Bearish" anywhere in
      the message wins, then "Bullish" anywhere, else Neutral. */
  function StatusFromText(message: string): (s: Status)
    ensures Contains(message, "Bearish") ==> s == Bearish
    ensures s == Bullish ==> Contains(message, "Bullish")
    ensures !Contains(message, "Bearish") && Contains(message, "Bullish") ==> s == Bullish
    ensures s == Neutral <==> !Contains(message, "Bearish") && !Contains(message, "Bullish")
  {
    if Contains(message, "Bearish") then Bearish
    else if Contains(message, "Bullish") then Bullish
    else Neutral
  }

  /** `generate_indicator_warning` as written. The custom status function the
      config names is called through `customFn`. */
  function GenerateIndicatorWarningAsWritten(data: WarningData, arg: ConfigArg, customFn: WarningData -> string): (r: Result<Warning, string>)
    ensures arg.NotAConfig? ==> r == Err(TYPE_ERROR)
    ensures arg.Config? && UsesCustomStatus(arg.config) ==>
              r.Ok? && r.value.Custom? && (Contains(customFn(data), "Bearish") ==> r.value.status == Bearish)
  {
    match arg
    case NotAConfig => Err(TYPE_ERROR)
    case Config(c) =>
      if UsesCustomStatus(c) then
        var message := WithDescription(c.warningDescription, customFn(data));
        Ok(Custom(StatusFromText(message), message))
      else ClassifyByConfig(data, c)
  }

  /** What a custom status function produces: the verdict word it shows, and the
      full message. */
  datatype CustomReport = CustomReport(verdict: string, message: string)

  /** The status a verdict word stands for. */
  function StatusOfVerdict(verdict: string): (s: Status)
    ensures s == Bullish <==> verdict == "Bullish"
    ensures s == Bearish <==> verdict == "Bearish"
  {
    if verdict == "Bullish" then Bullish
    else if verdict == "Bearish" then Bearish
    else Neutral
  }

  /** `generate_indicator_warning` with the custom status read from the custom
      function's verdict rather than from every word of its message. */
  function GenerateIndicatorWarning(data: WarningData, arg: ConfigArg, customFn: WarningData -> CustomReport): (r: Result<Warning, string>)
    ensures arg.NotAConfig? ==> r == Err(TYPE_ERROR)
    ensures arg.Config? && UsesCustomStatus(arg.config) ==>
              r.Ok? && r.value.Custom? && (r.value.status == Bullish <==> customFn(data).verdict == "Bullish")
              && (r.value.status == Bearish <==> customFn(data).verdict == "Bearish")
    ensures arg.Config? && !UsesCustomStatus(arg.config) ==> r == ClassifyByConfig(data, arg.config)
  {
    match arg
    case NotAConfig => Err(TYPE_ERROR)
    case Config(c) =>
      if UsesCustomStatus(c) then
        var report := customFn(data);
        Ok(Custom(StatusOfVerdict(report.verdict), WithDescription(c.warningDescription, report.message)))
      else ClassifyByConfig(data, c)
  }

  /** The two versions differ only in the custom branch. */
  lemma VersionsAgreeOffCustom(data: WarningData, c: IndicatorConfig, f: WarningData -> string, g: WarningData -> CustomReport)
    requires !UsesCustomStatus(c)
    ensures GenerateIndicatorWarningAsWritten(data, Config(c), f) == GenerateIndicatorWarning(data, Config(c), g)
  {
  }

  /** A data dictionary holding only `latest_value`. */
  function LatestOnly(v: PyValue): WarningData {
    WarningData(map["latest_value" := v], None)
  }

  /** With only `latest_value` given, a threshold indicator is classified by that
      value's last element, as when a numpy array is passed. */
  lemma ThresholdFromLatestValue(c: IndicatorConfig, v: PyValue, x: real)
    requires c.valueColumn != "latest_value"
    requires c.bullishCondition == "below_threshold" && c.threshold.Some?
    requires CoerceScalar(v) == Num(x)
    ensures ClassifyByConfig(LatestOnly(v), c) ==
              Ok(Classified(if x < c.threshold.value then Bullish else Bearish, StatusDot(if x < c.threshold.value then Bullish else Bearish)))
  {
    assert "current_value" !in LatestOnly(v).fields;
  }

  /** Every threshold or trend indicator of the registry classifies a numeric
      `latest_value` without raising. */
  lemma RegistryClassifiesNumbers(i: nat, x: real)
    requires i < |REGISTRY| && REGISTRY[i].1.bullishCondition != "custom"
    ensures ClassifyByConfig(LatestOnly(Atom(Num(x))), REGISTRY[i].1).Ok?
  {
    var c := REGISTRY[i].1;
    var data := LatestOnly(Atom(Num(x)));
    assert "current_value" !in data.fields;
    assert c.valueColumn != "latest_value" by { RegistryValueColumns(); }
    assert RawLatest(data, c) == Ok(Atom(Num(x)));
  }

  lemma RegistryValueColumns()
    ensures forall i :: 0 <= i < |REGISTRY| ==> REGISTRY[i].1.valueColumn != "latest_value"
  {
  }

  // ---------------------------------------------------------------------------
  // USD liquidity
  // ---------------------------------------------------------------------------

  const WARNING_COLORS: map<string, string> := map["bearish" := "#f44336", "bullish" := "#00c853", "neutral" := "#78909c"]

  /** The first line of `format_warning_message`: dot and coloured verdict. */
  function MessageHead(dot: string, message: string): (r: string)
    ensures IsPrefix(dot + " ", r)
  {
    var color := if message == "Bearish" then WARNING_COLORS["bearish"]
                 else if message == "Bullish" then WARNING_COLORS["bullish"]
                 else WARNING_COLORS["neutral"];
    var r := dot + " " + "<span style='color: " + color + ";'>" + message + "</span>";
    assert r[..|dot + " "|] == dot + " ";
    r
  }

  /** `format_warning_message`: the head, then the details when there are any. */
  function FormatWarningMessage(dot: string, message: string, details: string): (r: string)
    ensures IsPrefix(dot + " ", r)
    ensures |details| > 0 ==> r == MessageHead(dot, message) + "\n\n" + details
  {
    var head := MessageHead(dot, message);
    if |details| > 0 then
      assert (head + "\n\n" + details)[..|dot + " "|] == head[..|dot + " "|];
      head + "\n\n" + details
    else head
  }

  /** The opening of the USD liquidity details, up to the current value. */
  const USD_DETAILS_OPEN: string := "\n<div class='financial-figure' style='font-size: 1.1rem; margin-bottom: 0.5rem;'>\nCurrent USD Liquidity: "
  /** The list of signals to watch, which names both verdicts in brackets. */
  const USD_SIGNALS_BEFORE_BEARISH: string := "\n</div>\n\n<div style='margin-top: 0.5rem;'>\n<strong>Key Signals to Watch:</strong>\n<ul style='margin-top: 0.25rem; padding-left: 1.5rem;'>\n    <li>Three consecutive months of increasing liquidity (Bullish)</li>\n    <li>Three consecutive months of decreasing liquidity ("
  const USD_SIGNALS_AFTER_BEARISH: string := ")</li>\n</ul>\n</div>\n"

  /** `generate_usd_liquidity_warning`: Bullish when liquidity is increasing, else
      Bearish when it is decreasing, else "No Trend"; `render` stands for the
      percentage-of-GDP formatting of the current value. */
  function UsdLiquidityReport(data: WarningData, render: Scalar -> string): (r: CustomReport)
    ensures CoerceBool(Get(data, "liquidity_increasing", Atom(Flag(false)))) ==> r.verdict == "Bullish"
    ensures !CoerceBool(Get(data, "liquidity_increasing", Atom(Flag(false)))) ==>
              r.verdict == (if CoerceBool(Get(data, "liquidity_decreasing", Atom(Flag(false)))) then "Bearish" else "No Trend")
    ensures IsPrefix(Emoji(if r.verdict == "Bullish" then Green else if r.verdict == "Bearish" then Red else Grey) + " ", r.message)
  {
    var current := CoerceScalar(Get(data, "current_liquidity", Atom(NoneValue)));
    var increasing := CoerceBool(Get(data, "liquidity_increasing", Atom(Flag(false))));
    var decreasing := CoerceBool(Get(data, "liquidity_decreasing", Atom(Flag(false))));
    var dot := if increasing then FlagIndicator(false)
               else if decreasing then FlagIndicator(true)
               else WarningIndicator(0.0, 0.5, true, true);
    var verdict := if increasing then "Bullish" else if decreasing then "Bearish" else "No Trend";
    var formatted := if IsMissing(current) then "N/A" else render(current);
    CustomReport(verdict, FormatWarningMessage(Emoji(dot), verdict, UsdDetails(formatted)))
  }

  /** The details block under the verdict, around the formatted current value. */
  function UsdDetails(formatted: string): (d: string)
    ensures |d| > 0
  {
    USD_DETAILS_OPEN + formatted + USD_SIGNALS_BEFORE_BEARISH + "Bearish" + USD_SIGNALS_AFTER_BEARISH
  }

  /** Whatever the data, the USD liquidity message mentions "Bearish" (in its list
      of signals to watch). */
  lemma UsdMessageMentionsBearish(data: WarningData, render: Scalar -> string)
    ensures Contains(UsdLiquidityReport(data, render).message, "Bearish")
  {
    var r := UsdLiquidityReport(data, render);
    var current := CoerceScalar(Get(data, "current_liquidity", Atom(NoneValue)));
    var formatted := if IsMissing(current) then "N/A" else render(current);
    var details := UsdDetails(formatted);
    var dot := Emoji(if r.verdict == "Bullish" then Green else if r.verdict == "Bearish" then Red else Grey);
    assert r.message == MessageHead(dot, r.verdict) + "\n\n" + details;
    ContainsMiddle(USD_DETAILS_OPEN + formatted + USD_SIGNALS_BEFORE_BEARISH, "Bearish", USD_SIGNALS_AFTER_BEARISH);
    ContainsAfterPrefix(MessageHead(dot, r.verdict) + "\n\n", details, "Bearish");
  }

  /** The USD liquidity entry of the registry. */
  function UsdLiquidityConfig(): (c: IndicatorConfig)
    ensures UsesCustomStatus(c)
    ensures c.key == "usd_liquidity"
  {
    REGISTRY[8].1
  }

  /** As written, the USD liquidity card is always Bearish, even when liquidity is
      increasing: the message's signal list contains the word. */
  lemma UsdLiquidityAlwaysBearishAsWritten(data: WarningData, render: Scalar -> string)
    ensures var r := GenerateIndicatorWarningAsWritten(data, Config(UsdLiquidityConfig()), d => UsdLiquidityReport(d, render).message);
            r.Ok? && r.value.status == Bearish
  {
    UsdMessageMentionsBearish(data, render);
  }

  /** With the status read from the verdict, the USD liquidity card follows the
      liquidity trend: Bullish when increasing, else Bearish when decreasing,
      else Neutral. */
  lemma UsdLiquidityStatusFollowsTrend(data: WarningData, render: Scalar -> string)
    ensures var r := GenerateIndicatorWarning(data, Config(UsdLiquidityConfig()), d => UsdLiquidityReport(d, render));
            var increasing := CoerceBool(Get(data, "liquidity_increasing", Atom(Flag(false))));
            var decreasing := CoerceBool(Get(data, "liquidity_decreasing", Atom(Flag(false))));
            && r.Ok?
            && (r.value.status == Bullish <==> increasing)
            && (r.value.status == Bearish <==> !increasing && decreasing)
            && (r.value.status == Neutral <==> !increasing && !decreasing)
  {
  }

  // ---------------------------------------------------------------------------
  // Regime quadrant
  // ---------------------------------------------------------------------------

  datatype RegimeWarning = RegimeWarning(status: Status, description: string, dot: Indicator)

  /** `generate_regime_quadrant_warning`; a missing regime reads as "Unknown". */
  function RegimeQuadrantWarning(currentRegime: Option<string>, regimeDescription: Option<string>): (r: RegimeWarning)
    ensures var regime := currentRegime.GetOr("Unknown");
            && (r.status == Bullish <==> regime == "Goldilocks")
            && (r.status == Bearish <==> regime == "Stagflation" || regime == "Deflation")
            && (regimeDescription.None? ==> r.description == "Current regime: " + regime)
  {
    var regime := currentRegime.GetOr("Unknown");
    var statusMap := map["Goldilocks" := Bullish, "Reflation" := Neutral, "Stagflation" := Bearish, "Deflation" := Bearish];
    RegimeWarning(
      if regime in statusMap then statusMap[regime] else Neutral,
      regimeDescription.GetOr("Current regime: " + regime),
      if regime == "Goldilocks" then Green else if regime in ["Stagflation", "Deflation"] then Red else Yellow)
  }

  /** The regime dot matches its status: green for Bullish, red for Bearish,
      yellow for Neutral. */
  lemma RegimeDotMatchesStatus(currentRegime: Option<string>, regimeDescription: Option<string>)
    ensures var r := RegimeQuadrantWarning(currentRegime, regimeDescription);
            && (r.dot == Green <==> r.status == Bullish)
            && (r.dot == Red <==> r.status == Bearish)
            && (r.dot == Yellow <==> r.status == Neutral)
  {
  }
}

=== FILE: wrappers.dfy ===
/** Option and Result: the model's stand-ins for Python's `None` and for
    exceptions raised by an operation. */
module Wrappers {

  /** `None` plays Python's `None`; `Some(v)` any other value. */
  datatype Option<+T> = None | Some(value: T) {

    /** The value, or `default` when there is none (Python's `d.get(k, default)`). */
    function GetOr(default: T): T {
      match this
      case Some(v) => v
      case None => default
    }
  }

  /** The outcome of an operation that may raise: `Err` carries the exception's
      message (`str(e)`) or its kind. */
  datatype Result<+T, +E> = Ok(value: T) | Err(error: E) {

    predicate IsFailure() {
      Err?
    }
  }
}
